=== FILE: README.md ===
# LearningPal in Dafny

This project models LearningPal, a web application. A learner gives a topic, a goal, a current level, a learning style and an optional source document. The server builds a prompt, asks a language model for learning material, and stores the reply as a learning session owned by the learner. The browser then shows the session as flashcards, a practice quiz, a study guide or an assignment.

The model covers these parts:

- **Prompt building** (`PromptBuilder`): the prompt built from the learner's inputs.
- **Reply cleaning** (`LlmResponse`): the reply cleaned of code fences. A reply that does not parse becomes the raw-text fallback. A failed model call becomes the fixed error sentinel.
- **Session table** (`SessionStore`): one row per session, scoped by user. It supports store, get, list newest first, and delete.
- **Learning routes** (`LearningRoutes`): generate, get, list and delete, with their status codes and messages.
- **Account routes** (`Auth`): the bearer-token guard, register, login with a one-time code, verify the code, and resend the code.
- **Home-page checks** (`InputSafety`): the safety check and the form check.
- **Password rule** (`PasswordPolicy`): the sign-up page's password rule.
- **Session page** (`Flashcards`, `Quiz`, `Formatter`, `SessionView`):
  - reading the session id from the path;
  - the style dispatch;
  - the flashcard viewer and its buttons;
  - the quiz viewer;
  - the markdown-like formatter.

The supporting modules are:

- `Wrappers`: `Option` and `Result`.
- `JsText`: the JavaScript string built-ins the code relies on.
- `Json`: JSON values, plus JavaScript property access that can be `undefined` or throw.
- `Http`: responses.

Outside effects become parameters:

- the model reply (`ask`);
- `JSON.parse` (`parse`);
- the clock (`now`, `createdAt`);
- the random draw for one-time codes (`draw`);
- the generated session id;
- bcrypt (`hash`, `check`);
- JWT signing and verification (`sign`, `verify`). The expiry these enforce is modelled: signing stamps `iat` and `exp` in whole seconds, and `Auth.Jwt` states that a verifier gives back the signed claims until the second `exp` is reached, and refuses them from then on.

The database is a map from session id to row. The `users` table that the sessions' `user_id` column references is a set of user ids (`users`).

In several places the code does less than one might expect of such an application. The model follows the code:

- **No repair ladder.** One might expect a reply that does not parse to be repaired in stages (JSON repair, partial-field extraction, then a shape-guaranteed sentinel). The code does none of this. It strips code fences and parses the result. Text that does not parse becomes a fallback with no cards, no questions, and the raw reply as both study guide and assignment. A successful parse is stored unchecked, so its shape is not guaranteed. `LlmResponse.CallLlm` states what the code does.
- **A failed model call is not the only source of `error: true`.** One might expect only the failed-call sentinel to carry the flag. In the code, a parsed object may carry its own `error` key. A parse that yields a string, number or boolean also reaches the error sentinel. This happens because the method body is strict-mode code, so the timestamp assignment on a primitive throws. `LlmResponse.ErrorFlagOrigin` states exactly where the flag can come from.
- **Session ids are not always unique.** One might expect them to be unique by construction. The code relies on the table's primary key: a clash makes the insert fail, and the route answers 500. `LearningRoutes.Generate` states this.
- **Style names are case-sensitive.** The session page matches the style with a case-sensitive switch. The later of the two `displayContent` definitions in learning_session.js is the one in force, because it redefines the first.

## Model

| member | source | states |
|---|---|---|
| JsText.Trim | backend/routes/learning.js:180 | the result is empty exactly when the input is all whitespace; otherwise it starts and ends with a non-whitespace character |
| JsText.TrimStart | frontend/js/home_page.js:37 | strips exactly the leading whitespace: what is removed is whitespace, what remains is a suffix of the input that does not start with whitespace |
| JsText.TrimEnd | frontend/js/home_page.js:37 | strips exactly the trailing whitespace: what is removed is whitespace, what remains is a prefix of the input that does not end with whitespace |
| JsText.TrimStartAppend | frontend/js/home_page.js:37 | for non-blank text, appending a character commutes with stripping the leading whitespace |
| JsText.TrimIgnoresTrailingWhitespace | frontend/js/home_page.js:37 | appending whitespace does not change the trimmed text |
| JsText.TrimKeepsOccurrences | frontend/js/home_page.js:37-64 | a pattern that neither starts nor ends with whitespace occurs in the trimmed text exactly when it occurs in the untrimmed text |
| JsText.ToLower | frontend/js/home_page.js:37 | lower-casing keeps the length and leaves no ASCII capital: each capital becomes its small letter, and every other character stays in place |
| JsText.SplitOn | frontend/js/learning_session.js:3 | the parts contain no separator, there is at least one, and joining them with the separator gives back the input |
| JsText.SplitJoin | frontend/js/learning_session.js:3 | splitting the join of separator-free parts gives back the parts, so splitting is the inverse of joining |
| JsText.NoSeparatorSplit | backend/routes/auth.js:32 | text without the separator splits into the one part itself |
| JsText.SplitPrefix | backend/routes/auth.js:32 | splitting `a` + separator + `b` yields `a` followed by the parts of `b` |
| JsText.NatToString | frontend/js/learning_session.js:394 | the decimal text of a number is non-empty, all digits, and has a leading zero only for zero |
| JsText.NatToStringValue | frontend/js/learning_session.js:394 | reading the decimal text back as digits gives the number |
| JsText.ParseIntOfNatToString | backend/routes/auth.js:158 | `parseInt` of a positive number's decimal text gives that number back, even when non-digits follow it |
| JsText.DigitRun | backend/routes/auth.js:158 | `parseInt` reads the longest run of digits from the start: every character of the run is a digit, and the one after it is not |
| Json.Member | frontend/js/learning_session.js:326-357 | reading a property throws exactly when the value read from is undefined or null, or the read itself threw; a key the object holds gives that key's entry, and any other defined value gives `undefined` |
| InputSafety.MatchesTag | frontend/js/home_page.js:54-57 | the loop reports a tag exactly when a `<` is followed, later, by a `>` with no `>` between them |
| InputSafety.BlacklistWordShape | frontend/js/home_page.js:40-50 | every listed pattern is non-empty, has no capitals, and neither starts nor ends with whitespace, so lower-casing and trimming the input cannot hide it |
| InputSafety.IsInputSafe | frontend/js/home_page.js:36-73 | the input is accepted exactly when it has no tag, its trimmed lower-case form contains none of the 20 patterns, and special characters are at most a tenth of its length |
| InputSafety.FindWord | frontend/js/home_page.js:60-64 | the pattern loop over the trimmed text finds a hit exactly when some pattern occurs in the untrimmed text |
| InputSafety.FindBlacklisted | frontend/js/home_page.js:37-64 | the loop over the lower-cased, trimmed input finds a hit exactly when some pattern occurs in the lower-cased input |
| InputSafety.EmptyIsSafe | frontend/js/home_page.js:36-73 | the empty input passes every check |
| InputSafety.BlacklistedWordRejected | frontend/js/home_page.js:60-64 | any input that contains a listed pattern, whatever surrounds it, is rejected |
| InputSafety.LowerKeepsOccurrence | frontend/js/home_page.js:37 | a pattern with no capitals that occurs in the input still occurs, at the same place, after lower-casing |
| InputSafety.SpecialCountLower | frontend/js/home_page.js:67 | lower-casing does not change the number of special characters |
| InputSafety.TagLower | frontend/js/home_page.js:54-57 | lower-casing neither creates nor removes a tag |
| InputSafety.CaseBlind | frontend/js/home_page.js:36-73 | two inputs that agree after lower-casing are both accepted or both rejected |
| InputSafety.SpecialCountAppend | frontend/js/home_page.js:67 | the special-character count of a concatenation is the sum of the counts of its parts |
| InputSafety.ValidateAllInputs | frontend/js/home_page.js:76-85 | the form passes exactly when each present, non-empty one of topic, goal and source document passes the safety check |
| InputSafety.OtherFieldsIgnored | frontend/js/home_page.js:77 | changing a field other than topic, goal or source document never changes the verdict |
| InputSafety.EmptyFieldsHarmless | frontend/js/home_page.js:80 | an empty inspected field is skipped, so the verdict depends only on the inspected fields that are present |
| PasswordPolicy.RegexIsPolicy | frontend/js/auth_page.js:15 | the regular expression accepts exactly the passwords of at least eight characters, all from letters, digits and `@$!%*?&`, with at least one lower-case letter, one capital, one digit and one symbol |
| PasswordPolicy.IsValidPassword | frontend/js/auth_page.js:14-17 | the single-pass check accepts exactly what the policy and the regular expression accept |
| PasswordPolicy.SubmitDecision | frontend/js/auth_page.js:7-13 | the form is submitted exactly when the password meets the policy; otherwise it is blocked with the criteria alert |
| PasswordPolicy.ExtendingKeepsValid | frontend/js/auth_page.js:15 | appending allowed characters to a valid password keeps it valid |
| PasswordPolicy.ForeignCharRejected | frontend/js/auth_page.js:15 | one character outside the allowed set anywhere makes the password invalid |
| PromptBuilder.Assemble | backend/routes/learning.js:106-128 | the prompt starts with the preamble, the inputs header and the four input lines, and ends with the style instruction; its length accounts for the source lines exactly when a non-blank source is given |
| PromptBuilder.BlankSourceIgnored | backend/routes/learning.js:118 | a source document that is only whitespace gives the same prompt as no source at all |
| PromptBuilder.SameHead | backend/routes/learning.js:107-112 | the head of the prompt depends only on topic, goal, level and style |
| PromptBuilder.SourceLinesInserted | backend/routes/learning.js:118-120 | a non-blank source gives the source-free prompt with the source line and the source instruction inserted just before the closing instruction |
| LlmResponse.StripMarker | backend/routes/learning.js:180 | removing a marker never lengthens the text, and leaves text that lacks the marker unchanged |
| LlmResponse.LeadingTicks | backend/routes/learning.js:180 | counts exactly the run of backticks at the start |
| LlmResponse.StripKeepsShortTickRun | backend/routes/learning.js:180 | a leading run of fewer than three backticks survives fence removal |
| LlmResponse.StripFenceLeavesNone | backend/routes/learning.js:180 | after removing every fence, no three backticks in a row remain |
| LlmResponse.CleanHasNoFence | backend/routes/learning.js:180 | the cleaned reply never contains a code fence |
| LlmResponse.FencedCleansLikeBare | backend/routes/learning.js:180 | a backtick-free reply wrapped in a ```json fence cleans to the same text as the bare reply |
| LlmResponse.ErrorSentinelShape | backend/routes/learning.js:207-230 | the failed-call object is a complete learning material flagged `error: true`, with one card, one question whose answer is `D`, and the apology as guide and assignment |
| LlmResponse.TextFallbackShape | backend/routes/learning.js:184-197 | the parse-failure object is a complete learning material with no cards, no questions, the raw reply as guide and assignment, and no error flag |
| LlmResponse.Normalize | backend/routes/learning.js:177-203 | a parse that throws or gives null yields the raw-text fallback; an object keeps its own entries and gains the timestamp; an array is kept as is; a string, number or boolean yields the error sentinel |
| LlmResponse.CallLlm | backend/routes/learning.js:164-232 | a failed call yields the error sentinel; otherwise the result is decided by what `JSON.parse` makes of the cleaned text, case by case as for `Normalize` |
| LlmResponse.ErrorFlagOrigin | backend/routes/learning.js:164-232 | an `error` key in the result comes from a failed call, from the parsed object itself, or from a parse that gave a primitive, and from nowhere else |
| LlmResponse.FencedReplyLikeBare | backend/routes/learning.js:180-201 | a fenced reply and the same reply without the fence produce the same stored content |
| SessionStore.Varchar | backend/routes/learning.js:33-38 | a text fits a column of width n exactly when it is no longer than n or its excess is all spaces; a fitting text is kept whole, and a longer one is cut to exactly its first n characters |
| SessionStore.NullIfEmpty | backend/routes/learning.js:254 | an empty source document is stored as NULL, and any other source as itself |
| SessionStore.Insert | backend/routes/learning.js:238-268 | with fitting values the insert succeeds exactly when the id is new and the owner is in the `users` table (the foreign key of learning.js:42); it adds one row, keeps all others, stores the inputs, content and time given, and keeps every owner a known user; a successful insert of over-long values stores each bounded column cut to its width |
| SessionStore.Get | backend/routes/learning.js:270-308 | a row is returned exactly when the id exists and belongs to the asking user, and it is that row |
| SessionStore.InsertPos | backend/routes/learning.js:319 | the insertion point splits a newest-first listing into entries strictly newer than the new one and entries not newer |
| SessionStore.InsertDesc | backend/routes/learning.js:319 | inserting into a newest-first listing keeps it newest-first, adds exactly the new entry, and keeps ids distinct |
| SessionStore.ListUserSessions | backend/routes/learning.js:310-336 | the listing is newest first, has no repeated id, lists exactly the user's sessions, and shows each one's id, topic, style and time |
| SessionStore.Delete | backend/routes/learning.js:338-364 | a row is removed, and true reported, exactly when it exists and belongs to the user; nothing else changes |
| SessionStore.DeleteTwice | backend/routes/learning.js:338-364 | a second delete of the same session reports false and changes nothing, and other sessions read back as before |
| SessionStore.StoreThenGet | backend/routes/learning.js:238-308 | a session stored for a registered user reads back, for its owner, with the stored inputs and content, and is invisible to any other user |
| SessionStore.ListedUntilDeleted | backend/routes/learning.js:310-364 | an owned session is listed until it is deleted, and deleting it removes only it from the listing |
| LearningRoutes.OrEmpty | backend/routes/learning.js:384 | a missing or empty source becomes the empty text, and a given one is kept |
| LearningRoutes.ValidateGenerate | backend/routes/learning.js:373-386 | the request is refused with 400 "Missing required fields" exactly when topic, goal, level or style is missing or empty; otherwise it yields the given inputs |
| LearningRoutes.ValidateCompleteInputs | backend/routes/learning.js:373-386 | validating the body built from complete inputs gives back those inputs |
| LearningRoutes.Generate | backend/routes/learning.js:371-396 | 400 exactly on missing fields; on success the cleaned reply is stored under the new id and returned with `success: true`; with fitting values, success comes exactly when the id is new and the caller is in the `users` table; a failed insert gives 500 "Failed to generate learning material" and leaves the store unchanged |
| LearningRoutes.GetSession | backend/routes/learning.js:399-414 | 200 exactly when the session exists and belongs to the user, with its stored content; otherwise 404 "Session not found" |
| LearningRoutes.UserSessions | backend/routes/learning.js:417-426 | always 200, with one summary per session the user owns, newest first |
| LearningRoutes.DistinctIdsCount | backend/routes/learning.js:319-328 | a listing without repeated ids has as many entries as ids |
| LearningRoutes.DeleteSession | backend/routes/learning.js:429-444 | 200 "Session deleted successfully" exactly when the user owns the session; otherwise 404 "Session not found or access denied", with the store unchanged |
| LearningRoutes.GenerateThenGet | backend/routes/learning.js:371-414 | after a successful generate for a registered user, the owner reads back exactly the generated content and any other user gets 404 |
| LearningRoutes.DeleteThenGet | backend/routes/learning.js:399-444 | after a successful delete, reading or deleting the same session again gives 404 |
| Flashcards.Prev | frontend/js/learning_session.js:193-198 | a disabled button does nothing; otherwise the previous card is shown face up with fresh buttons, except on the first card, where nothing changes; a `null` card moves only the index and leaves the face and buttons of the card last shown |
| Flashcards.Next | frontend/js/learning_session.js:200-205 | a disabled button does nothing; otherwise the next card is shown face up with fresh buttons, except on the last card, where nothing changes; a `null` card moves only the index and leaves the face and buttons of the card last shown |
| Flashcards.FlipTo | frontend/js/learning_session.js:211-227 | flipping sets the face as asked and keeps the card |
| Flashcards.OnKey | frontend/js/learning_session.js:229-258 | left and right arrows act as the previous and next buttons; up, down and space turn the card over; any other key does nothing |
| Flashcards.Step | frontend/js/learning_session.js:164-209 | every action keeps the card index within the deck, and a click on the card turns it over |
| Flashcards.RunKeepsBounds | frontend/js/learning_session.js:132-258 | any sequence of actions keeps the deck size, its cards and a valid card index |
| Flashcards.RunStaysInSync | frontend/js/learning_session.js:92-117 | in a deck without `null` cards, the screen always shows the card the index names |
| Flashcards.NullCardSkipped | frontend/js/learning_session.js:92-117 | moving onto a `null` card keeps the previous face and buttons, and a second press of next moves past it and brings the screen back in step |
| Flashcards.NullLastCardStrands | frontend/js/learning_session.js:101-124 | with the second of two cards `null`, pressing next leaves the counter on card 2, card 1 on screen, previous disabled, and neither button moving any more |
| Flashcards.NextThenPrev | frontend/js/learning_session.js:193-205 | with the screen in step and the next card not `null`, next then previous returns to the same card, face up |
| Flashcards.PrevThenNext | frontend/js/learning_session.js:193-205 | with the screen in step and the previous card not `null`, previous then next returns to the same card, face up |
| Flashcards.ToggleTwice | frontend/js/learning_session.js:176-180 | turning a card over twice restores it |
| Flashcards.Buttons | frontend/js/learning_session.js:119-130 | the buttons describe the card last shown in full: the previous button is disabled and reads "← First Card" exactly when that is the first card; the next button is disabled and reads "Last Card →" exactly when that is the last card |
| Flashcards.ButtonsMatchMoves | frontend/js/learning_session.js:119-130 | while the screen is in step, a button is enabled exactly when pressing it moves to another card |
| Flashcards.CounterReadsBack | frontend/js/learning_session.js:101 | reading the counter text back with `parseInt` gives the one-based card number |
| Flashcards.WrittenStep | frontend/js/learning_session.js:132-209 | as written, a click on the card turns it over only when an odd number of click handlers are attached; moves are as intended, and only a display that goes through adds a handler |
| Flashcards.ClickAfterNextDoesNothing | frontend/js/learning_session.js:176-180 | as written, after moving to the second of two cards a click leaves it face down, where the intended viewer turns it over |
| Flashcards.WrittenHandlersGrow | frontend/js/learning_session.js:138-180 | as written, after k moves the card carries k + 1 click handlers and a click turns it over only when k is even |
| Quiz.Start | frontend/js/learning_session.js:372-386 | the quiz opens on the first question, waiting for an answer |
| Quiz.LetterNeverMatches | frontend/js/learning_session.js:394-419 | as written, no radio choice ever equals a letter answer, so every answer to a question in the prompted format is marked wrong |
| Quiz.ExactlyOneChoiceMatches | frontend/js/learning_session.js:394-419 | as intended, a letter answer A to D is matched by exactly the choice at that letter's place |
| Quiz.SubmitAnswer | frontend/js/learning_session.js:407-447 | with a choice made while answering, the answer is marked right or wrong by the letter check; with none, nothing changes |
| Quiz.Advance | frontend/js/learning_session.js:432-446 | after an answer, the index moves to the next question while there is one, and that question opens for an answer exactly when it renders; one that does not render leaves the answer's feedback and the next-question button up; after the last question, the quiz is complete on it |
| Quiz.BrokenQuestionSkipped | frontend/js/learning_session.js:372-446 | a question that does not render cannot be answered, and a second next-question click moves past it, to the question after or to completion |
| Quiz.RunAnswersRendered | frontend/js/learning_session.js:372-446 | whatever the learner does, a question is open for answering only if it rendered |
| Quiz.RunMonotone | frontend/js/learning_session.js:407-447 | the question index never goes back, completion happens only on the last question, and a completed quiz never changes |
| Quiz.AnswerAll | frontend/js/learning_session.js:407-447 | when every question renders, answering and moving on for each remaining question reaches completion |
| Quiz.CounterReadsBack | frontend/js/learning_session.js:384 | the counter `Quiz.Counter` starts with `Question `, and what follows reads back with `parseInt` as the one-based question number |
| Quiz.CounterTotalReadsBack | frontend/js/learning_session.js:384 | after the question number and ` of `, the counter reads back with `parseInt` as the number of questions |
| Formatter.Closing | frontend/js/learning_session.js:455-456 | a found closing delimiter lies at or after the search start and really occurs there |
| Formatter.Format | frontend/js/learning_session.js:450-461 | the formatted text is always wrapped in a paragraph |
| Formatter.FormatHasNoNewline | frontend/js/learning_session.js:457-458 | no line feed survives formatting |
| Formatter.PlainTextOnlyWrapped | frontend/js/learning_session.js:450-461 | text without `*` or line feeds is only wrapped in a paragraph |
| Formatter.ReplaceSingle | frontend/js/learning_session.js:457-458 | a global replacement over text with a single occurrence of the pattern, and no other place where one could start, replaces exactly that occurrence |
| Formatter.BlankLineSplitsParagraphs | frontend/js/learning_session.js:457 | a blank line between two plain lines closes one paragraph and opens the next |
| Formatter.LineBreakBecomesBr | frontend/js/learning_session.js:458 | a single line feed between two plain lines becomes a `<br>` |
| Formatter.BoldSpan | frontend/js/learning_session.js:455 | a `**`-delimited single-line span without `*` becomes bold inside the paragraph |
| Formatter.BoldMarkup | frontend/js/learning_session.js:455-456 | the bold pass turns such a span into `<strong>`, and the italic pass leaves the result alone |
| Formatter.EmphasisIdentity | frontend/js/learning_session.js:455-456 | text without the delimiter's character is left unchanged by an emphasis pass |
| Formatter.ReplaceRemovesChar | frontend/js/learning_session.js:458 | replacing every occurrence of a character with text that lacks it leaves none |
| SessionView.SessionIdFromPath | frontend/js/learning_session.js:2-3 | the id read from the path contains no slash |
| SessionView.PathEndsWithId | frontend/js/learning_session.js:3 | the id is the path's last segment: a suffix of the path, preceded by a slash unless it is the whole path |
| SessionView.PathRoundTrip | frontend/js/learning_session.js:2-3 | the session page's path for a slash-free id gives that id back |
| SessionView.ShowFlashcards | frontend/js/learning_session.js:92-117 | a non-empty card list whose first card is not null opens on that card, in step, with the positions of its `null` cards recorded; an empty or missing list shows "No flashcards available"; a null first card or a throwing read shows the load failure |
| SessionView.NullPositions | frontend/js/learning_session.js:104-105 | a position is recorded exactly when the card there is `null` |
| SessionView.ShowQuiz | frontend/js/learning_session.js:372-414 | a non-empty question list whose first question has an options array opens the quiz on it; an empty or missing list shows "No quiz questions available"; anything else shows the load failure |
| SessionView.ShowText | frontend/js/learning_session.js:450-475 | a text is formatted into the study guide or assignment view; any other value shows the load failure |
| SessionView.Display | frontend/js/learning_session.js:325-364 | the stored style selects the view for exactly the matching material; an unknown style shows the unknown-style message, and a throwing read shows the load failure |
| SessionView.LoadSession | frontend/js/learning_session.js:10-47 | no stored token sends the learner to the sign-in page; a failed response shows the load failure; a successful one is displayed |
| SessionView.MaterialAlwaysRenders | frontend/js/learning_session.js:325-364 | complete learning material with a known style always renders, at worst as the no-cards or no-questions message |
| SessionView.PageOverRoute | frontend/js/learning_session.js:23-47 | the page shows the owner's stored session, and the load failure for anyone else's or a missing one |
| SessionView.StoredStyleDecides | backend/routes/learning.js:288-302 | the style the page switches on is the stored style, and the material it reads is the stored content's `content` |
| SessionView.SentinelFlashcards | backend/routes/learning.js:207-230 | the error sentinel stored as flashcards shows one card |
| SessionView.SentinelQuiz | backend/routes/learning.js:207-230 | the error sentinel stored as a quiz opens the quiz |
| SessionView.SentinelGuide | backend/routes/learning.js:207-230 | the error sentinel stored as a study guide shows the formatted apology |
| SessionView.TextFallbackViews | backend/routes/learning.js:189-197 | the raw-text fallback shows no cards and no questions, but shows the raw reply as a study guide |
| SessionView.UnknownStyleQuoted | frontend/js/learning_session.js:358-360 | an unknown style is quoted back in the message that lists the four styles |
| SessionView.CaseMattersForStyle | frontend/js/learning_session.js:343-357 | any spelling of one of the four style names that differs from it only in letter case is an unknown style |
| SessionView.LowerCaseFlashcardsUnknown | frontend/js/learning_session.js:343-357 | "flashcards" in lower case is an unknown style |
| Auth.BearerToken | backend/routes/auth.js:31-32 | a token found in the header is non-empty and space-free |
| Auth.SchemeIgnored | backend/routes/auth.js:32 | whatever word precedes the space, the token after it is what is taken |
| Auth.NoSpaceNoToken | backend/routes/auth.js:32 | a header without a space yields no token |
| Auth.Authenticate | backend/routes/auth.js:30-46 | every refusal is 401; "Token not provided" exactly when no token is found; the request passes exactly when a token is found and verifies at the current time, carrying its claims |
| Auth.HomeHeaderAsWritten | frontend/js/home_page.js:142 | the header the home page builds from a token carries no token the server can find |
| Auth.RawHeaderRejected | frontend/js/home_page.js:142 | the raw token header the home page sends is always refused as carrying no token |
| Auth.BearerHeader | frontend/js/learning_session.js:29 | the `Bearer ` header yields exactly the token it carries |
| Auth.BearerHeaderAuthenticates | backend/routes/auth.js:30-46 | a signed token sent in a `Bearer ` header is accepted with its claims until it expires, and refused as "Unauthorized access" from then on |
| Auth.GenerateOtp | backend/routes/auth.js:21-23 | every one-time code has six digits, between 100000 and 999999 |
| Auth.Register | backend/routes/auth.js:53-81 | an existing email gives 400 and no change; a missing password gives 500; otherwise 201, with exactly one new user holding the hashed password and all others kept |
| Auth.RegisterTwice | backend/routes/auth.js:58-60 | registering the same email again is refused with 400 and changes nothing |
| Auth.Login | backend/routes/auth.js:84-132 | 401 "Invalid credentials" exactly for an unknown email or a wrong password; on success one code entry, valid for ten minutes, is stored and a temporary token naming it is returned |
| Auth.LoginRefusalsAlike | backend/routes/auth.js:89-98 | an unknown email and a wrong password get identical answers |
| Auth.EntryFor | backend/routes/auth.js:152 | a code entry found for the claims is the stored entry under the claims' `otpKey` |
| Auth.VerifyMfa | backend/routes/auth.js:135-181 | success exactly for a temporary token that verifies at the current time and whose code entry is live and whose code matches the parsed input; success consumes the entry and returns a final token stamped for 24 hours; no token gives 401 "Temporary token required", a token that fails to verify gives 500, a verified token whose `type` is not `"temp"` gives 401 "Invalid token type"; every refusal leaves the store unchanged |
| Auth.ExpiryAndWrongCode | backend/routes/auth.js:152-160 | "OTP expired" exactly when the entry is missing or past its expiry; a live entry with a wrong or missing code gives "Invalid OTP" and no change |
| Auth.OtpSingleUse | backend/routes/auth.js:146-179 | a code accepted once is refused afterwards with nothing changed: as expired while the token still verifies, and with 500 once it no longer does |
| Auth.CodeAccepted | backend/routes/auth.js:152-176 | the decimal text of the stored code, sent in time, is accepted and consumed |
| Auth.ResendMfa | backend/routes/auth.js:184-214 | success exactly when the token verifies at the current time and names an existing entry; that entry alone gets a fresh code and a fresh ten-minute expiry; no token gives 401 "Temporary token required", a refused token gives 500, a verified token naming no entry gives 401 "Session expired"; every refusal leaves the store unchanged |
| Auth.LoginThenVerify | backend/routes/auth.js:84-181 | the temporary token from a login, sent back with the issued code, completes the login and consumes the code exactly while the current second is before the token's `exp` (ten minutes after the login's second); afterwards the answer is 500 and nothing changes |
| Auth.ResendRevives | backend/routes/auth.js:184-214 | a resend while the temporary token is unexpired revives an entry even past its time: the new code is accepted for ten minutes, as long as the token lasts |
| Auth.LapsedLoginStaysLapsed | backend/routes/auth.js:113-117 | once a login's code has outlived its ten minutes, that login's temporary token is refused too: resend and verify both give 500 and change nothing |
| Auth.ExpiredStaysExpired | backend/routes/auth.js:146 | a token refused as expired at one time is refused at every later time |
| Auth.Stamped | backend/routes/auth.js:113-117 | signed claims carry `exp` at the signing second plus the lifetime, beside the fields given |
| Auth.TokenBeforeCode | backend/routes/auth.js:109-117 | a second before the temporary token's `exp` falls within the code's ten minutes |
| Auth.CodeLapseIsTokenLapse | backend/routes/auth.js:109-117 | when the code's ten minutes are over, the temporary token has expired too |

## Left out

- I/O and the database pool are left out. The table is a map from session id to row. A storage outage, with its 500 answers ("Failed to retrieve session", "Failed to retrieve sessions", "Failed to delete session"), is not modelled; only a failed insert is.
- Calls into outside code are parameters:
  - the language-model call is `ask`, and `JSON.parse` is `parse`;
  - bcrypt is `hash` and `check`, and JWT signing and verification are `sign` and `verify`;
  - `Math.random` is `draw`;
  - `Date.now`/`new Date` are `now` and `createdAt`, and `generateSessionId` is the `sessionId` parameter.
- LearningRoutes.Generate: the model reply is given as a function of the learner inputs (`ask`), not of the prompt text. The prompt for those inputs is `PromptBuilder.FormatPrompt`, which is stated separately.
- PromptBuilder.Assemble: the prompt properties are stated for any preamble text. `FormatPrompt` is `Assemble` applied to the fixed 35-line preamble, and that preamble's wording carries no property of its own.
- Timestamps are numbers. The date shown in the session header, and JSON serialisation of dates, are left out.
- The logging is left out.
- The DOM is left out. The model does not cover:
  - element visibility, `innerHTML`, focus moves and `setTimeout` delays, and loading spinners;
  - the unused `enableAutoFlip`, and the superseded first copy of `displayContent`;
  - the page's delete and logout buttons.
  The formatter's output is text, and the model does not show that it is written unescaped into the page.
- Only the ASCII part of JavaScript's whitespace and case rules is modelled by `trim` and `toLowerCase`. Text length counts characters, not UTF-16 code units.
- The keydown handler on the card itself (Space or Enter while the card has focus) is left out. It depends on focus and on event bubbling to the page-level handler, which the model does not follow. The page-level keyboard handler is modelled by `Flashcards.OnKey`.
- LearningRoutes.ValidateGenerate: request-body fields are modelled as strings or absent. The server accepts any JSON value there: `0` and `false` count as missing (learning.js:376), and a truthy non-string `sourceDocument` such as `5` makes `.trim()` throw (learning.js:118), so the route answers 500 (learning.js:392-395). Neither case is modelled.
- Auth.VerifyMfa: `mfaCode` is modelled as a string or absent. A numeric `mfaCode` such as `123456`, which `parseInt` also accepts (auth.js:158), is not modelled. Likewise the register and login bodies (`Auth.Credentials`) hold only strings.
- Json.JNum holds integers only, so a fraction in a parsed model reply is outside the model.
- Auth.LoginThenVerify: each request reads the clock once. In the code, login reads it separately for the entry key (auth.js:102), the entry's expiry (auth.js:109) and inside `jwt.sign`; verification reads it inside `jwt.verify` and again at auth.js:153. If these readings straddle a second boundary, the token can still be live while the entry has just lapsed, and the answer is 401 "OTP expired" where the lemma's single-clock "exactly while" says 200.
- Token signatures and encoding are left to the `sign` and `verify` parameters; what they must do with the claims and the expiry is `Auth.Jwt`.
- Auth.Register: requests are modelled one at a time. In the code, registration awaits the password hash (auth.js:63) between the email check (auth.js:58) and the store (auth.js:67). Two concurrent registrations of the same email can therefore both get 201, the second overwriting the first; `Auth.RegisterTwice` holds only for requests that do not overlap.
- Quiz.Counter and the question text: after a question that does not render, the page shows whatever the failed display managed to write; the model records only the index and the phase.
- SessionView.ShowFlashcards: the model does not follow an object that merely looks like an array. Such a value, for example `{"0": …, "length": 2}`, gives `Unrendered`. The same holds for `SessionView.ShowQuiz`.
- Formatter.Closing: the contract states that a found delimiter occurs where it is reported. It does not state that this is the earliest such occurrence.
- JsText.ParseInt: `parseInt` is modelled as the code calls it, without a radix argument: leading whitespace, one sign, a `0x`/`0X` prefix selecting base 16, then the longest run of digits. Values are unbounded integers, so the loss of precision beyond 2^53 is not modelled.
- Quiz.SubmitAnswer: only choices that exist as radio buttons can be submitted. The corrected letter check is used; the as-written check is `Quiz.IsCorrectAsWritten` (see Findings).

## Findings

| source | as written | input that shows it | evidently intended | confidence | as-written member | corrected member |
|---|---|---|---|---|---|---|
| frontend/js/learning_session.js:132-209 | every card display attaches one more click handler to `.flashcard`, because that node is never replaced; a click then turns the card over once per handler | open a deck of two cards, press Next, click the card: two handlers fire and the card stays face down | one click turns the card over exactly once | high, not executed | Flashcards.WrittenStep, Flashcards.ClickAfterNextDoesNothing, Flashcards.WrittenHandlersGrow | Flashcards.Step, Flashcards.RunKeepsBounds |
| frontend/js/learning_session.js:394-419 | the radio button's value is the option's index (`"0"`…`"3"`) and is compared strictly with `correct`, which the prompt asks to be a letter | a question with `correct: "B"`; choosing the second option submits `"1"`, and `"1" === "B"` is false | the chosen option's letter is compared with `correct` | high, not executed | Quiz.IsCorrectAsWritten, Quiz.LetterNeverMatches | Quiz.IsCorrect, Quiz.ExactlyOneChoiceMatches |
| frontend/js/home_page.js:142 | the generate request sends the stored token as the whole `Authorization` header, while the server takes the token after the first space | token `eyJ.a.b`; the header `eyJ.a.b` splits into one part, so the server answers 401 "Token not provided" | send `Bearer <token>`, as the session page does | high, not executed | Auth.HomeHeaderAsWritten, Auth.RawHeaderRejected | Auth.BearerHeader, Auth.BearerHeaderAuthenticates |

=== FILE: auth.dfy ===
/** The account routes of backend/routes/auth.js: the bearer-token check
    that guards the learning routes, registration, password login with a
    one-time code, code verification and code resend, over the in-memory
    `users` and `otpStorage` maps. Password hashing, token signing and token
    verification are parameters; so are the clock and the random draw. The
    expiry that `jwt.sign` writes into a token and `jwt.verify` enforces is
    modelled: the claims carry `iat` and `exp` in whole seconds, and the
    predicate `Jwt` says what a signer and verifier pair must do with them. */
module Auth {
  import opened Wrappers
  import opened JsText
  import opened Json
  import opened Http

  /** A signed token as the client holds it: non-empty and free of spaces,
      as a compact JSON Web Token is. */
  predicate TokenText(t: string) {
    t != "" && ' ' !in t
  }

  /** `authHeader && authHeader.split(' ')[1]`, as a condition: the second
      space-separated field, when there is one and it is not empty. The
      first field is never looked at. */
  function BearerToken(header: Option<string>): (t: Option<string>)
    ensures t.Some? ==> TokenText(t.value)
  {
    if header.None? then None
    else
      var parts := SplitOn(header.value, ' ');
      if |parts| > 1 && parts[1] != "" then Some(parts[1]) else None
  }

  /** The field after the first space is the token, whatever the first
      field says. */
  lemma SchemeIgnored(scheme: string, token: string)
    requires ' ' !in scheme && TokenText(token)
    ensures BearerToken(Some(scheme + " " + token)) == Some(token)
  {
    assert scheme + " " + token == scheme + [' '] + token;
    SplitPrefix(scheme, token, ' ');
    NoSeparatorSplit(token, ' ');
  }

  /** A header with no space carries no token. */
  lemma NoSpaceNoToken(header: string)
    requires ' ' !in header
    ensures BearerToken(Some(header)) == None
  {
    NoSeparatorSplit(header, ' ');
  }

  /** `Math.floor(ms / 1000)`: the whole seconds of a millisecond clock
      reading, as `jwt.sign` and `jwt.verify` read the clock. */
  function Seconds(ms: nat): nat {
    ms / 1000
  }

  /** `expiresIn: '10m'` and `expiresIn: '24h'`, in seconds. */
  const TempTokenSeconds: nat := 600
  const FinalTokenSeconds: nat := 86400

  /** The claims `jwt.sign` writes at `now` for a token lasting `lifetime`
      seconds: `iat` is the current second and `exp` that plus the lifetime. */
  function Stamped(fields: map<string, Json>, now: nat, lifetime: nat): (c: Json)
    ensures c.JObj? && c.fields.Keys == fields.Keys + {"iat", "exp"}
    ensures Member(Val(c), "exp") == Val(JNum(Seconds(now) + lifetime))
    ensures forall k :: k in fields && k != "iat" && k != "exp" ==> Member(Val(c), k) == Val(fields[k])
  {
    JObj(fields["iat" := JNum(Seconds(now))]["exp" := JNum(Seconds(now) + lifetime)])
  }

  /** `jwt.verify` refuses a token at `now` once the current second has
      reached its numeric `exp`; a token without `exp` never expires. */
  predicate Expired(claims: Json, now: nat) {
    match Member(Val(claims), "exp")
    case Val(JNum(e)) => Seconds(now) >= e
    case _ => false
  }

  /** What the model asks of `sign` and `verify`: a signed token is
      compact text, and verifying it at any time gives back exactly the
      signed claims until they expire, and nothing afterwards. */
  ghost predicate Jwt(sign: Json -> string, verify: (string, nat) -> Option<Json>) {
    && (forall c :: TokenText(sign(c)))
    && (forall c, t :: verify(sign(c), t) == (if Expired(c, t) then None else Some(c)))
  }

  /** Expiry is for good: a token refused at one time is refused at every
      later time. */
  lemma ExpiredStaysExpired(claims: Json, now: nat, later: nat)
    requires now <= later && Expired(claims, now)
    ensures Expired(claims, later)
  {
    assert Seconds(now) <= Seconds(later);
  }

  const TokenMissing: string := "Token not provided"
  const Unauthorized: string := "Unauthorized access"

  /** `authenticateToken` at time `now`: the decoded claims when a token is
      present and `verify` accepts it; 401 otherwise, with a message that
      tells the two cases apart. */
  function Authenticate(header: Option<string>, verify: (string, nat) -> Option<Json>, now: nat): (r: Result<Json, Response>)
    ensures r.Err? ==> r.error.status == 401
    ensures r.Err? && r.error == Message(401, TokenMissing) <==> BearerToken(header).None?
    ensures r.Ok? <==> BearerToken(header).Some? && verify(BearerToken(header).value, now).Some?
    ensures r.Ok? ==> r.value == verify(BearerToken(header).value, now).value
  {
    match BearerToken(header)
    case None => Err(Message(401, TokenMissing))
    case Some(token) =>
      match verify(token, now)
      case None =>
        MessagesDiffer(401, Unauthorized, TokenMissing);
        Err(Message(401, Unauthorized))
      case Some(claims) => Ok(claims)
  }

  /** The header the home page sends with a generate request, as written:
      the stored token itself, with no scheme in front. */
  function HomeHeaderAsWritten(token: string): (h: string)
    ensures TokenText(token) ==> BearerToken(Some(h)).None?
  {
    assert TokenText(token) ==> BearerToken(Some(token)).None? by {
      if TokenText(token) {
        NoSpaceNoToken(token);
      }
    }
    token
  }

  /** As written, the generate request is always refused as carrying no
      token, whatever the token and however the server verifies it. */
  lemma RawHeaderRejected(token: string, verify: (string, nat) -> Option<Json>, now: nat)
    requires TokenText(token)
    ensures Authenticate(Some(HomeHeaderAsWritten(token)), verify, now) == Err(Message(401, TokenMissing))
  {
    NoSpaceNoToken(token);
  }

  /** The header as the session page builds it, and as the home page
      evidently means to. */
  function BearerHeader(token: string): (h: string)
    ensures TokenText(token) ==> BearerToken(Some(h)) == Some(token)
  {
    assert TokenText(token) ==> BearerToken(Some("Bearer " + token)) == Some(token) by {
      if TokenText(token) {
        SchemeIgnored("Bearer", token);
        assert "Bearer" + " " + token == "Bearer " + token;
      }
    }
    "Bearer " + token
  }

  /** With the scheme in front, the server sees exactly the claims of the
      token while it is unexpired, and refuses it as unauthorized after. */
  lemma BearerHeaderAuthenticates(claims: Json, sign: Json -> string,
                                  verify: (string, nat) -> Option<Json>, now: nat)
    requires Jwt(sign, verify)
    ensures !Expired(claims, now) ==>
      Authenticate(Some(BearerHeader(sign(claims))), verify, now) == Ok(claims)
    ensures Expired(claims, now) ==>
      Authenticate(Some(BearerHeader(sign(claims))), verify, now) == Err(Message(401, Unauthorized))
  {
    assert TokenText(sign(claims));
  }

  /** `validateOtp(parseInt(mfaCode), otp)`: strict equality, so a code
      that does not parse (`NaN`) never matches. */
  predicate ValidateOtp(input: Option<int>, stored: nat) {
    input == Some(stored)
  }

  /** The smallest and largest codes `generateOTP` can produce. */
  const OtpLow: nat := 100000
  const OtpHigh: nat := 999999
  const OtpDraws: nat := 900000

  /** `generateOTP`, given `floor(Math.random() * 900000)` as `draw`. */
  function GenerateOtp(draw: nat): (otp: nat)
    requires draw < OtpDraws
    ensures OtpLow <= otp <= OtpHigh
  {
    OtpLow + draw
  }

  /** Ten minutes, in milliseconds. */
  const OtpLifetime: nat := 600000

  datatype User = User(id: string, name: Option<string>, email: Option<string>, passwordHash: string, createdAt: nat)

  /** Users by email; `None` is the `undefined` key a body with no email
      registers under. */
  type Users = map<Option<string>, User>

  datatype OtpEntry = OtpEntry(otp: nat, userId: string, email: Option<string>, expiresAt: nat)

  type OtpStore = map<string, OtpEntry>

  /** The fields of a register or login body; `None` is a missing field. */
  datatype Credentials = Credentials(name: Option<string>, email: Option<string>, password: Option<string>)

  const UserExists: string := "User already exists"
  const UserCreated: string := "User created successfully"
  const InternalError: string := "Internal server error"

  /** `POST /register` at time `now`. A taken email is refused; a missing
      password makes hashing throw; otherwise the user is stored under the
      email with the time as its id. */
  function Register(users: Users, body: Credentials, hash: string -> string, now: nat): (r: (Users, Response))
    ensures body.email in users ==> r == (users, Message(400, UserExists))
    ensures body.email !in users && body.password.None? ==> r == (users, Message(500, InternalError))
    ensures r.1.status == 201 <==> body.email !in users && body.password.Some?
    ensures r.1.status == 201 ==>
      && r.1 == Message(201, UserCreated)
      && r.0.Keys == users.Keys + {body.email}
      && |r.0| == |users| + 1
      && r.0[body.email] == User(NatToString(now), body.name, body.email, hash(body.password.value), now)
      && (forall e :: e in users ==> r.0[e] == users[e])
  {
    if body.email in users then (users, Message(400, UserExists))
    else if body.password.None? then (users, Message(500, InternalError))
    else
      var user := User(NatToString(now), body.name, body.email, hash(body.password.value), now);
      (users[body.email := user], Message(201, UserCreated))
  }

  /** Registering the same email twice: the second attempt is refused and
      changes nothing, whoever makes it. */
  lemma RegisterTwice(users: Users, first: Credentials, second: Credentials,
                      hash: string -> string, now: nat, later: nat)
    requires Register(users, first, hash, now).1.status == 201
    requires second.email == first.email
    ensures var after := Register(users, first, hash, now).0;
            Register(after, second, hash, later) == (after, Message(400, UserExists))
  {
  }

  const InvalidCredentials: string := "Invalid credentials"
  const OtpSent: string := "OTP sent to your email"

  /** The claims of the temporary token issued at login at `now`, as
      `jwt.sign` stamps them for ten minutes. */
  function TempClaims(userId: string, otpKey: string, now: nat): Json {
    Stamped(map["userId" := JStr(userId), "otpKey" := JStr(otpKey), "type" := JStr("temp")],
            now, TempTokenSeconds)
  }

  /** `${user.id}_${Date.now()}`. */
  function OtpKey(userId: string, now: nat): string {
    userId + "_" + NatToString(now)
  }

  /** `POST /login` at time `now`. An unknown email and a wrong password
      get the same answer; a missing password makes the comparison throw.
      On success a fresh code is stored for ten minutes and a temporary
      token naming its entry is returned. */
  function Login(users: Users, otps: OtpStore, body: Credentials,
                 check: (string, string) -> bool, sign: Json -> string,
                 draw: nat, now: nat): (r: (OtpStore, Response))
    requires draw < OtpDraws
    ensures r.1.status != 200 ==> r.0 == otps
    ensures r.1.status == 401 <==>
      body.email !in users || (body.password.Some? && !check(body.password.value, users[body.email].passwordHash))
    ensures r.1.status == 401 ==> r.1 == Message(401, InvalidCredentials)
    ensures r.1.status == 500 <==> body.email in users && body.password.None?
    ensures r.1.status == 200 ==>
      var user := users[body.email];
      var key := OtpKey(user.id, now);
      && r.0 == otps[key := OtpEntry(GenerateOtp(draw), user.id, user.email, now + OtpLifetime)]
      && r.0[key].expiresAt == now + OtpLifetime
      && r.1 == Success(JObj(map[
           "requiresMFA" := JBool(true),
           "tempToken" := JStr(sign(TempClaims(user.id, key, now))),
           "message" := JStr(OtpSent)]))
  {
    if body.email !in users then (otps, Message(401, InvalidCredentials))
    else
      var user := users[body.email];
      if body.password.None? then (otps, Message(500, InternalError))
      else if !check(body.password.value, user.passwordHash) then (otps, Message(401, InvalidCredentials))
      else
        var key := OtpKey(user.id, now);
        var entry := OtpEntry(GenerateOtp(draw), user.id, user.email, now + OtpLifetime);
        var token := sign(TempClaims(user.id, key, now));
        (otps[key := entry],
         Success(JObj(map["requiresMFA" := JBool(true), "tempToken" := JStr(token), "message" := JStr(OtpSent)])))
  }

  /** The two refusals cannot be told apart: a caller learns nothing about
      which emails are registered. */
  lemma LoginRefusalsAlike(users: Users, otps: OtpStore, unknown: Credentials, wrong: Credentials,
                           check: (string, string) -> bool, sign: Json -> string, draw: nat, now: nat)
    requires draw < OtpDraws
    requires unknown.email !in users
    requires wrong.email in users && wrong.password.Some? &&
             !check(wrong.password.value, users[wrong.email].passwordHash)
    ensures Login(users, otps, unknown, check, sign, draw, now) ==
            Login(users, otps, wrong, check, sign, draw, now)
  {
  }

  const TempTokenRequired: string := "Temporary token required"
  const InvalidTokenType: string := "Invalid token type"
  const OtpExpired: string := "OTP expired"
  const InvalidOtp: string := "Invalid OTP"
  const LoginSuccessful: string := "Login successful"

  /** `otpStorage.get(decoded.otpKey)`: the entry, when the claim is a
      string naming one. */
  function EntryFor(otps: OtpStore, claims: Json): (e: Option<(string, OtpEntry)>)
    ensures e.Some? ==> Member(Val(claims), "otpKey") == Val(JStr(e.value.0)) &&
                        e.value.0 in otps && e.value.1 == otps[e.value.0]
  {
    match Member(Val(claims), "otpKey")
    case Val(JStr(k)) => if k in otps then Some((k, otps[k])) else None
    case _ => None
  }

  /** The claims of the final token signed at `now`: the user id from the
      temporary token and the email from the entry, each left out when
      undefined, stamped for 24 hours. */
  function FinalClaims(claims: Json, entry: OtpEntry, now: nat): Json {
    var withId := match Member(Val(claims), "userId")
      case Val(v) => map["id" := v]
      case _ => map[];
    Stamped(if entry.email.Some? then withId["email" := JStr(entry.email.value)] else withId,
            now, FinalTokenSeconds)
  }

  /** Whether a code is still usable at `now`: up to and including
      `expiresAt`. */
  predicate Live(entry: OtpEntry, now: nat) {
    now <= entry.expiresAt
  }

  /** `POST /verify-mfa` at time `now`. In order: a bearer token must be
      present (401), `verify` must accept it (a throw, so 500), it must be a
      temporary token (401), its entry must exist and be live (401 "OTP
      expired"), and the code must match (401 "Invalid OTP"). Success
      removes the entry and returns the final token. */
  function VerifyMfa(otps: OtpStore, header: Option<string>, mfaCode: Option<string>,
                     verify: (string, nat) -> Option<Json>, sign: Json -> string, now: nat): (r: (OtpStore, Response))
    ensures r.1.status != 200 ==> r.0 == otps
    ensures BearerToken(header).None? ==> r.1 == Message(401, TempTokenRequired)
    ensures BearerToken(header).Some? && verify(BearerToken(header).value, now).None? ==>
      r.1 == Message(500, InternalError)
    ensures BearerToken(header).Some? && verify(BearerToken(header).value, now).Some? ==>
      var kind := Member(Val(verify(BearerToken(header).value, now).value), "type");
      && (kind.Thrown? ==> r.1 == Message(500, InternalError))
      && (!kind.Thrown? && kind != Val(JStr("temp")) ==> r.1 == Message(401, InvalidTokenType))
    ensures r.1.status == 200 <==>
      && BearerToken(header).Some?
      && var claims := verify(BearerToken(header).value, now);
      && claims.Some?
      && Member(Val(claims.value), "type") == Val(JStr("temp"))
      && EntryFor(otps, claims.value).Some?
      && Live(EntryFor(otps, claims.value).value.1, now)
      && mfaCode.Some?
      && ValidateOtp(ParseInt(mfaCode.value), EntryFor(otps, claims.value).value.1.otp)
    ensures r.1.status == 200 ==>
      var claims := verify(BearerToken(header).value, now).value;
      var (key, entry) := EntryFor(otps, claims).value;
      && r.0 == otps - {key}
      && r.1 == Success(JObj(map[
           "token" := JStr(sign(FinalClaims(claims, entry, now))),
           "message" := JStr(LoginSuccessful)]))
  {
    match BearerToken(header)
    case None => (otps, Message(401, TempTokenRequired))
    case Some(token) =>
      match verify(token, now)
      case None => (otps, Message(500, InternalError))
      case Some(claims) =>
        var kind := Member(Val(claims), "type");
        if kind.Thrown? then (otps, Message(500, InternalError))
        else if kind != Val(JStr("temp")) then (otps, Message(401, InvalidTokenType))
        else
          match EntryFor(otps, claims)
          case None => (otps, Message(401, OtpExpired))
          case Some((key, entry)) =>
            if !Live(entry, now) then (otps, Message(401, OtpExpired))
            else if !(mfaCode.Some? && ValidateOtp(ParseInt(mfaCode.value), entry.otp)) then
              (otps, Message(401, InvalidOtp))
            else
              (otps - {key},
               Success(JObj(map[
                 "token" := JStr(sign(FinalClaims(claims, entry, now))),
                 "message" := JStr(LoginSuccessful)])))
  }

  /** With a temporary token for an entry, the answer is "OTP expired"
      exactly when the entry is gone or past its time; a wrong code, while
      the entry is live, is "Invalid OTP" and keeps the entry for another
      try. */
  lemma ExpiryAndWrongCode(otps: OtpStore, header: Option<string>, mfaCode: Option<string>,
                           verify: (string, nat) -> Option<Json>, sign: Json -> string, now: nat)
    requires BearerToken(header).Some?
    requires verify(BearerToken(header).value, now).Some?
    requires Member(Val(verify(BearerToken(header).value, now).value), "type") == Val(JStr("temp"))
    ensures var claims := verify(BearerToken(header).value, now).value;
            VerifyMfa(otps, header, mfaCode, verify, sign, now).1 == Message(401, OtpExpired) <==>
            EntryFor(otps, claims).None? || !Live(EntryFor(otps, claims).value.1, now)
    ensures var claims := verify(BearerToken(header).value, now).value;
            EntryFor(otps, claims).Some? && Live(EntryFor(otps, claims).value.1, now) &&
            !(mfaCode.Some? && ValidateOtp(ParseInt(mfaCode.value), EntryFor(otps, claims).value.1.otp)) ==>
            VerifyMfa(otps, header, mfaCode, verify, sign, now) == (otps, Message(401, InvalidOtp))
  {
    MessagesDiffer(401, InvalidOtp, OtpExpired);
    MessagesDiffer(401, InvalidTokenType, OtpExpired);
  }

  /** A code works once: repeating a successful verification later finds
      the entry gone while the token still reads the same, and fails with
      500 once the token is refused; either way nothing changes. */
  lemma OtpSingleUse(otps: OtpStore, header: Option<string>, mfaCode: Option<string>,
                     verify: (string, nat) -> Option<Json>, sign: Json -> string, now: nat, later: nat)
    requires VerifyMfa(otps, header, mfaCode, verify, sign, now).1.status == 200
    ensures var after := VerifyMfa(otps, header, mfaCode, verify, sign, now).0;
            var token := BearerToken(header).value;
            verify(token, later) == verify(token, now) ==>
            VerifyMfa(after, header, mfaCode, verify, sign, later) == (after, Message(401, OtpExpired))
    ensures var after := VerifyMfa(otps, header, mfaCode, verify, sign, now).0;
            verify(BearerToken(header).value, later).None? ==>
            VerifyMfa(after, header, mfaCode, verify, sign, later) == (after, Message(500, InternalError))
  {
    var claims := verify(BearerToken(header).value, now).value;
    var after := VerifyMfa(otps, header, mfaCode, verify, sign, now).0;
    assert EntryFor(after, claims).None?;
  }

  const SessionExpired: string := "Session expired"
  const NewOtpSent: string := "New OTP sent"

  /** `POST /resend-mfa` at time `now`: any token `verify` accepts whose
      entry still exists, expired or not, gets a new code and a new ten
      minutes; the token's type is not checked. */
  function ResendMfa(otps: OtpStore, header: Option<string>, verify: (string, nat) -> Option<Json>,
                     draw: nat, now: nat): (r: (OtpStore, Response))
    requires draw < OtpDraws
    ensures r.1.status != 200 ==> r.0 == otps
    ensures BearerToken(header).None? ==> r.1 == Message(401, TempTokenRequired)
    ensures BearerToken(header).Some? && verify(BearerToken(header).value, now).None? ==>
      r.1 == Message(500, InternalError)
    ensures BearerToken(header).Some? && verify(BearerToken(header).value, now).Some? ==>
      var claims := verify(BearerToken(header).value, now).value;
      && (Member(Val(claims), "otpKey").Thrown? ==> r.1 == Message(500, InternalError))
      && (!Member(Val(claims), "otpKey").Thrown? && EntryFor(otps, claims).None? ==>
            r.1 == Message(401, SessionExpired))
    ensures r.1.status == 200 <==>
      BearerToken(header).Some? && verify(BearerToken(header).value, now).Some? &&
      EntryFor(otps, verify(BearerToken(header).value, now).value).Some?
    ensures r.1.status == 200 ==>
      var (key, entry) := EntryFor(otps, verify(BearerToken(header).value, now).value).value;
      && r.1 == Message(200, NewOtpSent)
      && r.0.Keys == otps.Keys
      && r.0[key] == entry.(otp := GenerateOtp(draw), expiresAt := now + OtpLifetime)
      && (forall k :: k in otps && k != key ==> r.0[k] == otps[k])
  {
    match BearerToken(header)
    case None => (otps, Message(401, TempTokenRequired))
    case Some(token) =>
      match verify(token, now)
      case None => (otps, Message(500, InternalError))
      case Some(claims) =>
        if Member(Val(claims), "otpKey").Thrown? then (otps, Message(500, InternalError))
        else
          match EntryFor(otps, claims)
          case None => (otps, Message(401, SessionExpired))
          case Some((key, entry)) =>
            (otps[key := entry.(otp := GenerateOtp(draw), expiresAt := now + OtpLifetime)],
             Message(200, NewOtpSent))
  }

  /** The decimal text of a stored code parses back to that code. */
  lemma OwnCodeValidates(otp: nat)
    requires otp > 0
    ensures ValidateOtp(ParseInt(NatToString(otp)), otp)
  {
    ParseIntOfNatToString(otp, "");
    assert NatToString(otp) + "" == NatToString(otp);
  }

  /** A live entry and its own code, presented with a temporary token
      that names the entry, verify and use the entry up. */
  lemma CodeAccepted(otps: OtpStore, header: Option<string>, verify: (string, nat) -> Option<Json>,
                     sign: Json -> string, claims: Json, key: string, now: nat)
    requires BearerToken(header).Some? && verify(BearerToken(header).value, now) == Some(claims)
    requires Member(Val(claims), "type") == Val(JStr("temp"))
    requires Member(Val(claims), "otpKey") == Val(JStr(key)) && key in otps
    requires Live(otps[key], now) && otps[key].otp > 0
    ensures var (after, resp) := VerifyMfa(otps, header, Some(NatToString(otps[key].otp)), verify, sign, now);
            resp.status == 200 && key !in after
  {
    OwnCodeValidates(otps[key].otp);
    assert EntryFor(otps, claims) == Some((key, otps[key]));
  }

  /** A token second that is still before the temporary token's `exp`
      falls inside the code's ten minutes. */
  lemma TokenBeforeCode(now: nat, later: nat)
    requires Seconds(later) < Seconds(now) + TempTokenSeconds
    ensures later < now + OtpLifetime
  {
    assert later < 1000 * (Seconds(later) + 1);
    assert 1000 * Seconds(now) <= now;
  }

  /** When the code's ten minutes are over, so is the temporary token's
      lifetime. */
  lemma CodeLapseIsTokenLapse(now: nat, later: nat)
    requires later >= now + OtpLifetime
    ensures Seconds(later) >= Seconds(now) + TempTokenSeconds
  {
    assert (now + OtpLifetime) / 1000 == now / 1000 + TempTokenSeconds;
  }

  /** The whole sign-in: after a successful login, sending the emailed
      code with the temporary token signs the user in and uses the code up
      exactly while the token's ten minutes, counted in whole seconds, are
      not over; afterwards the token is refused with 500 and nothing
      changes. */
  lemma LoginThenVerify(users: Users, otps: OtpStore, body: Credentials,
                        check: (string, string) -> bool, sign: Json -> string,
                        verify: (string, nat) -> Option<Json>, draw: nat, now: nat, later: nat)
    requires draw < OtpDraws
    requires Login(users, otps, body, check, sign, draw, now).1.status == 200
    requires Jwt(sign, verify)
    requires now <= later
    ensures var user := users[body.email];
            var key := OtpKey(user.id, now);
            var (after, resp) := Login(users, otps, body, check, sign, draw, now);
            var temp := sign(TempClaims(user.id, key, now));
            var (final, verified) := VerifyMfa(after, Some(BearerHeader(temp)),
                                               Some(NatToString(GenerateOtp(draw))), verify, sign, later);
            && resp.body.fields["tempToken"] == JStr(temp)
            && (verified.status == 200 <==> Seconds(later) < Seconds(now) + TempTokenSeconds)
            && (verified.status == 200 ==> key !in final)
            && (verified.status != 200 ==> (final, verified) == (after, Message(500, InternalError)))
  {
    var user := users[body.email];
    var key := OtpKey(user.id, now);
    var after := Login(users, otps, body, check, sign, draw, now).0;
    var claims := TempClaims(user.id, key, now);
    var temp := sign(claims);
    assert TokenText(temp) && verify(temp, later) == (if Expired(claims, later) then None else Some(claims));
    if Seconds(later) < Seconds(now) + TempTokenSeconds {
      TokenBeforeCode(now, later);
      assert after[key].otp == GenerateOtp(draw);
      CodeAccepted(after, Some(BearerHeader(temp)), verify, sign, claims, key, later);
    } else {
      assert Expired(claims, later);
    }
  }

  /** A resend while the temporary token is unexpired revives even an
      entry past its time: the new code then verifies for another ten
      minutes, as long as the token lasts. */
  lemma ResendRevives(otps: OtpStore, claims: Json, verify: (string, nat) -> Option<Json>,
                      sign: Json -> string, draw: nat, now: nat, later: nat)
    requires draw < OtpDraws
    requires Jwt(sign, verify)
    requires Member(Val(claims), "type") == Val(JStr("temp"))
    requires EntryFor(otps, claims).Some?
    requires now <= later <= now + OtpLifetime
    requires !Expired(claims, later)
    ensures var header := Some(BearerHeader(sign(claims)));
            var after := ResendMfa(otps, header, verify, draw, now).0;
            VerifyMfa(after, header, Some(NatToString(GenerateOtp(draw))), verify, sign, later).1.status == 200
  {
    var header := Some(BearerHeader(sign(claims)));
    assert TokenText(sign(claims));
    if Expired(claims, now) {
      ExpiredStaysExpired(claims, now, later);
    }
    assert verify(sign(claims), now) == Some(claims) && verify(sign(claims), later) == Some(claims);
    var (key, entry) := EntryFor(otps, claims).value;
    var after := ResendMfa(otps, header, verify, draw, now).0;
    assert after[key] == entry.(otp := GenerateOtp(draw), expiresAt := now + OtpLifetime);
    CodeAccepted(after, header, verify, sign, claims, key, later);
  }

  /** The converse: once a login's code has outlived its ten minutes, the
      temporary token of that login is refused too, so neither a resend
      nor a verification can revive the entry; both fail with 500 and
      change nothing, whatever the store holds by then. */
  lemma LapsedLoginStaysLapsed(userId: string, key: string, store: OtpStore,
                               mfaCode: Option<string>, sign: Json -> string,
                               verify: (string, nat) -> Option<Json>, draw: nat, now: nat, later: nat)
    requires draw < OtpDraws
    requires Jwt(sign, verify)
    requires later >= now + OtpLifetime
    ensures var header := Some(BearerHeader(sign(TempClaims(userId, key, now))));
            && ResendMfa(store, header, verify, draw, later) == (store, Message(500, InternalError))
            && VerifyMfa(store, header, mfaCode, verify, sign, later) == (store, Message(500, InternalError))
  {
    var claims := TempClaims(userId, key, now);
    CodeLapseIsTokenLapse(now, later);
    assert Expired(claims, later);
    assert TokenText(sign(claims)) && verify(sign(claims), later).None?;
  }
}

=== FILE: flashcards.dfy ===
/** The flashcard viewer of frontend/js/learning_session.js: the current
    card index, whether the card shows its answer, the navigation buttons
    and the counter. */
module Flashcards {
  import opened Wrappers
  import opened JsText

  /** `size` cards, the index `currentCardIndex` holds, and whether the card
      on screen is turned to its answer. `broken` holds the positions whose
      card is `null`: displaying one throws part-way, after the index and
      the counter have moved but before the card's text, its face, the
      buttons and their handlers are renewed. `shownAt` is the position of
      the last display that went through, which the buttons describe. */
  datatype Deck = Deck(size: nat, index: nat, flipped: bool, broken: set<nat>, shownAt: nat)

  predicate Valid(d: Deck) {
    d.size > 0 && d.index < d.size && d.shownAt < d.size && d.shownAt !in d.broken
  }

  /** The screen shows the card the index names: every display so far went
      through. */
  predicate InSync(d: Deck) {
    d.shownAt == d.index
  }

  /** `displayFlashcards` for the card at `index`: question side up with
      fresh buttons, or, for a `null` card, only the index moved. */
  function ShowCard(d: Deck, index: nat): (r: Deck)
    requires Valid(d) && index < d.size
    ensures Valid(r) && r.index == index && r.size == d.size && r.broken == d.broken
    ensures index !in d.broken ==> InSync(r) && !r.flipped
    ensures index in d.broken ==> r.flipped == d.flipped && r.shownAt == d.shownAt
  {
    if index in d.broken then d.(index := index)
    else d.(index := index, flipped := false, shownAt := index)
  }

  /** The first display of a non-empty deck whose first card is not `null`. */
  function Open(size: nat, broken: set<nat>): (d: Deck)
    requires size > 0 && 0 !in broken
    ensures Valid(d) && InSync(d) && d.index == 0 && !d.flipped
    ensures d.size == size && d.broken == broken
  {
    Deck(size, 0, false, broken, 0)
  }

  /** The previous-card handler. A disabled button does not fire; an enabled
      one steps back only when the index is not on the first card. */
  function Prev(d: Deck): (r: Deck)
    requires Valid(d)
    ensures Valid(r) && r.size == d.size && r.broken == d.broken
    ensures d.shownAt > 0 && d.index > 0 ==>
      && r.index == d.index - 1
      && (r.index !in d.broken ==> InSync(r) && !r.flipped)
      && (r.index in d.broken ==> r.flipped == d.flipped && r.shownAt == d.shownAt)
    ensures d.shownAt == 0 || d.index == 0 ==> r == d
  {
    if d.shownAt == 0 then d
    else if d.index > 0 then ShowCard(d, d.index - 1)
    else d
  }

  /** The next-card handler, alike: a disabled button does not fire, and an
      enabled one steps on only when the index is not on the last card. */
  function Next(d: Deck): (r: Deck)
    requires Valid(d)
    ensures Valid(r) && r.size == d.size && r.broken == d.broken
    ensures d.shownAt < d.size - 1 && d.index < d.size - 1 ==>
      && r.index == d.index + 1
      && (r.index !in d.broken ==> InSync(r) && !r.flipped)
      && (r.index in d.broken ==> r.flipped == d.flipped && r.shownAt == d.shownAt)
    ensures d.shownAt == d.size - 1 || d.index == d.size - 1 ==> r == d
  {
    if d.shownAt == d.size - 1 then d
    else if d.index < d.size - 1 then ShowCard(d, d.index + 1)
    else d
  }

  /** `flipCard(showAnswer)`. */
  function FlipTo(d: Deck, showAnswer: bool): (r: Deck)
    ensures r.flipped == showAnswer && r.index == d.index && r.size == d.size
    ensures r.broken == d.broken && r.shownAt == d.shownAt
  {
    d.(flipped := showAnswer)
  }

  /** `flipCard(!isFlipped)`. */
  function Toggle(d: Deck): (r: Deck)
    ensures r.flipped == !d.flipped && r.index == d.index && r.size == d.size
    ensures r.broken == d.broken && r.shownAt == d.shownAt
  {
    FlipTo(d, !d.flipped)
  }

  /** The keys `handleKeyboardNavigation` distinguishes. */
  datatype Key = ArrowLeft | ArrowRight | ArrowUp | ArrowDown | Space | OtherKey

  /** What the user can do to the flashcard view. */
  datatype Event =
    | PressKey(key: Key)
    | ClickPrev
    | ClickNext
    | ClickCard
    | ClickFlip
    | ClickFlipBack

  /** A key pressed anywhere on the page while the cards are shown: the
      left and right arrows click the navigation buttons, the up and down
      arrows and the space bar turn the card, other keys do nothing. */
  function OnKey(d: Deck, k: Key): (r: Deck)
    requires Valid(d)
    ensures Valid(r)
    ensures k == ArrowLeft ==> r == Prev(d)
    ensures k == ArrowRight ==> r == Next(d)
    ensures k in {ArrowUp, ArrowDown, Space} ==> r == Toggle(d)
    ensures k == OtherKey ==> r == d
  {
    match k
    case ArrowLeft => Prev(d)
    case ArrowRight => Next(d)
    case ArrowUp => Toggle(d)
    case ArrowDown => Toggle(d)
    case Space => Toggle(d)
    case OtherKey => d
  }

  /** One user action, with a click on the card turning it exactly once. */
  function Step(d: Deck, e: Event): (r: Deck)
    requires Valid(d)
    ensures Valid(r) && r.size == d.size && r.broken == d.broken
    ensures e == ClickCard ==> r == Toggle(d)
  {
    match e
    case PressKey(k) => OnKey(d, k)
    case ClickPrev => Prev(d)
    case ClickNext => Next(d)
    case ClickCard => Toggle(d)
    case ClickFlip => FlipTo(d, true)
    case ClickFlipBack => FlipTo(d, false)
  }

  /** A whole sequence of user actions. */
  function Run(d: Deck, es: seq<Event>): (r: Deck)
    requires Valid(d)
    ensures Valid(r)
    decreases |es|
  {
    if es == [] then d else Run(Step(d, es[0]), es[1..])
  }

  /** Whatever the user does, the index stays within the deck and the deck
      keeps its size and its cards. */
  lemma {:induction false} RunKeepsBounds(d: Deck, es: seq<Event>)
    requires Valid(d)
    ensures Run(d, es).size == d.size && Run(d, es).index < d.size && Run(d, es).broken == d.broken
    decreases |es|
  {
    if es != [] {
      RunKeepsBounds(Step(d, es[0]), es[1..]);
    }
  }

  /** In a deck with no `null` card every display goes through, so the
      screen always shows the card the index names. */
  lemma {:induction false} RunStaysInSync(d: Deck, es: seq<Event>)
    requires Valid(d) && InSync(d) && d.broken == {}
    ensures InSync(Run(d, es))
    decreases |es|
  {
    if es != [] {
      RunStaysInSync(Step(d, es[0]), es[1..]);
    }
  }

  /** Moving on and back again returns to the same card, question side up. */
  lemma NextThenPrev(d: Deck)
    requires Valid(d) && InSync(d) && d.index < d.size - 1 && d.index + 1 !in d.broken
    ensures Prev(Next(d)) == d.(flipped := false)
  {
  }

  lemma PrevThenNext(d: Deck)
    requires Valid(d) && InSync(d) && d.index > 0 && d.index - 1 !in d.broken
    ensures Next(Prev(d)) == d.(flipped := false)
  {
  }

  /** Moving onto a `null` card leaves the previous card's text, face and
      buttons up with the next-card button live, so a second press moves
      past it; when the card after it is not `null`, the screen is back in
      step. */
  lemma NullCardSkipped(d: Deck)
    requires Valid(d) && InSync(d) && d.index + 2 < d.size
    requires d.index + 1 in d.broken && d.index + 2 !in d.broken
    ensures Next(d).index == d.index + 1 && Next(d).flipped == d.flipped
    ensures Buttons(Next(d)) == Buttons(d)
    ensures Next(Next(d)).index == d.index + 2 && InSync(Next(Next(d))) && !Next(Next(d)).flipped
  {
  }

  /** With the second of two cards `null`, pressing next strands the
      learner: the counter reads card 2 while card 1 stays up, the
      previous-card button stays disabled as on card 1, and the live
      next-card button no longer moves. */
  lemma NullLastCardStrands()
    ensures var d := Next(Open(2, {1}));
            && d.index == 1 && d.shownAt == 0
            && Buttons(d).prevDisabled && !Buttons(d).nextDisabled
            && Prev(d) == d && Next(d) == d
  {
  }

  /** Two turns of the card cancel out. */
  lemma ToggleTwice(d: Deck)
    ensures Toggle(Toggle(d)) == d
  {
  }

  /** The state of the two navigation buttons. */
  datatype NavButtons = NavButtons(
    prevDisabled: bool,
    nextDisabled: bool,
    prevLabel: string,
    nextLabel: string)

  const FirstCardLabel: string := "← First Card"
  const PreviousLabel: string := "← Previous"
  const LastCardLabel: string := "Last Card →"
  const NextLabel: string := "Next →"

  /** `updateNavigationButtons`, as the last display that went through
      left the buttons. */
  function Buttons(d: Deck): (b: NavButtons)
    requires Valid(d)
    ensures b.prevDisabled <==> d.shownAt == 0
    ensures b.nextDisabled <==> d.shownAt == d.size - 1
    ensures b.prevLabel == (if d.shownAt == 0 then FirstCardLabel else PreviousLabel)
    ensures b.nextLabel == (if d.shownAt == d.size - 1 then LastCardLabel else NextLabel)
  {
    var atFirst := d.shownAt == 0;
    var atLast := d.shownAt == d.size - 1;
    NavButtons(atFirst, atLast,
               if atFirst then FirstCardLabel else PreviousLabel,
               if atLast then LastCardLabel else NextLabel)
  }

  /** While the screen is in step, a button is enabled exactly when
      pressing it changes the card. */
  lemma ButtonsMatchMoves(d: Deck)
    requires Valid(d) && InSync(d)
    ensures !Buttons(d).prevDisabled <==> Prev(d).index != d.index
    ensures !Buttons(d).nextDisabled <==> Next(d).index != d.index
  {
  }

  /** The card counter, `"<index + 1> / <size>"`. */
  function Counter(d: Deck): string
    requires Valid(d)
  {
    NatToString(d.index + 1) + " / " + NatToString(d.size)
  }

  /** The counter reads back, through `parseInt`, as the one-based position
      of the card on screen. */
  lemma CounterReadsBack(d: Deck)
    requires Valid(d)
    ensures ParseInt(Counter(d)) == Some(d.index + 1)
  {
    assert NatToString(d.index + 1) + " / " + NatToString(d.size) ==
           NatToString(d.index + 1) + (" / " + NatToString(d.size));
    ParseIntOfNatToString(d.index + 1, " / " + NatToString(d.size));
  }

  /** The viewer as written, which also counts the click handlers on the
      card element: every display that goes through adds one more, since
      that element is never replaced, and a click runs all of them. */
  datatype WrittenDeck = WrittenDeck(deck: Deck, cardHandlers: nat)

  function WrittenOpen(size: nat, broken: set<nat>): (w: WrittenDeck)
    requires size > 0 && 0 !in broken
    ensures w.deck == Open(size, broken) && w.cardHandlers == 1
  {
    WrittenDeck(Open(size, broken), 1)
  }

  /** The viewer after a move from `w` to `r`: one more handler when the
      move displayed a card in full. */
  function WrittenMove(w: WrittenDeck, r: Deck): (m: WrittenDeck)
    ensures m.deck == r
    ensures m.cardHandlers == w.cardHandlers + (if r.index != w.deck.index && r.index !in r.broken then 1 else 0)
  {
    WrittenDeck(r, if r.index != w.deck.index && r.index !in r.broken then w.cardHandlers + 1 else w.cardHandlers)
  }

  /** One user action on the viewer as written: a move that displays a
      card adds a handler; a click on the card turns it once per handler. */
  function WrittenStep(w: WrittenDeck, e: Event): (r: WrittenDeck)
    requires Valid(w.deck)
    ensures Valid(r.deck) && r.deck.size == w.deck.size && r.deck.index == Step(w.deck, e).index
    ensures e != ClickCard ==> r.deck == Step(w.deck, e)
    ensures e == ClickCard ==> r.deck.flipped == (if w.cardHandlers % 2 == 1 then !w.deck.flipped else w.deck.flipped)
  {
    var d := w.deck;
    match e
    case ClickPrev => WrittenMove(w, Prev(d))
    case ClickNext => WrittenMove(w, Next(d))
    case PressKey(ArrowLeft) => WrittenMove(w, Prev(d))
    case PressKey(ArrowRight) => WrittenMove(w, Next(d))
    case ClickCard =>
      WrittenDeck(d.(flipped := if w.cardHandlers % 2 == 1 then !d.flipped else d.flipped), w.cardHandlers)
    case _ => WrittenDeck(Step(d, e), w.cardHandlers)
  }

  /** As written, after moving to the second card a click on it leaves it
      unturned: two handlers each turn it, and the turns cancel. The
      corrected step turns it. */
  lemma ClickAfterNextDoesNothing()
    ensures var w := WrittenStep(WrittenStep(WrittenOpen(2, {}), ClickNext), ClickCard);
            w.deck.index == 1 && !w.deck.flipped
    ensures Step(Step(Open(2, {}), ClickNext), ClickCard).flipped
  {
  }

  /** Open a deck of at least two cards, none `null`, then alternate next
      and previous `k` times. */
  function WrittenMoves(size: nat, k: nat): (w: WrittenDeck)
    requires size > 1
    ensures Valid(w.deck) && InSync(w.deck) && w.deck.broken == {}
    ensures w.deck.size == size && w.deck.index == k % 2
  {
    if k == 0 then WrittenOpen(size, {})
    else
      var w := WrittenMoves(size, k - 1);
      WrittenStep(w, if w.deck.index == 0 then ClickNext else ClickPrev)
  }

  /** In general, as written, after `k` moves a card carries `k + 1`
      click handlers, and a click shows the answer only when `k` is even:
      on every other card the click appears dead. */
  lemma {:induction false} WrittenHandlersGrow(size: nat, k: nat)
    requires size > 1
    ensures var w := WrittenMoves(size, k);
            && w.cardHandlers == k + 1 && !w.deck.flipped
            && (WrittenStep(w, ClickCard).deck.flipped <==> k % 2 == 0)
  {
    if k > 0 {
      WrittenHandlersGrow(size, k - 1);
    }
  }
}

=== FILE: formatter.dfy ===
/** The markdown-like formatting of study guides and assignments
    (frontend/js/learning_session.js, `displayStudyGuide` and
    `displayAssignment`): bold, then italics, then paragraph breaks, then
    line breaks, and a wrapping paragraph. */
module Formatter {
  import opened Wrappers
  import opened JsText

  /** Characters the regular-expression `.` does not match. */
  predicate IsLineTerminator(c: char) {
    c == '\n' || c == '\r' || c == '\U{2028}' || c == '\U{2029}'
  }

  /** The first position at or after `from` where `d` closes a lazily
      matched `(.*?)`: the earliest occurrence of `d` with no line
      terminator before it; `None` when a line terminator or the end of
      the text comes first. */
  function Closing(t: string, from: nat, d: string): (r: Option<nat>)
    requires |d| > 0 && !IsLineTerminator(d[0])
    ensures r.Some? ==> from <= r.value && OccursAt(t, d, r.value)
    decreases |t| - from
  {
    if from + |d| > |t| then None
    else if OccursAt(t, d, from) then Some(from)
    else if IsLineTerminator(t[from]) then None
    else Closing(t, from + 1, d)
  }

  /** `t.replace(/D(.*?)D/g, open + '$1' + close)` for the delimiter `d`:
      scanning left to right, a delimiter that has a closing one on the same
      line is replaced, together with it, by the tags around the text
      between them; anything else is copied. */
  function Emphasis(t: string, d: string, open: string, close: string): string
    requires |d| > 0 && !IsLineTerminator(d[0])
    decreases |t|
  {
    if t == [] then []
    else match SpanEnd(t, d)
      case Some(j) => open + t[|d|..j] + close + Emphasis(t[j + |d|..], d, open, close)
      case None => [t[0]] + Emphasis(t[1..], d, open, close)
  }

  /** Where the span opened by a delimiter at the start of `t` closes, if
      it does. */
  function SpanEnd(t: string, d: string): (r: Option<nat>)
    requires |d| > 0 && !IsLineTerminator(d[0])
    ensures r.Some? ==> |d| <= r.value && r.value + |d| <= |t|
  {
    if OccursAt(t, d, 0) then Closing(t, |d|, d) else None
  }

  /** `t.replace(/P/g, rep)` for a literal pattern: each occurrence, left to
      right and without overlap, becomes `rep`. */
  function ReplaceAll(t: string, p: string, rep: string): string
    requires |p| > 0
    decreases |t|
  {
    if t == [] then []
    else if OccursAt(t, p, 0) then rep + ReplaceAll(t[|p|..], p, rep)
    else [t[0]] + ReplaceAll(t[1..], p, rep)
  }

  /** The bold pass, then the italic pass. */
  function Markup(text: string): string {
    Emphasis(Emphasis(text, "**", "<strong>", "</strong>"), "*", "<em>", "</em>")
  }

  /** Blank lines become paragraph breaks, then the remaining line feeds
      become `<br>`. */
  function Breaks(t: string): string {
    ReplaceAll(ReplaceAll(t, "\n\n", "</p><p>"), "\n", "<br>")
  }

  /** The formatted HTML of a study guide or an assignment. */
  function Format(text: string): (html: string)
    ensures |html| >= 7 && html[..3] == "<p>" && html[|html| - 4..] == "</p>"
  {
    "<p>" + Breaks(Markup(text)) + "</p>"
  }

  /** A replacement that does not contain the replaced character removes
      every occurrence of it. */
  lemma {:induction false} ReplaceRemovesChar(t: string, c: char, rep: string)
    requires c !in rep
    ensures c !in ReplaceAll(t, [c], rep)
    decreases |t|
  {
    if t != [] {
      ReplaceRemovesChar(t[1..], c, rep);
      assert t[..1] == [t[0]];
    }
  }

  /** The formatted text never contains a line feed. */
  lemma FormatHasNoNewline(text: string)
    ensures '\n' !in Format(text)
  {
    var paragraphs := ReplaceAll(Markup(text), "\n\n", "</p><p>");
    assert "\n" == ['\n'];
    ReplaceRemovesChar(paragraphs, '\n', "<br>");
  }

  /** Text without the delimiter's first character is left as it is. */
  lemma {:induction false} EmphasisIdentity(t: string, d: string, open: string, close: string)
    requires |d| > 0 && !IsLineTerminator(d[0])
    requires d[0] !in t
    ensures Emphasis(t, d, open, close) == t
    decreases |t|
  {
    if t != [] {
      HeadMismatch(t, d, 0);
      assert d[0] !in t[1..] by {
        forall k | 0 <= k < |t[1..]| ensures t[1..][k] != d[0] { assert t[1..][k] == t[k + 1]; }
      }
      EmphasisIdentity(t[1..], d, open, close);
    }
  }

  /** Text without the pattern's first character is left as it is. */
  lemma {:induction false} ReplaceIdentity(t: string, p: string, rep: string)
    requires |p| > 0 && p[0] !in t
    ensures ReplaceAll(t, p, rep) == t
    decreases |t|
  {
    if t != [] {
      HeadMismatch(t, p, 0);
      assert p[0] !in t[1..] by {
        forall k | 0 <= k < |t[1..]| ensures t[1..][k] != p[0] { assert t[1..][k] == t[k + 1]; }
      }
      ReplaceIdentity(t[1..], p, rep);
    }
  }

  lemma MarkupIdentity(t: string)
    requires '*' !in t
    ensures Markup(t) == t
  {
    EmphasisIdentity(t, "**", "<strong>", "</strong>");
    EmphasisIdentity(t, "*", "<em>", "</em>");
  }

  lemma BreaksIdentity(t: string)
    requires '\n' !in t
    ensures Breaks(t) == t
  {
    ReplaceIdentity(t, "\n\n", "</p><p>");
    ReplaceIdentity(t, "\n", "<br>");
  }

  /** Text with no asterisk and no line break is only wrapped in a
      paragraph. */
  lemma PlainTextOnlyWrapped(text: string)
    requires '*' !in text && '\n' !in text
    ensures Format(text) == "<p>" + text + "</p>"
  {
    MarkupIdentity(text);
    BreaksIdentity(text);
  }

  /** Appending a part that does not start with the pattern's first
      character, after a part that contains none of it, distributes. */
  lemma {:induction false} ReplaceAppend(a: string, b: string, p: string, rep: string)
    requires |p| > 0 && p[0] !in a
    ensures ReplaceAll(a + b, p, rep) == a + ReplaceAll(b, p, rep)
    decreases |a|
  {
    if a == [] {
      assert a + b == b;
    } else {
      HeadMismatch(a + b, p, 0);
      assert (a + b)[1..] == a[1..] + b;
      assert p[0] !in a[1..] by {
        forall k | 0 <= k < |a[1..]| ensures a[1..][k] != p[0] { assert a[1..][k] == a[k + 1]; }
      }
      ReplaceAppend(a[1..], b, p, rep);
    }
  }

  /** An occurrence at the very start is replaced. */
  lemma ReplaceAtStart(p: string, b: string, rep: string)
    requires |p| > 0
    ensures ReplaceAll(p + b, p, rep) == rep + ReplaceAll(b, p, rep)
  {
    assert OccursAt(p + b, p, 0) by { assert (p + b)[..|p|] == p; }
    assert (p + b)[|p|..] == b;
  }

  /** A global replacement over a text in which the pattern occurs once,
      and no other occurrence can start: exactly that one is replaced. */
  lemma ReplaceSingle(a: string, p: string, b: string, rep: string)
    requires |p| > 0 && p[0] !in a && p[0] !in b
    ensures ReplaceAll(a + p + b, p, rep) == a + rep + b
  {
    assert a + p + b == a + (p + b);
    ReplaceAppend(a, p + b, p, rep);
    ReplaceAtStart(p, b, rep);
    ReplaceIdentity(b, p, rep);
  }

  /** A blank line between two plain lines separates two paragraphs. */
  lemma BlankLineSplitsParagraphs(a: string, b: string)
    requires '*' !in a && '\n' !in a && '*' !in b && '\n' !in b
    ensures Format(a + "\n\n" + b) == "<p>" + a + "</p><p>" + b + "</p>"
  {
    var t := a + "\n\n" + b;
    assert '*' !in t;
    MarkupIdentity(t);
    ReplaceSingle(a, "\n\n", b, "</p><p>");
    var u := a + "</p><p>" + b;
    assert '\n' !in u;
    ReplaceIdentity(u, "\n", "<br>");
  }

  /** A lone line feed survives the paragraph pass. */
  lemma LoneLineFeedPass(a: string, b: string)
    requires '\n' !in a && '\n' !in b
    ensures ReplaceAll(a + "\n" + b, "\n\n", "</p><p>") == a + "\n" + b
  {
    assert a + "\n" + b == a + ("\n" + b);
    ReplaceAppend(a, "\n" + b, "\n\n", "</p><p>");
    if |b| > 0 {
      HeadMismatch(b, "\n\n", 0);
      assert ("\n" + b)[..2] == ['\n', b[0]];
    }
    assert ("\n" + b)[1..] == b;
    ReplaceIdentity(b, "\n\n", "</p><p>");
  }

  /** A single line break becomes a `<br>`. */
  lemma LineBreakBecomesBr(a: string, b: string)
    requires '*' !in a && '\n' !in a && '*' !in b && '\n' !in b
    ensures Format(a + "\n" + b) == "<p>" + a + "<br>" + b + "</p>"
  {
    var t := a + "\n" + b;
    assert '*' !in t;
    MarkupIdentity(t);
    LoneLineFeedPass(a, b);
    ReplaceSingle(a, "\n", b, "<br>");
  }

  /** Characters that can sit inside an emphasis span: no asterisk and no
      line terminator. */
  predicate Inline(w: string) {
    forall k :: 0 <= k < |w| ==> w[k] != '*' && !IsLineTerminator(w[k])
  }

  /** In `**w**`, the closing delimiter is the one right after `w`. */
  lemma BoldClosing(w: string)
    requires Inline(w)
    ensures Closing("**" + w + "**", 2, "**") == Some(2 + |w|)
  {
    var a := "**" + w;
    var t := a + "**";
    forall k | 2 <= k < 2 + |w| ensures t[k] != '*' && !IsLineTerminator(t[k]) {
      assert t[k] == w[k - 2];
    }
    ClosingSkips(t, 2, 2 + |w|, "**");
    assert t[|a|..] == "**";
    assert OccursAt(t, "**", 2 + |w|);
  }

  /** Unfolding the emphasis pass at a delimiter that is closed. */
  lemma {:induction false} EmphasisAtOpen(t: string, d: string, open: string, close: string)
    requires |d| > 0 && !IsLineTerminator(d[0])
    requires t != [] && SpanEnd(t, d).Some?
    ensures Emphasis(t, d, open, close) ==
            open + t[|d|..SpanEnd(t, d).value] + close + Emphasis(t[SpanEnd(t, d).value + |d|..], d, open, close)
  {
  }

  /** The bold pass over a single bold span. */
  lemma BoldPass(w: string)
    requires Inline(w)
    ensures Emphasis("**" + w + "**", "**", "<strong>", "</strong>") == "<strong>" + w + "</strong>"
  {
    var a := "**" + w;
    var t := a + "**";
    BoldClosing(w);
    assert OccursAt(t, "**", 0) by { assert t[..2] == "**"; }
    assert SpanEnd(t, "**") == Some(2 + |w|);
    EmphasisAtOpen(t, "**", "<strong>", "</strong>");
    assert t[2..2 + |w|] == w;
    assert t[2 + |w| + 2..] == [];
  }

  /** Both emphasis passes over a single bold span. */
  lemma BoldMarkup(w: string)
    requires Inline(w)
    ensures Markup("**" + w + "**") == "<strong>" + w + "</strong>"
  {
    var bold := "<strong>" + w + "</strong>";
    BoldPass(w);
    assert '*' !in bold;
    EmphasisIdentity(bold, "*", "<em>", "</em>");
  }

  /** A bold span on one line becomes a `strong` element. */
  lemma BoldSpan(w: string)
    requires Inline(w)
    ensures Format("**" + w + "**") == "<p><strong>" + w + "</strong></p>"
  {
    var bold := "<strong>" + w + "</strong>";
    BoldMarkup(w);
    assert '\n' !in bold;
    BreaksIdentity(bold);
    Regroup("<p>", "<strong>", w, "</strong>", "</p>");
    assert "<p>" + "<strong>" == "<p><strong>";
    assert "</strong>" + "</p>" == "</strong></p>";
  }

  lemma Regroup(a: string, b: string, c: string, d: string, e: string)
    ensures a + (b + c + d) + e == (a + b) + c + (d + e)
  {
  }

  /** A text whose character at `k` differs from the pattern's first one
      has no occurrence of the pattern at `k`. */
  lemma HeadMismatch(t: string, p: string, k: nat)
    requires |p| > 0 && k < |t| && t[k] != p[0]
    ensures !OccursAt(t, p, k)
  {
    if k + |p| <= |t| {
      assert t[k..k + |p|][0] == t[k];
    }
  }

  /** `Closing` moves over characters that neither start the delimiter nor
      end the line. */
  lemma {:induction false} ClosingSkips(t: string, from: nat, to: nat, d: string)
    requires |d| > 0 && !IsLineTerminator(d[0])
    requires from <= to <= |t|
    requires forall k :: from <= k < to ==> t[k] != d[0] && !IsLineTerminator(t[k])
    ensures Closing(t, from, d) == Closing(t, to, d)
    decreases |t| - from
  {
    if from < to && from + |d| <= |t| {
      HeadMismatch(t, d, from);
      ClosingSkips(t, from + 1, to, d);
    }
  }
}

=== FILE: http.dfy ===
/** What an Express route sends back: a status code and a JSON body. */
module Http {
  import opened Json

  datatype Response = Response(status: nat, body: Json)

  /** `res.status(code).json({ message: text })`. */
  function Message(status: nat, text: string): Response {
    Response(status, JObj(map["message" := JStr(text)]))
  }

  /** `res.json(body)`: status 200. */
  function Success(body: Json): Response {
    Response(200, body)
  }

  /** The `message` of a response body, when it has one. */
  function MessageOf(r: Response): string {
    if r.body.JObj? && "message" in r.body.fields && r.body.fields["message"].JStr?
    then r.body.fields["message"].s else ""
  }

  /** Two different messages make two different responses. */
  lemma MessagesDiffer(status: nat, a: string, b: string)
    requires a != b
    ensures Message(status, a) != Message(status, b)
  {
    assert Message(status, a).body.fields["message"] == JStr(a);
  }
}

=== FILE: input_safety.dfy ===
/** The browser-side input checker of the home page
    (frontend/js/home_page.js, `isInputSafe` and `validateAllInputs`). */
module InputSafety {
  import opened JsText

  const BlacklistSize: nat := 20

  /** Entry `i` of the case-insensitive blacklist, in the order it is
      searched. */
  function BlacklistWord(i: nat): string
    requires i < BlacklistSize
  {
    match i
    case 0 => "<script"
    case 1 => "javascript:"
    case 2 => "onerror="
    case 3 => "onload="
    case 4 => "onclick="
    case 5 => "drop table"
    case 6 => "delete from"
    case 7 => "insert into"
    case 8 => "select *"
    case 9 => "union select"
    case 10 => "rm -rf"
    case 11 => "del /f"
    case 12 => "format c:"
    case 13 => "shutdown"
    case 14 => "hack"
    case 15 => "exploit"
    case 16 => "malware"
    case 17 => "virus"
    case 18 => "bomb"
    case _ => "weapon"
  }

  /** What `/<[^>]*>/` finds: a `<` followed somewhere later by a `>`. The
      first `>` after the `<` ends the match; any characters, `<` and line
      breaks included, may lie between. */
  predicate HasTag(s: string) {
    exists i, j | 0 <= i < j < |s| :: s[i] == '<' && s[j] == '>'
  }

  /** The characters counted by `/[<>'"`;{}()]/g`. */
  predicate IsSpecial(c: char) {
    c in "<>'\"`;{}()"
  }

  function SpecialCount(s: string): (n: nat)
    ensures n <= |s|
  {
    if s == [] then 0 else (if IsSpecial(s[0]) then 1 else 0) + SpecialCount(s[1..])
  }

  /** More than a tenth of the characters are special. */
  predicate TooManySpecials(s: string) {
    10 * SpecialCount(s) > |s|
  }

  /** The blacklist as a list. */
  function Blacklist(): (words: seq<string>)
    ensures |words| == BlacklistSize
    ensures forall i :: 0 <= i < BlacklistSize ==> words[i] == BlacklistWord(i)
  {
    seq(BlacklistSize, i requires 0 <= i < BlacklistSize => BlacklistWord(i))
  }

  /** Some word of the list occurs in `t`. */
  predicate AnyOccurs(t: string, words: seq<string>) {
    exists k | 0 <= k < |words| :: Contains(t, words[k])
  }

  /** The lower-cased text contains a blacklisted word. */
  predicate Blacklisted(s: string) {
    AnyOccurs(ToLower(s), Blacklist())
  }

  /** When `isInputSafe` accepts: none of its three checks fires. */
  predicate Safe(s: string) {
    !HasTag(s) && !Blacklisted(s) && !TooManySpecials(s)
  }

  /** The regular-expression test, as one left-to-right pass remembering
      whether a `<` has been seen. */
  method MatchesTag(s: string) returns (found: bool)
    ensures found <==> HasTag(s)
  {
    var open := -1;
    var i := 0;
    while i < |s|
      invariant 0 <= i <= |s|
      invariant -1 <= open < i
      invariant open >= 0 ==> s[open] == '<'
      invariant open < 0 ==> forall k :: 0 <= k < i ==> s[k] != '<'
      invariant forall a, b :: 0 <= a < b < i ==> !(s[a] == '<' && s[b] == '>')
    {
      if s[i] == '>' && open >= 0 {
        return true;
      }
      if s[i] == '<' && open < 0 {
        open := i;
      }
      i := i + 1;
    }
    return false;
  }

  /** A word that starts and ends with a non-whitespace character and has
      no capital letter. */
  predicate LowerSolid(w: string) {
    |w| > 0 && !IsWhitespace(w[0]) && !IsWhitespace(w[|w| - 1]) &&
    forall k :: 0 <= k < |w| ==> !IsAsciiUpper(w[k])
  }

  lemma ShapeFirst(i: nat)
    requires i < 5
    ensures LowerSolid(BlacklistWord(i))
  {
  }

  lemma ShapeSecond(i: nat)
    requires 5 <= i < 10
    ensures LowerSolid(BlacklistWord(i))
  {
  }

  lemma ShapeThird(i: nat)
    requires 10 <= i < 15
    ensures LowerSolid(BlacklistWord(i))
  {
  }

  lemma ShapeFourth(i: nat)
    requires 15 <= i < BlacklistSize
    ensures LowerSolid(BlacklistWord(i))
  {
  }

  /** No blacklist entry starts or ends with whitespace, and none has a
      capital letter. */
  lemma BlacklistWordShape(i: nat)
    requires i < BlacklistSize
    ensures |BlacklistWord(i)| > 0
    ensures !IsWhitespace(BlacklistWord(i)[0]) && !IsWhitespace(BlacklistWord(i)[|BlacklistWord(i)| - 1])
    ensures forall k :: 0 <= k < |BlacklistWord(i)| ==> !IsAsciiUpper(BlacklistWord(i)[k])
  {
    if i < 5 {
      ShapeFirst(i);
    } else if i < 10 {
      ShapeSecond(i);
    } else if i < 15 {
      ShapeThird(i);
    } else {
      ShapeFourth(i);
    }
  }

  /** `isInputSafe`: the tag test on the raw input, the blacklist on the
      lower-cased and trimmed input, then the special-character ratio on the
      raw input. */
  method IsInputSafe(s: string) returns (safe: bool)
    ensures safe <==> Safe(s)
  {
    var clean := Trim(ToLower(s));
    var tag := MatchesTag(s);
    if tag {
      return false;
    }
    var hit := FindBlacklisted(clean, s);
    if hit {
      return false;
    }
    safe := !TooManySpecials(s);
  }

  /** A word that starts and ends with a non-whitespace character. */
  predicate SolidEnds(p: string) {
    |p| > 0 && !IsWhitespace(p[0]) && !IsWhitespace(p[|p| - 1])
  }

  /** The search loop: whether any of `words` occurs in `clean`, the trimmed
      form of `t`. */
  method FindWord(clean: string, ghost t: string, words: seq<string>) returns (hit: bool)
    requires clean == Trim(t)
    requires forall k :: 0 <= k < |words| ==> SolidEnds(words[k])
    ensures hit <==> AnyOccurs(t, words)
  {
    var i := 0;
    while i < |words|
      invariant 0 <= i <= |words|
      invariant forall k :: 0 <= k < i ==> !Contains(t, words[k])
    {
      var w := words[i];
      assert SolidEnds(w);
      TrimKeepsOccurrences(t, w);
      if Contains(clean, w) {
        assert Contains(t, words[i]);
        return true;
      }
      i := i + 1;
    }
    return false;
  }

  /** The blacklist loop of `isInputSafe` over the cleaned input. */
  method FindBlacklisted(clean: string, ghost s: string) returns (hit: bool)
    requires clean == Trim(ToLower(s))
    ensures hit <==> Blacklisted(s)
  {
    var words := Blacklist();
    forall k | 0 <= k < |words| ensures SolidEnds(words[k]) {
      BlacklistWordShape(k);
    }
    hit := FindWord(clean, ToLower(s), words);
  }

  /** The empty input passes every check. */
  lemma EmptyIsSafe()
    ensures Safe("")
  {
    forall i | 0 <= i < BlacklistSize ensures !Contains(ToLower(""), Blacklist()[i]) {
      BlacklistWordShape(i);
    }
  }

  /** Lower-casing keeps an occurrence of a word with no capital letters. */
  lemma LowerKeepsOccurrence(s: string, p: string, k: int)
    requires forall i :: 0 <= i < |p| ==> !IsAsciiUpper(p[i])
    requires OccursAt(s, p, k)
    ensures OccursAt(ToLower(s), p, k)
  {
    forall i | 0 <= i < |p|
      ensures ToLower(s)[k..k + |p|][i] == p[i]
    {
      assert s[k..k + |p|][i] == p[i];
    }
  }

  /** Any input with a blacklisted word in it, however the surrounding text
      looks, is refused. */
  lemma BlacklistedWordRejected(a: string, i: nat, b: string)
    requires i < BlacklistSize
    ensures !Safe(a + BlacklistWord(i) + b)
  {
    var p := BlacklistWord(i);
    var s := a + p + b;
    BlacklistWordShape(i);
    assert s[|a|..|a| + |p|] == p;
    LowerKeepsOccurrence(s, p, |a|);
    assert Contains(ToLower(s), Blacklist()[i]);
  }

  lemma LowerKeepsSpecials(c: char)
    ensures IsSpecial(LowerChar(c)) <==> IsSpecial(c)
    ensures LowerChar(c) == '<' <==> c == '<'
    ensures LowerChar(c) == '>' <==> c == '>'
  {
  }

  lemma {:induction false} SpecialCountLower(s: string)
    ensures SpecialCount(ToLower(s)) == SpecialCount(s)
  {
    if s != [] {
      LowerKeepsSpecials(s[0]);
      assert ToLower(s)[1..] == ToLower(s[1..]);
      SpecialCountLower(s[1..]);
    }
  }

  lemma TagLower(s: string)
    ensures HasTag(ToLower(s)) <==> HasTag(s)
  {
    forall k | 0 <= k < |s| ensures (ToLower(s)[k] == '<' <==> s[k] == '<') && (ToLower(s)[k] == '>' <==> s[k] == '>') {
      LowerKeepsSpecials(s[k]);
    }
  }

  /** The checker does not see letter case: two inputs that agree once
      lower-cased are accepted or refused together, so `DROP TABLE` fares
      exactly like `drop table`. */
  lemma CaseBlind(s: string, t: string)
    requires ToLower(s) == ToLower(t)
    ensures Safe(s) <==> Safe(t)
  {
    TagLower(s);
    TagLower(t);
    SpecialCountLower(s);
    SpecialCountLower(t);
  }

  /** The special characters of a concatenation are those of its parts. */
  lemma {:induction false} SpecialCountAppend(a: string, b: string)
    ensures SpecialCount(a + b) == SpecialCount(a) + SpecialCount(b)
  {
    if a == [] {
      assert a + b == b;
    } else {
      assert (a + b)[0] == a[0];
      assert (a + b)[1..] == a[1..] + b;
      SpecialCountAppend(a[1..], b);
    }
  }

  /** The fields `validateAllInputs` looks at; level and learning style are
      never inspected. */
  const InspectedFields: seq<string> := ["topic", "goal", "sourceDocument"]

  /** Every inspected field that is present and non-empty is safe. */
  predicate FormSafe(form: map<string, string>) {
    forall f :: f in InspectedFields && f in form && form[f] != "" ==> Safe(form[f])
  }

  /** `validateAllInputs`. */
  method ValidateAllInputs(form: map<string, string>) returns (ok: bool)
    ensures ok <==> FormSafe(form)
  {
    var i := 0;
    while i < |InspectedFields|
      invariant 0 <= i <= |InspectedFields|
      invariant forall k :: 0 <= k < i && InspectedFields[k] in form && form[InspectedFields[k]] != "" ==>
        Safe(form[InspectedFields[k]])
    {
      var f := InspectedFields[i];
      if f in form && form[f] != "" {
        var safe := IsInputSafe(form[f]);
        if !safe {
          return false;
        }
      }
      i := i + 1;
    }
    return true;
  }

  /** Fields outside the inspected three never affect the verdict. */
  lemma OtherFieldsIgnored(form: map<string, string>, key: string, v: string)
    requires key !in InspectedFields
    ensures FormSafe(form[key := v]) <==> FormSafe(form)
  {
  }

  /** Skipping empty fields changes nothing, since the empty string is safe:
      the verdict is that of checking all present inspected fields. */
  lemma EmptyFieldsHarmless(form: map<string, string>)
    ensures FormSafe(form) <==> forall f :: f in InspectedFields && f in form ==> Safe(form[f])
  {
    EmptyIsSafe();
  }
}

=== FILE: json.dfy ===
/** JSON values as the server and the browser hold them after `JSON.parse`,
    and the part of JavaScript property access the viewer depends on. */
module Json {
  import opened Wrappers

  /** A parsed JSON value. Numbers are kept as integers: the only number the
      model produces itself is a millisecond timestamp. Objects are maps, as
      `JSON.parse` keeps the last of duplicated keys. */
  datatype Json =
    | JNull
    | JBool(b: bool)
    | JNum(n: int)
    | JStr(s: string)
    | JArr(items: seq<Json>)
    | JObj(fields: map<string, Json>)

  /** The outcome of evaluating a property-access chain in JavaScript: a
      value, `undefined`, or a thrown `TypeError`. */
  datatype Access = Val(v: Json) | Undefined | Thrown

  /** `x.key` for the plain (non-numeric, non-`length`) keys the application
      reads. Reading a property of `null` or `undefined` throws; reading one
      that a primitive or an array does not have gives `undefined`. */
  function Member(x: Access, key: string): (r: Access)
    ensures r.Thrown? <==> x.Thrown? || x.Undefined? || x == Val(JNull)
    ensures r.Val? ==> x.Val? && x.v.JObj? && key in x.v.fields && r.v == x.v.fields[key]
    ensures x.Val? && x.v.JObj? && key in x.v.fields ==> r == Val(x.v.fields[key])
    ensures x.Val? && x.v != JNull && !(x.v.JObj? && key in x.v.fields) ==> r == Undefined
  {
    match x
    case Thrown => Thrown
    case Undefined => Thrown
    case Val(JNull) => Thrown
    case Val(JObj(m)) => if key in m then Val(m[key]) else Undefined
    case Val(_) => Undefined
  }

  /** JavaScript truthiness of a value: `undefined`, `null`, `false`, `0` and
      the empty string are falsy; arrays and objects, even empty, are truthy. */
  predicate Truthy(x: Access) {
    match x
    case Val(JBool(b)) => b
    case Val(JNum(n)) => n != 0
    case Val(JStr(s)) => s != []
    case Val(JArr(_)) => true
    case Val(JObj(_)) => true
    case _ => false
  }

  /** `{question, answer}` as the model prompt asks for one flashcard. */
  function Card(question: string, answer: string): Json {
    JObj(map["question" := JStr(question), "answer" := JStr(answer)])
  }

  /** `{question, options, correct}` for one quiz question. */
  function QuizItem(question: string, options: seq<string>, correct: string): Json {
    JObj(map[
      "question" := JStr(question),
      "options" := JArr(seq(|options|, i requires 0 <= i < |options| => JStr(options[i]))),
      "correct" := JStr(correct)])
  }

  /** The `content` object with its four fields. */
  function Content(flashcards: seq<Json>, quiz: seq<Json>, studyGuide: string, assignment: string): Json {
    JObj(map[
      "flashcards" := JArr(flashcards),
      "quiz" := JArr(quiz),
      "studyGuide" := JStr(studyGuide),
      "assignment" := JStr(assignment)])
  }

  /** Reads `v.content.<field>`; `None` when any step is missing. */
  function ContentField(v: Json, field: string): Option<Json> {
    match Member(Member(Val(v), "content"), field)
    case Val(x) => Some(x)
    case _ => None
  }

  /** A quiz question with exactly four string options and a string answer. */
  predicate WellFormedQuestion(q: Json) {
    && q.JObj?
    && "question" in q.fields && q.fields["question"].JStr?
    && "options" in q.fields && q.fields["options"].JArr?
    && |q.fields["options"].items| == 4
    && (forall i :: 0 <= i < 4 ==> q.fields["options"].items[i].JStr?)
    && "correct" in q.fields && q.fields["correct"].JStr?
  }

  /** A card with string question and answer. */
  predicate WellFormedCard(c: Json) {
    && c.JObj?
    && "question" in c.fields && c.fields["question"].JStr?
    && "answer" in c.fields && c.fields["answer"].JStr?
  }

  /** The learning-material shape the prompt asks the model for: type tag,
      and a content object whose four fields are present and well-typed. */
  predicate IsLearningMaterial(v: Json) {
    && v.JObj?
    && "type" in v.fields && v.fields["type"] == JStr("learning_material")
    && ContentField(v, "flashcards").Some? && ContentField(v, "flashcards").value.JArr?
    && (forall c :: c in ContentField(v, "flashcards").value.items ==> WellFormedCard(c))
    && ContentField(v, "quiz").Some? && ContentField(v, "quiz").value.JArr?
    && (forall q :: q in ContentField(v, "quiz").value.items ==> WellFormedQuestion(q))
    && ContentField(v, "studyGuide").Some? && ContentField(v, "studyGuide").value.JStr?
    && ContentField(v, "assignment").Some? && ContentField(v, "assignment").value.JStr?
  }
}

=== FILE: jstext.dfy ===
/** The handful of JavaScript string built-ins the application relies on,
    restricted to ASCII: `trim`, `toLowerCase`, `includes`, `split` on one
    character, `Number.prototype.toString` on naturals and `parseInt`. */
module JsText {
  import opened Wrappers

  /** Whitespace as `String.prototype.trim` strips it, ASCII part only:
      tab, line feed, vertical tab, form feed, carriage return and space. */
  predicate IsWhitespace(c: char) {
    c == ' ' || c == '\t' || c == '\n' || c == '\U{000B}' || c == '\U{000C}' || c == '\r'
  }

  predicate IsBlank(s: string) {
    forall k :: 0 <= k < |s| ==> IsWhitespace(s[k])
  }

  /** Drops leading whitespace: the result is the suffix that starts at the
      first non-whitespace character. */
  function TrimStart(s: string): (r: string)
    ensures |r| <= |s| && r == s[|s| - |r|..]
    ensures forall k :: 0 <= k < |s| - |r| ==> IsWhitespace(s[k])
    ensures |r| > 0 ==> !IsWhitespace(r[0])
  {
    if |s| > 0 && IsWhitespace(s[0]) then TrimStart(s[1..]) else s
  }

  /** Drops trailing whitespace: the result is the prefix that ends at the
      last non-whitespace character. */
  function TrimEnd(s: string): (r: string)
    ensures |r| <= |s| && r == s[..|r|]
    ensures forall k :: |r| <= k < |s| ==> IsWhitespace(s[k])
    ensures |r| > 0 ==> !IsWhitespace(r[|r| - 1])
  {
    if |s| > 0 && IsWhitespace(s[|s| - 1]) then TrimEnd(s[..|s| - 1]) else s
  }

  function Trim(s: string): (r: string)
    ensures r == [] <==> IsBlank(s)
    ensures |r| > 0 ==> !IsWhitespace(r[0]) && !IsWhitespace(r[|r| - 1])
  {
    var t := TrimStart(s);
    assert IsBlank(s) ==> t == [];
    TrimEnd(t)
  }

  lemma {:induction false} TrimStartAppend(s: string, c: char)
    requires !IsBlank(s)
    ensures TrimStart(s + [c]) == TrimStart(s) + [c]
  {
    if IsWhitespace(s[0]) {
      assert (s + [c])[1..] == s[1..] + [c];
      assert !IsBlank(s[1..]) by {
        var k :| 0 <= k < |s| && !IsWhitespace(s[k]);
        assert k > 0 && !IsWhitespace(s[1..][k - 1]);
      }
      TrimStartAppend(s[1..], c);
    }
  }

  /** Trailing whitespace never changes what `trim` returns; in particular
      the line break a closing code fence leaves behind is harmless. */
  lemma TrimIgnoresTrailingWhitespace(s: string, c: char)
    requires IsWhitespace(c)
    ensures Trim(s + [c]) == Trim(s)
  {
    if IsBlank(s) {
      assert IsBlank(s + [c]);
    } else {
      TrimStartAppend(s, c);
      var t := TrimStart(s);
      assert (t + [c])[..|t + [c]| - 1] == t;
    }
  }

  predicate IsAsciiUpper(c: char) {
    'A' <= c <= 'Z'
  }

  function LowerChar(c: char): char {
    if IsAsciiUpper(c) then (c as int + 32) as char else c
  }

  /** `toLowerCase`, ASCII letters only. */
  function ToLower(s: string): (r: string)
    ensures |r| == |s|
    ensures forall k :: 0 <= k < |r| ==> !IsAsciiUpper(r[k])
    ensures forall k :: 0 <= k < |s| && !IsAsciiUpper(s[k]) ==> r[k] == s[k]
    ensures forall k :: 0 <= k < |s| && IsAsciiUpper(s[k]) ==> r[k] == (s[k] as int + 32) as char
  {
    seq(|s|, k requires 0 <= k < |s| => LowerChar(s[k]))
  }

  predicate OccursAt(s: string, p: string, k: int) {
    0 <= k && k + |p| <= |s| && s[k..k + |p|] == p
  }

  /** `s.includes(p)`. */
  predicate Contains(s: string, p: string) {
    exists k | 0 <= k <= |s| - |p| :: OccursAt(s, p, k)
  }

  /** An occurrence inside a slice is an occurrence in the whole string. */
  lemma SliceOccurrence(s: string, a: nat, b: nat, p: string, k: int)
    requires a <= b <= |s|
    requires OccursAt(s[a..b], p, k)
    ensures OccursAt(s, p, a + k)
  {
    assert 0 <= k && k + |p| <= b - a;
    forall i | 0 <= i < |p|
      ensures s[a + k..a + k + |p|][i] == p[i]
    {
      assert s[a..b][k..k + |p|][i] == p[i];
    }
  }

  /** An occurrence that starts and ends outside the whitespace margins
      lies wholly inside the slice between them. */
  lemma OccurrenceInSlice(s: string, a: nat, b: nat, p: string, k: int)
    requires a <= b <= |s|
    requires forall i :: 0 <= i < a ==> IsWhitespace(s[i])
    requires forall i :: b <= i < |s| ==> IsWhitespace(s[i])
    requires |p| > 0 && !IsWhitespace(p[0]) && !IsWhitespace(p[|p| - 1])
    requires OccursAt(s, p, k)
    ensures OccursAt(s[a..b], p, k - a)
  {
    assert 0 <= k && k + |p| <= |s|;
    assert s[k] == s[k..k + |p|][0] == p[0];
    assert s[k + |p| - 1] == s[k..k + |p|][|p| - 1];
    assert a <= k && k + |p| <= b;
    forall i | 0 <= i < |p|
      ensures s[a..b][k - a..k - a + |p|][i] == p[i]
    {
      assert s[k..k + |p|][i] == p[i];
    }
  }

  /** Trimming cannot hide or create an occurrence of a pattern that starts
      and ends with a non-whitespace character. */
  lemma TrimKeepsOccurrences(s: string, p: string)
    requires |p| > 0 && !IsWhitespace(p[0]) && !IsWhitespace(p[|p| - 1])
    ensures Contains(Trim(s), p) <==> Contains(s, p)
  {
    var a := TrimSlice(s);
    var b := a + |Trim(s)|;
    if Contains(Trim(s), p) {
      TrimmedOccurrence(s, a, b, p);
    }
    if Contains(s, p) {
      InputOccurrence(s, a, b, p);
    }
  }

  /** `trim` returns the slice between a whitespace prefix and a whitespace
      suffix; `a` is where it starts. */
  lemma TrimSlice(s: string) returns (a: nat)
    ensures a + |Trim(s)| <= |s| && Trim(s) == s[a..a + |Trim(s)|]
    ensures forall i :: 0 <= i < a ==> IsWhitespace(s[i])
    ensures forall i :: a + |Trim(s)| <= i < |s| ==> IsWhitespace(s[i])
  {
    var t := TrimStart(s);
    var r := TrimEnd(t);
    a := |s| - |t|;
    assert r == s[a..a + |r|];
    forall i | a + |r| <= i < |s|
      ensures IsWhitespace(s[i])
    {
      assert s[i] == t[i - a];
    }
  }

  lemma TrimmedOccurrence(s: string, a: nat, b: nat, p: string)
    requires a <= b <= |s| && Contains(s[a..b], p)
    ensures Contains(s, p)
  {
    var k: int :| 0 <= k <= |s[a..b]| - |p| && OccursAt(s[a..b], p, k);
    SliceOccurrence(s, a, b, p, k);
  }

  lemma InputOccurrence(s: string, a: nat, b: nat, p: string)
    requires a <= b <= |s|
    requires forall i :: 0 <= i < a ==> IsWhitespace(s[i])
    requires forall i :: b <= i < |s| ==> IsWhitespace(s[i])
    requires |p| > 0 && !IsWhitespace(p[0]) && !IsWhitespace(p[|p| - 1])
    requires Contains(s, p)
    ensures Contains(s[a..b], p)
  {
    var k: int :| 0 <= k <= |s| - |p| && OccursAt(s, p, k);
    OccurrenceInSlice(s, a, b, p, k);
    assert 0 <= k - a <= |s[a..b]| - |p|;
  }

  /** Concatenates parts with the separator between neighbours; the inverse
      of `SplitOn`. */
  function Join(parts: seq<string>, sep: char): string
    requires |parts| > 0
  {
    if |parts| == 1 then parts[0] else parts[0] + [sep] + Join(parts[1..], sep)
  }

  /** `s.split(sep)` for a one-character separator: always at least one part,
      no part holds the separator, and joining the parts gives back `s`. */
  function SplitOn(s: string, sep: char): (parts: seq<string>)
    ensures |parts| > 0
    ensures forall i :: 0 <= i < |parts| ==> sep !in parts[i]
    ensures Join(parts, sep) == s
  {
    if |s| == 0 then [[]]
    else
      var rest := SplitOn(s[1..], sep);
      if s[0] == sep then
        assert Join([[]] + rest, sep) == [sep] + Join(rest, sep);
        [[]] + rest
      else
        var first := [s[0]] + rest[0];
        assert sep !in first;
        var parts := [first] + rest[1..];
        assert Join(parts, sep) == [s[0]] + Join(rest, sep) by {
          if |rest| > 1 {
            assert parts[1..] == rest[1..];
          }
        }
        parts
  }

  /** Splitting a string that is already a join of separator-free parts
      gives those parts back. */
  lemma {:induction false} SplitJoin(parts: seq<string>, sep: char)
    requires |parts| > 0
    requires forall i :: 0 <= i < |parts| ==> sep !in parts[i]
    ensures SplitOn(Join(parts, sep), sep) == parts
  {
    if |parts| == 1 {
      NoSeparatorSplit(parts[0], sep);
    } else {
      SplitJoin(parts[1..], sep);
      SplitPrefix(parts[0], Join(parts[1..], sep), sep);
    }
  }

  lemma {:induction false} NoSeparatorSplit(s: string, sep: char)
    requires sep !in s
    ensures SplitOn(s, sep) == [s]
  {
    if |s| > 0 {
      NoSeparatorSplit(s[1..], sep);
    }
  }

  lemma {:induction false} SplitPrefix(a: string, b: string, sep: char)
    requires sep !in a
    ensures SplitOn(a + [sep] + b, sep) == [a] + SplitOn(b, sep)
  {
    if |a| == 0 {
      assert [] + [sep] + b == [sep] + b;
      assert ([sep] + b)[1..] == b;
    } else {
      assert (a + [sep] + b)[1..] == a[1..] + [sep] + b;
      SplitPrefix(a[1..], b, sep);
      assert [a[0]] + a[1..] == a;
    }
  }

  predicate IsDigit(c: char) {
    '0' <= c <= '9'
  }

  function DigitChar(d: nat): char
    requires d < 10
  {
    ('0' as int + d) as char
  }

  /** `n.toString()` for a natural: decimal digits with no leading zero. */
  function NatToString(n: nat): (r: string)
    ensures |r| > 0
    ensures forall k :: 0 <= k < |r| ==> IsDigit(r[k])
    ensures r[0] == '0' ==> n == 0
    decreases n
  {
    if n < 10 then [DigitChar(n)] else NatToString(n / 10) + [DigitChar(n % 10)]
  }

  /** Value of a character as a digit in the given radix, if it is one.
      Hexadecimal letters are accepted in either case, as `parseInt` does. */
  function DigitIn(c: char, radix: nat): Option<nat> {
    var v :=
      if '0' <= c <= '9' then c as int - '0' as int
      else if 'a' <= c <= 'z' then c as int - 'a' as int + 10
      else if 'A' <= c <= 'Z' then c as int - 'A' as int + 10
      else 36;
    if v < radix then Some(v) else None
  }

  /** Number of leading characters of `s` that are digits in `radix`. */
  function DigitRun(s: string, radix: nat): (n: nat)
    ensures n <= |s|
    ensures forall k :: 0 <= k < n ==> DigitIn(s[k], radix).Some?
    ensures n < |s| ==> DigitIn(s[n], radix).None?
  {
    if |s| > 0 && DigitIn(s[0], radix).Some? then 1 + DigitRun(s[1..], radix) else 0
  }

  /** Value of a string of digits, most significant first; a character
      that is not a digit would count as zero, but `parseInt` only ever
      reads a run of digits. */
  function DigitsValue(s: string, radix: nat): nat {
    if |s| == 0 then 0
    else
      var last := match DigitIn(s[|s| - 1], radix) case Some(d) => d case None => 0;
      DigitsValue(s[..|s| - 1], radix) * radix + last
  }

  /** A `0x` or `0X` prefix, which makes `parseInt` read base 16. */
  predicate HexPrefix(u: string) {
    |u| >= 2 && u[0] == '0' && (u[1] == 'x' || u[1] == 'X')
  }

  /** Digits of `u` read in base 16 after a `0x` prefix, else in base 10;
      `None` when no digit follows. */
  function ParseUnsigned(u: string): Option<nat> {
    var radix := if HexPrefix(u) then 16 else 10;
    var body := if HexPrefix(u) then u[2..] else u;
    var n := DigitRun(body, radix);
    if n == 0 then None else Some(DigitsValue(body[..n], radix))
  }

  function DropSign(t: string): string {
    if |t| > 0 && (t[0] == '-' || t[0] == '+') then t[1..] else t
  }

  /** `parseInt(s)` without a radix argument: leading whitespace is skipped,
      one sign is read, a `0x`/`0X` prefix selects base 16, and the longest
      run of digits that follows is the value; no digit at all is `NaN`,
      here `None`. Whatever follows the digits is ignored. */
  function ParseInt(s: string): Option<int> {
    var t := TrimStart(s);
    match ParseUnsigned(DropSign(t))
    case None => None
    case Some(v) => Some(if |t| > 0 && t[0] == '-' then 0 - v as int else v)
  }

  lemma {:induction false} NatToStringValue(n: nat)
    ensures DigitsValue(NatToString(n), 10) == n
    decreases n
  {
    if n >= 10 {
      var s := NatToString(n);
      NatToStringValue(n / 10);
      assert s[..|s| - 1] == NatToString(n / 10);
    }
  }

  /** Reading back a printed natural: `parseInt` recovers `n` from its
      decimal text followed by anything that does not continue the number. */
  lemma ParseIntOfNatToString(n: nat, rest: string)
    requires n > 0
    requires rest == [] || !IsDigit(rest[0])
    ensures ParseInt(NatToString(n) + rest) == Some(n)
  {
    var d := NatToString(n);
    var s := d + rest;
    assert !IsWhitespace(s[0]);
    assert TrimStart(s) == s;
    assert DropSign(s) == s;
    assert !HexPrefix(s) by {
      if |d| == 1 {
        assert s[0] != '0';
      } else {
        assert IsDigit(s[1]);
      }
    }
    DigitRunStops(d, rest);
    assert s[..|d|] == d;
    NatToStringValue(n);
    assert ParseUnsigned(s) == Some(n);
  }

  lemma {:induction false} DigitRunStops(d: string, rest: string)
    requires forall k :: 0 <= k < |d| ==> IsDigit(d[k])
    requires rest == [] || !IsDigit(rest[0])
    ensures DigitRun(d + rest, 10) == |d|
  {
    if |d| > 0 {
      assert (d + rest)[1..] == d[1..] + rest;
      DigitRunStops(d[1..], rest);
    } else {
      assert d + rest == rest;
    }
  }
}

=== FILE: learning_routes.dfy ===
/** The four learning routes of backend/routes/learning.js over the session
    store, for a request that has already passed `authenticateToken` and
    so carries the caller's user id. */
module LearningRoutes {
  import opened Wrappers
  import opened Json
  import opened Http
  import opened PromptBuilder
  import opened LlmResponse
  import opened SessionStore

  /** The body of a generate request; `None` is a field the body lacks. */
  datatype GenerateBody = GenerateBody(
    topic: Option<string>,
    goal: Option<string>,
    level: Option<string>,
    sourceDocument: Option<string>,
    learningStyle: Option<string>)

  /** A field JavaScript treats as truthy: present and not empty. */
  predicate Given(v: Option<string>) {
    v.Some? && v.value != ""
  }

  /** `sourceDocument || ''`. */
  function OrEmpty(v: Option<string>): (r: string)
    ensures Given(v) ==> r == v.value
    ensures !Given(v) ==> r == ""
  {
    if v.Some? then v.value else ""
  }

  const MissingFields: string := "Missing required fields"

  /** The required-field check of the generate route: topic, goal, level and
      learning style must all be given; the source document is optional and
      defaults to the empty string. */
  function ValidateGenerate(b: GenerateBody): (r: Result<LearnerInputs, Response>)
    ensures r.Err? <==> !Given(b.topic) || !Given(b.goal) || !Given(b.level) || !Given(b.learningStyle)
    ensures r.Err? ==> r.error == Message(400, MissingFields)
    ensures r.Ok? ==>
      && Some(r.value.topic) == b.topic
      && Some(r.value.goal) == b.goal
      && Some(r.value.level) == b.level
      && Some(r.value.learningStyle) == b.learningStyle
      && r.value.sourceDocument == OrEmpty(b.sourceDocument)
      && r.value.topic != "" && r.value.goal != "" && r.value.level != "" && r.value.learningStyle != ""
  {
    if !Given(b.topic) || !Given(b.goal) || !Given(b.level) || !Given(b.learningStyle) then
      Err(Message(400, MissingFields))
    else
      Ok(LearnerInputs(b.topic.value, b.goal.value, b.level.value, b.learningStyle.value,
                       OrEmpty(b.sourceDocument)))
  }

  /** The request body of a generate call with every field given. */
  function BodyOf(i: LearnerInputs): GenerateBody {
    GenerateBody(Some(i.topic), Some(i.goal), Some(i.level), Some(i.sourceDocument), Some(i.learningStyle))
  }

  /** Whatever the browser sends for complete inputs comes back unchanged
      from validation. */
  lemma ValidateCompleteInputs(i: LearnerInputs)
    requires i.topic != "" && i.goal != "" && i.level != "" && i.learningStyle != ""
    ensures ValidateGenerate(BodyOf(i)) == Ok(i)
  {
  }

  const GenerateFailed: string := "Failed to generate learning material"

  /** `POST /generate-learning-material`. `ask(i)` stands for the language
      model's reply to `FormatPrompt(i)`, `parse` for `JSON.parse`,
      `sessionId` for the generated id, `now` and `createdAt` for the two
      clock readings, `users` for the ids of the `users` table. */
  function Generate(db: Store, users: set<string>, b: GenerateBody, userId: string,
                    ask: LearnerInputs -> Reply, parse: string -> Option<Json>,
                    sessionId: string, now: int, createdAt: int): (r: (Store, Response))
    ensures r.1.status == 400 <==> ValidateGenerate(b).Err?
    ensures r.1.status != 200 ==> r.0 == db
    ensures r.1.status in {200, 400, 500}
    ensures r.1.status == 500 ==> r.1 == Message(500, GenerateFailed)
    ensures r.1.status == 200 ==>
      var i := ValidateGenerate(b).value;
      var content := CallLlm(ask(i), parse, now);
      && r.1.body == JObj(map["sessionId" := JStr(sessionId), "content" := content, "success" := JBool(true)])
      && Insert(db, users, sessionId, userId, i, content, createdAt) == Ok(r.0)
    ensures ValidateGenerate(b).Ok? && Fits(sessionId, userId, ValidateGenerate(b).value) ==>
      (r.1.status == 200 <==> sessionId !in db && userId in users)
  {
    match ValidateGenerate(b)
    case Err(resp) => (db, resp)
    case Ok(i) =>
      var content := CallLlm(ask(i), parse, now);
      match Insert(db, users, sessionId, userId, i, content, createdAt)
      case Err(_) => (db, Message(500, GenerateFailed))
      case Ok(db1) =>
        (db1, Success(JObj(map["sessionId" := JStr(sessionId), "content" := content, "success" := JBool(true)])))
  }

  function OrNull(v: Option<string>): Json {
    if v.Some? then JStr(v.value) else JNull
  }

  /** The session object `getLearningSession` builds from a row. */
  function SessionJson(sessionId: string, row: Row): Json {
    JObj(map[
      "sessionId" := JStr(sessionId),
      "userId" := JStr(row.userId),
      "inputs" := JObj(map[
        "topic" := JStr(row.topic),
        "goal" := JStr(row.goal),
        "level" := JStr(row.level),
        "learningStyle" := JStr(row.learningStyle),
        "sourceDocument" := OrNull(row.sourceDocument)]),
      "content" := row.content,
      "createdAt" := JNum(row.createdAt),
      "learningStyle" := JStr(row.learningStyle)])
  }

  const SessionNotFound: string := "Session not found"

  /** `GET /learning-session/:sessionId`: the session when the caller owns
      it, otherwise 404, whether the id is unknown or someone else's. */
  function GetSession(db: Store, sessionId: string, userId: string): (r: Response)
    ensures r.status == 200 <==> sessionId in db && db[sessionId].userId == userId
    ensures r.status != 200 ==> r == Message(404, SessionNotFound)
    ensures r.status == 200 ==> Member(Val(r.body), "content") == Val(db[sessionId].content)
  {
    match Get(db, sessionId, userId)
    case None => Message(404, SessionNotFound)
    case Some(row) => Success(SessionJson(sessionId, row))
  }

  function SummaryJson(s: Summary): Json {
    JObj(map[
      "sessionId" := JStr(s.sessionId),
      "topic" := JStr(s.topic),
      "learningStyle" := JStr(s.learningStyle),
      "createdAt" := JNum(s.createdAt)])
  }

  function ListJson(list: seq<Summary>): Json {
    JArr(seq(|list|, j requires 0 <= j < |list| => SummaryJson(list[j])))
  }

  /** `GET /user-sessions`: 200 with the caller's sessions, newest first;
      one entry per session the caller owns. */
  method UserSessions(db: Store, userId: string) returns (r: Response)
    ensures r.status == 200
    ensures exists list :: IsListing(db, userId, list) && r.body == ListJson(list)
    ensures r.body.JArr? && |r.body.items| == |OwnedIds(db, userId)|
  {
    var list := ListUserSessions(db, userId);
    DistinctIdsCount(list);
    assert IsListing(db, userId, list);
    r := Success(ListJson(list));
  }

  /** A list with distinct ids has as many entries as ids. */
  lemma {:induction false} DistinctIdsCount(s: seq<Summary>)
    requires DistinctIds(s)
    ensures |Ids(s)| == |s|
  {
    if s != [] {
      var t := s[..|s| - 1];
      assert DistinctIds(t);
      DistinctIdsCount(t);
      IdsOfSnoc(s);
      LastIdFresh(s);
    }
  }

  /** The ids of a list are those of all but its last entry, and the last
      entry's. */
  lemma IdsOfSnoc(s: seq<Summary>)
    requires s != []
    ensures Ids(s) == Ids(s[..|s| - 1]) + {s[|s| - 1].sessionId}
  {
    var t := s[..|s| - 1];
    forall k | k in Ids(s) ensures k in Ids(t) + {s[|s| - 1].sessionId} {
      var i :| 0 <= i < |s| && s[i].sessionId == k;
      if i < |s| - 1 { assert t[i].sessionId == k; }
    }
    forall k | k in Ids(t) ensures k in Ids(s) {
      var i :| 0 <= i < |t| && t[i].sessionId == k;
      assert s[i].sessionId == k;
    }
    assert s[|s| - 1].sessionId in Ids(s);
  }

  /** With distinct ids, the last entry's id occurs nowhere before it. */
  lemma LastIdFresh(s: seq<Summary>)
    requires s != [] && DistinctIds(s)
    ensures s[|s| - 1].sessionId !in Ids(s[..|s| - 1])
  {
    var t := s[..|s| - 1];
    forall i | 0 <= i < |t| ensures t[i].sessionId != s[|s| - 1].sessionId {
      assert t[i] == s[i];
    }
  }

  const DeleteDenied: string := "Session not found or access denied"
  const DeleteDone: string := "Session deleted successfully"

  /** `DELETE /learning-session/:sessionId`. */
  function DeleteSession(db: Store, sessionId: string, userId: string): (r: (Store, Response))
    ensures r.1 == Message(200, DeleteDone) <==> Get(db, sessionId, userId).Some?
    ensures r.1 != Message(200, DeleteDone) ==> r.1 == Message(404, DeleteDenied) && r.0 == db
    ensures forall k :: k in r.0 ==> k in db && r.0[k] == db[k]
  {
    var (db1, deleted) := Delete(db, sessionId, userId);
    if deleted then (db1, Message(200, DeleteDone)) else (db1, Message(404, DeleteDenied))
  }

  /** A session just generated can be read back by its creator and carries
      the content the model reply produced; no other user can read it. */
  lemma GenerateThenGet(db: Store, users: set<string>, b: GenerateBody, userId: string, other: string,
                        ask: LearnerInputs -> Reply, parse: string -> Option<Json>,
                        sessionId: string, now: int, createdAt: int)
    requires ValidateGenerate(b).Ok?
    requires Fits(sessionId, userId, ValidateGenerate(b).value)
    requires sessionId !in db
    requires userId in users
    requires other != userId
    ensures var (db1, resp) := Generate(db, users, b, userId, ask, parse, sessionId, now, createdAt);
            && resp.status == 200
            && GetSession(db1, sessionId, userId).status == 200
            && Member(Val(GetSession(db1, sessionId, userId).body), "content") ==
                 Val(CallLlm(ask(ValidateGenerate(b).value), parse, now))
            && GetSession(db1, sessionId, other) == Message(404, SessionNotFound)
  {
    var i := ValidateGenerate(b).value;
    var content := CallLlm(ask(i), parse, now);
    StoreThenGet(db, users, sessionId, userId, other, i, content, createdAt);
  }

  /** After a successful delete the session reads as missing, and deleting
      it again is refused. */
  lemma DeleteThenGet(db: Store, sessionId: string, userId: string)
    requires DeleteSession(db, sessionId, userId).1.status == 200
    ensures var db1 := DeleteSession(db, sessionId, userId).0;
            && GetSession(db1, sessionId, userId) == Message(404, SessionNotFound)
            && DeleteSession(db1, sessionId, userId).1 == Message(404, DeleteDenied)
  {
  }
}

=== FILE: llm_response.dfy ===
/** Turning the language model's reply into the learning-material object
    that is stored and shown (backend/routes/learning.js,
    `InputHandler.callLLMService`). The model call itself and `JSON.parse`
    are outside the model: the reply is a parameter and parsing is a partial
    function passed in. */
module LlmResponse {
  import opened Wrappers
  import opened JsText
  import opened Json

  /** What the model call produced: its text, or a thrown error (network,
      quota, authentication). */
  datatype Reply = Text(text: string) | Failed

  const OpenFence: string := "```json"
  const Fence: string := "```"

  /** `s.replace(/<marker>\n?/g, '')`: every occurrence of the marker, found
      left to right without overlap, is removed together with at most one
      line feed that follows it. */
  function StripMarker(s: string, marker: string): (r: string)
    requires |marker| > 0
    ensures |r| <= |s|
    ensures !Contains(s, marker) ==> r == s
    decreases |s|
  {
    if |s| == 0 then []
    else if |marker| <= |s| && s[..|marker|] == marker then
      assert OccursAt(s, marker, 0);
      var rest := s[|marker|..];
      StripMarker(if |rest| > 0 && rest[0] == '\n' then rest[1..] else rest, marker)
    else
      assert !Contains(s, marker) ==> !Contains(s[1..], marker) by {
        if Contains(s[1..], marker) {
          var k: int :| OccursAt(s[1..], marker, k);
          assert s[1..] == s[1..|s|];
          SliceOccurrence(s, 1, |s|, marker, k);
        }
      }
      [s[0]] + StripMarker(s[1..], marker)
  }

  /** The text handed to `JSON.parse`: both fence markers removed, then
      trimmed. */
  function Clean(text: string): string {
    Trim(StripMarker(StripMarker(text, OpenFence), Fence))
  }

  /** Number of backticks at the start of `s`. */
  function LeadingTicks(s: string): (n: nat)
    ensures n <= |s|
    ensures forall k :: 0 <= k < n ==> s[k] == '`'
    ensures n < |s| ==> s[n] != '`'
  {
    if |s| > 0 && s[0] == '`' then 1 + LeadingTicks(s[1..]) else 0
  }

  /** No three consecutive backticks anywhere. */
  predicate FenceFree(s: string) {
    forall k :: 0 <= k < |s| - 2 ==> !(s[k] == '`' && s[k + 1] == '`' && s[k + 2] == '`')
  }

  /** Removing fences never lengthens a run of fewer than three leading
      backticks. */
  lemma {:induction false} StripKeepsShortTickRun(s: string)
    requires LeadingTicks(s) < 3
    ensures LeadingTicks(StripMarker(s, Fence)) == LeadingTicks(s)
    decreases |s|
  {
    if |s| > 0 {
      if |Fence| <= |s| {
        var n := LeadingTicks(s);
        assert s[..|Fence|][n] == s[n] != Fence[n];
      }
      assert StripMarker(s, Fence) == [s[0]] + StripMarker(s[1..], Fence);
      if s[0] == '`' {
        StripKeepsShortTickRun(s[1..]);
      }
    }
  }

  /** After the second replace no fence is left: a fence that survives would
      have had to be matched further left. */
  lemma {:induction false} StripFenceLeavesNone(s: string)
    ensures FenceFree(StripMarker(s, Fence))
    decreases |s|
  {
    if |s| > 0 {
      if |Fence| <= |s| && s[..|Fence|] == Fence {
        var rest := s[|Fence|..];
        StripFenceLeavesNone(if |rest| > 0 && rest[0] == '\n' then rest[1..] else rest);
      } else {
        StripFenceLeavesNone(s[1..]);
        assert StripMarker(s, Fence) == [s[0]] + StripMarker(s[1..], Fence);
        if s[0] == '`' {
          NoFenceAtHead(s);
          StripKeepsShortTickRun(s[1..]);
        }
        ConsKeepsFenceFree(s[0], StripMarker(s[1..], Fence));
      }
    }
  }

  /** A backtick that does not open a fence is followed by fewer than two
      more. */
  lemma NoFenceAtHead(s: string)
    requires |s| > 0 && s[0] == '`'
    requires !(|Fence| <= |s| && s[..|Fence|] == Fence)
    ensures LeadingTicks(s[1..]) < 2
  {
    if |s| >= 3 {
      assert s[..3][0] == s[0] && s[..3][1] == s[1] && s[..3][2] == s[2];
      assert s[1..][0] == s[1] && s[1..][1] == s[2];
    }
  }

  /** Putting a character in front keeps a text fence-free unless it is a
      backtick followed by two more. */
  lemma ConsKeepsFenceFree(c: char, r: string)
    requires FenceFree(r)
    requires c == '`' ==> LeadingTicks(r) < 2
    ensures FenceFree([c] + r)
  {
    var t := [c] + r;
    forall k | 0 <= k < |t| - 2
      ensures !(t[k] == '`' && t[k + 1] == '`' && t[k + 2] == '`')
    {
      if k > 0 {
        assert t[k] == r[k - 1] && t[k + 1] == r[k] && t[k + 2] == r[k + 1];
      } else {
        assert t[1] == r[0] && t[2] == r[1];
      }
    }
  }

  lemma FenceFreeSlice(s: string, a: nat, b: nat)
    requires a <= b <= |s|
    requires FenceFree(s)
    ensures FenceFree(s[a..b])
  {
    forall k | 0 <= k < b - a - 2
      ensures !(s[a..b][k] == '`' && s[a..b][k + 1] == '`' && s[a..b][k + 2] == '`')
    {
      assert s[a..b][k] == s[a + k] && s[a..b][k + 1] == s[a + k + 1] && s[a..b][k + 2] == s[a + k + 2];
    }
  }

  lemma FenceFreeHasNoFence(s: string)
    requires FenceFree(s)
    ensures !Contains(s, Fence)
  {
    forall k | 0 <= k <= |s| - |Fence|
      ensures !OccursAt(s, Fence, k)
    {
      assert s[k..k + 3][0] == s[k] && s[k..k + 3][1] == s[k + 1] && s[k..k + 3][2] == s[k + 2];
    }
  }

  /** The cleaned text never contains a code fence. */
  lemma CleanHasNoFence(text: string)
    ensures !Contains(Clean(text), Fence)
  {
    var once := StripMarker(text, OpenFence);
    var stripped := StripMarker(once, Fence);
    StripFenceLeavesNone(once);
    var t := TrimStart(stripped);
    var a := |stripped| - |t|;
    FenceFreeSlice(stripped, a, |stripped|);
    assert t == stripped[a..|stripped|];
    var r := TrimEnd(t);
    FenceFreeSlice(t, 0, |r|);
    assert r == t[0..|r|];
    assert Clean(text) == r;
    FenceFreeHasNoFence(r);
  }

  /** Text without a backtick passes through a marker removal untouched, in
      front of whatever follows it. */
  lemma {:induction false} StripSkipsTickFreePrefix(a: string, b: string, marker: string)
    requires |marker| > 0 && marker[0] == '`'
    requires '`' !in a
    ensures StripMarker(a + b, marker) == a + StripMarker(b, marker)
    decreases |a|
  {
    if |a| > 0 {
      var s := a + b;
      assert s[0] == a[0] != '`';
      assert |marker| <= |s| ==> s[..|marker|][0] == a[0];
      assert StripMarker(s, marker) == [s[0]] + StripMarker(s[1..], marker);
      assert s[1..] == a[1..] + b;
      StripSkipsTickFreePrefix(a[1..], b, marker);
      assert a == [a[0]] + a[1..];
    } else {
      assert a + b == b;
    }
  }

  lemma TickFreeHasNoMarker(a: string, marker: string)
    requires |marker| > 0 && marker[0] == '`'
    requires '`' !in a
    ensures !Contains(a, marker)
  {
    forall k | 0 <= k <= |a| - |marker|
      ensures !OccursAt(a, marker, k)
    {
      assert a[k] != marker[0];
      assert a[k..k + |marker|][0] == a[k];
    }
  }

  /** A reply wrapped in a ```json fence cleans to the same text as the bare
      reply, so both reach `JSON.parse` identically. */
  lemma FencedCleansLikeBare(j: string)
    requires '`' !in j
    ensures Clean("```json\n" + j + "\n```") == Clean(j)
  {
    OpenFenceStripped(j);
    ClosingFenceStripped(j);
    TrimIgnoresTrailingWhitespace(j, '\n');
    TickFreeHasNoMarker(j, OpenFence);
    TickFreeHasNoMarker(j, Fence);
  }

  /** The first replace removes the opening marker and its line feed. */
  lemma OpenFenceStripped(j: string)
    requires '`' !in j
    ensures StripMarker("```json\n" + j + "\n```", OpenFence) == j + "\n```"
  {
    var fenced := "```json\n" + j + "\n```";
    assert fenced[..|OpenFence|] == OpenFence;
    assert fenced[|OpenFence|..][1..] == j + "\n```";
    StripSkipsTickFreePrefix(j, "\n```", OpenFence);
    assert !Contains("\n```", OpenFence);
  }

  /** The second replace removes the closing marker. */
  lemma ClosingFenceStripped(j: string)
    requires '`' !in j
    ensures StripMarker(j + "\n```", Fence) == j + "\n"
  {
    assert '`' !in j + "\n";
    StripSkipsTickFreePrefix(j + "\n", "```", Fence);
    assert StripMarker("```", Fence) == [];
    assert j + "\n```" == (j + "\n") + "```";
  }


  /** The shape built when the cleaned reply does not parse: empty card and
      quiz lists, and the raw reply as both study guide and assignment. */
  function TextFallback(text: string, now: int): Json {
    JObj(map[
      "type" := JStr("learning_material"),
      "content" := Content([], [], text, text),
      "timestamp" := JNum(now)])
  }

  const ErrorMessage: string := "Error generating content. Please try again."

  /** The fixed object returned when the model call itself throws. */
  function ErrorSentinel(now: int): Json {
    JObj(map[
      "type" := JStr("learning_material"),
      "content" := Content(
        [Card("Error generating content", "Please try again or contact support")],
        [QuizItem("Error generating content?",
                  ["A) Please try again", "B) Contact support", "C) Check connection", "D) All of the above"],
                  "D")],
        ErrorMessage,
        ErrorMessage),
      "timestamp" := JNum(now),
      "error" := JBool(true)])
  }

  /** The error sentinel as a caller sees it: a complete learning material
      flagged `error: true`, with one card, one four-option question whose
      answer is D, and the fixed apology as guide and assignment. */
  predicate IsErrorSentinel(r: Json, now: int) {
    && IsLearningMaterial(r)
    && "error" in r.fields && r.fields["error"] == JBool(true)
    && "timestamp" in r.fields && r.fields["timestamp"] == JNum(now)
    && |ContentField(r, "flashcards").value.items| == 1
    && |ContentField(r, "quiz").value.items| == 1
    && (var q := ContentField(r, "quiz").value.items[0];
        q.JObj? && "correct" in q.fields && q.fields["correct"] == JStr("D"))
    && ContentField(r, "studyGuide").value == JStr(ErrorMessage)
    && ContentField(r, "assignment").value == JStr(ErrorMessage)
  }

  /** The parse-failure shape as a caller sees it: a complete learning
      material with no cards and no questions, the raw (uncleaned) reply as
      guide and assignment, a timestamp, and no error flag. */
  predicate IsTextFallback(r: Json, text: string, now: int) {
    && IsLearningMaterial(r)
    && "error" !in r.fields
    && "timestamp" in r.fields && r.fields["timestamp"] == JNum(now)
    && ContentField(r, "flashcards").value == JArr([])
    && ContentField(r, "quiz").value == JArr([])
    && ContentField(r, "studyGuide").value == JStr(text)
    && ContentField(r, "assignment").value == JStr(text)
  }

  lemma ErrorSentinelShape(now: int)
    ensures IsErrorSentinel(ErrorSentinel(now), now)
  {
    var r := ErrorSentinel(now);
    var q := QuizItem("Error generating content?",
                      ["A) Please try again", "B) Contact support", "C) Check connection", "D) All of the above"],
                      "D");
    assert WellFormedQuestion(q);
    assert WellFormedCard(Card("Error generating content", "Please try again or contact support"));
    assert ContentField(r, "quiz").value.items == [q];
  }

  lemma TextFallbackShape(text: string, now: int)
    ensures IsTextFallback(TextFallback(text, now), text, now)
  {
  }

  /** The part of `callLLMService` after the model has answered, given what
      `JSON.parse` made of the cleaned text (`None` when it threw).
      - It threw: the raw-text fallback.
      - It gave `null`: logging `Object.keys(null)` throws inside the same
        guarded block, so again the raw-text fallback.
      - It gave an object: that object, unchecked, with `timestamp` set.
      - It gave an array: the array; the `timestamp` it is given is not an
        element and does not survive serialisation.
      - It gave a string, number or boolean: the method body is strict-mode
        code, so setting `timestamp` on a primitive throws and the outer
        handler returns the error sentinel. */
  function Normalize(text: string, parsed: Option<Json>, now: int): (r: Json)
    ensures parsed.None? || parsed == Some(JNull) ==> IsTextFallback(r, text, now)
    ensures parsed.Some? && parsed.value.JObj? ==>
      && r.JObj?
      && r.fields.Keys == parsed.value.fields.Keys + {"timestamp"}
      && r.fields["timestamp"] == JNum(now)
      && (forall k :: k in parsed.value.fields && k != "timestamp" ==> r.fields[k] == parsed.value.fields[k])
    ensures parsed.Some? && parsed.value.JArr? ==> r == parsed.value
    ensures parsed.Some? && (parsed.value.JBool? || parsed.value.JNum? || parsed.value.JStr?) ==>
      IsErrorSentinel(r, now)
  {
    match parsed
    case None => TextFallbackShape(text, now); TextFallback(text, now)
    case Some(JNull) => TextFallbackShape(text, now); TextFallback(text, now)
    case Some(JObj(m)) => JObj(m["timestamp" := JNum(now)])
    case Some(JArr(items)) => JArr(items)
    case Some(_) => ErrorSentinelShape(now); ErrorSentinel(now)
  }

  /** `callLLMService`: the error sentinel when the model call throws,
      otherwise the cleaned reply's parse, normalised as above. */
  function CallLlm(reply: Reply, parse: string -> Option<Json>, now: int): (r: Json)
    ensures reply.Failed? ==> IsErrorSentinel(r, now)
    ensures reply.Text? && (parse(Clean(reply.text)).None? || parse(Clean(reply.text)) == Some(JNull)) ==>
      IsTextFallback(r, reply.text, now)
    ensures reply.Text? && parse(Clean(reply.text)).Some? && parse(Clean(reply.text)).value.JObj? ==>
      var m := parse(Clean(reply.text)).value.fields;
      && r.JObj?
      && r.fields.Keys == m.Keys + {"timestamp"}
      && r.fields["timestamp"] == JNum(now)
      && (forall k :: k in m && k != "timestamp" ==> r.fields[k] == m[k])
    ensures reply.Text? && parse(Clean(reply.text)).Some? && parse(Clean(reply.text)).value.JArr? ==>
      r == parse(Clean(reply.text)).value
    ensures reply.Text? && parse(Clean(reply.text)).Some? &&
            (parse(Clean(reply.text)).value.JBool? || parse(Clean(reply.text)).value.JNum? ||
             parse(Clean(reply.text)).value.JStr?) ==>
      IsErrorSentinel(r, now)
  {
    match reply
    case Failed => ErrorSentinelShape(now); ErrorSentinel(now)
    case Text(text) => Normalize(text, parse(Clean(text)), now)
  }

  /** Whatever the reply, the result carries `error: true` only if the model
      call failed, the reply parsed to a primitive, or the model itself put an
      `error` key into the object it returned. */
  lemma ErrorFlagOrigin(reply: Reply, parse: string -> Option<Json>, now: int)
    requires var r := CallLlm(reply, parse, now); r.JObj? && "error" in r.fields
    ensures || reply.Failed?
            || (parse(Clean(reply.text)).Some? && parse(Clean(reply.text)).value.JObj? &&
                "error" in parse(Clean(reply.text)).value.fields)
            || (parse(Clean(reply.text)).Some? && !parse(Clean(reply.text)).value.JObj? &&
                !parse(Clean(reply.text)).value.JArr? && parse(Clean(reply.text)) != Some(JNull))
  {
  }

  /** A fenced reply and the same reply unfenced produce the same object
      whenever the text parses. */
  lemma FencedReplyLikeBare(j: string, parse: string -> Option<Json>, now: int)
    requires '`' !in j
    requires parse(Clean(j)).Some? && parse(Clean(j)) != Some(JNull)
    ensures CallLlm(Text("```json\n" + j + "\n```"), parse, now) == CallLlm(Text(j), parse, now)
  {
    FencedCleansLikeBare(j);
  }
}

=== FILE: password_policy.dfy ===
/** The registration form's password rule (frontend/js/auth_page.js,
    `isValidPassword` and the submit handler that calls it). */
module PasswordPolicy {

  /** The four character classes the rule asks for at least one of. */
  datatype CharClass = Lower | Upper | Digit | Symbol

  predicate InClass(c: char, cl: CharClass) {
    match cl
    case Lower => 'a' <= c <= 'z'
    case Upper => 'A' <= c <= 'Z'
    case Digit => '0' <= c <= '9'
    case Symbol => c in "@$!%*?&"
  }

  /** `[A-Za-z\d@$!%*?&]`: the only characters a password may use. */
  predicate Allowed(c: char) {
    InClass(c, Lower) || InClass(c, Upper) || InClass(c, Digit) || InClass(c, Symbol)
  }

  /** The characters `.` refuses to match: line feed, carriage return, line
      separator and paragraph separator. */
  predicate IsLineTerminator(c: char) {
    c == '\n' || c == '\r' || c == '\U{2028}' || c == '\U{2029}'
  }

  /** `(?=.*[x])` at the start of the input: some character of the class
      occurs before the first line terminator. */
  predicate Lookahead(s: string, cl: CharClass) {
    exists k | 0 <= k < |s| :: InClass(s[k], cl) && forall j :: 0 <= j < k ==> !IsLineTerminator(s[j])
  }

  /** What the regular expression accepts: the four lookaheads, then eight
      or more allowed characters running to the end of the input. */
  predicate RegexAccepts(s: string) {
    && Lookahead(s, Lower) && Lookahead(s, Upper) && Lookahead(s, Digit) && Lookahead(s, Symbol)
    && |s| >= 8
    && forall k :: 0 <= k < |s| ==> Allowed(s[k])
  }

  predicate Has(s: string, cl: CharClass) {
    exists k | 0 <= k < |s| :: InClass(s[k], cl)
  }

  /** The rule in plain terms: at least eight characters, every one allowed,
      and at least one lower-case letter, one capital, one digit and one of
      `@$!%*?&`. */
  predicate Policy(s: string) {
    && |s| >= 8
    && (forall k :: 0 <= k < |s| ==> Allowed(s[k]))
    && Has(s, Lower) && Has(s, Upper) && Has(s, Digit) && Has(s, Symbol)
  }

  /** The regular expression and the plain rule agree on every string: the
      lookaheads' stop at a line break never matters, since a string the
      character class accepts has no line break. */
  lemma RegexIsPolicy(s: string)
    ensures RegexAccepts(s) <==> Policy(s)
  {
    if forall k :: 0 <= k < |s| ==> Allowed(s[k]) {
      assert forall j :: 0 <= j < |s| ==> !IsLineTerminator(s[j]) by {
        forall j | 0 <= j < |s| ensures !IsLineTerminator(s[j]) {
          assert Allowed(s[j]);
        }
      }
      forall cl: CharClass ensures Lookahead(s, cl) <==> Has(s, cl) {
        if Has(s, cl) {
          var k :| 0 <= k < |s| && InClass(s[k], cl);
          assert forall j :: 0 <= j < k ==> !IsLineTerminator(s[j]);
        }
      }
    }
  }

  /** `isValidPassword`, as one pass over the characters. */
  method IsValidPassword(s: string) returns (ok: bool)
    ensures ok <==> Policy(s)
    ensures ok <==> RegexAccepts(s)
  {
    var lower, upper, digit, symbol, allowed := false, false, false, false, true;
    var i := 0;
    while i < |s|
      invariant 0 <= i <= |s|
      invariant lower <==> Has(s[..i], Lower)
      invariant upper <==> Has(s[..i], Upper)
      invariant digit <==> Has(s[..i], Digit)
      invariant symbol <==> Has(s[..i], Symbol)
      invariant allowed <==> forall k :: 0 <= k < i ==> Allowed(s[k])
    {
      var c := s[i];
      assert forall k :: 0 <= k < i ==> s[..i + 1][k] == s[..i][k];
      assert s[..i + 1][i] == c;
      lower := lower || InClass(c, Lower);
      upper := upper || InClass(c, Upper);
      digit := digit || InClass(c, Digit);
      symbol := symbol || InClass(c, Symbol);
      allowed := allowed && Allowed(c);
      i := i + 1;
    }
    assert s[..|s|] == s;
    ok := |s| >= 8 && allowed && lower && upper && digit && symbol;
    RegexIsPolicy(s);
  }

  /** What the submit handler does with a password. */
  datatype Submission = Proceed | Blocked(alert: string)

  const CriteriaAlert: string := "Password does not meet security criteria."

  /** The form is submitted exactly when the password passes; otherwise the
      alert is shown and submission is cancelled. */
  method SubmitDecision(password: string) returns (d: Submission)
    ensures d.Proceed? <==> Policy(password)
    ensures d.Blocked? ==> d.alert == CriteriaAlert
  {
    var ok := IsValidPassword(password);
    d := if ok then Proceed else Blocked(CriteriaAlert);
  }

  /** Adding characters never undoes a passing password as long as they are
      allowed ones: the rule only asks for presence. */
  lemma ExtendingKeepsValid(s: string, t: string)
    requires Policy(s)
    requires forall k :: 0 <= k < |t| ==> Allowed(t[k])
    ensures Policy(s + t)
  {
    forall cl: CharClass ensures Has(s + t, cl) {
      var k :| 0 <= k < |s| && InClass(s[k], cl);
      assert (s + t)[k] == s[k];
    }
    forall k | 0 <= k < |s + t| ensures Allowed((s + t)[k]) {
      if k >= |s| { assert (s + t)[k] == t[k - |s|]; }
    }
  }

  /** A string with one character outside the allowed set is refused
      wherever that character sits, whatever the rest is. */
  lemma ForeignCharRejected(a: string, c: char, b: string)
    requires !Allowed(c)
    ensures !Policy(a + [c] + b)
  {
    assert (a + [c] + b)[|a|] == c;
  }
}

=== FILE: prompt.dfy ===
/** The instruction string sent to the language model for one generation
    request (backend/routes/learning.js, `InputHandler.formatPrompt`). */
module PromptBuilder {
  import opened JsText

  /** What the learner typed. `sourceDocument` is the empty string when the
      request carried none. */
  datatype LearnerInputs = LearnerInputs(
    topic: string,
    goal: string,
    level: string,
    learningStyle: string,
    sourceDocument: string)

  /** Number of lines of the fixed preamble. */
  const PreambleLineCount: nat := 35

  /** Line `k` of the fixed preamble (task description, output schema and
      per-style guidance), with its line break. */
  function PreambleLine(k: nat): string
    requires k < PreambleLineCount
  {
    match k
    case 0 => "You are a personal learning assistant that helps users learn the topics that they want. \n"
    case 1 => "There will be 5 input boxes that you will learn from:\n"
    case 2 => "Input box 1: what topic user wants to learn about\n"
    case 3 => "Input box 2: what is their desired goal\n"
    case 4 => "Input box 3: what is User's current level of understanding on the topic\n"
    case 5 => "Input box 4: optional input of source document\n"
    case 6 => "Input box 5: learning style\n"
    case 7 => "\n"
    case 8 => "The valid learning styles are:\n"
    case 9 => "- \"Flashcards\" or \"flashcards\"\n"
    case 10 => "- \"Practice Quizzes\" or \"Practice Quizes\" or \"quiz\" or \"quizzes\"\n"
    case 11 => "- \"Study Guide\" or \"study guide\" or \"guide\"\n"
    case 12 => "- \"Practice Assignments\" or \"assignments\" or \"practice\"\n"
    case 13 => "\n"
    case 14 => "Use the inputs from these boxes to help the user learn.\n"
    case 15 => "\n"
    case 16 => "IMPORTANT: Always respond with valid JSON in this exact format:\n"
    case 17 => "{\n"
    case 18 => "    \"type\": \"learning_material\",\n"
    case 19 => "    \"content\": {\n"
    case 20 => "        \"flashcards\": [{\"question\": \"...\", \"answer\": \"...\"}],\n"
    case 21 => "        \"quiz\": [{\"question\": \"...\", \"options\": [\"A) ...\", \"B) ...\", \"C) ...\", \"D) ...\"], \"correct\": \"A\"}],\n"
    case 22 => "        \"studyGuide\": \"...\",\n"
    case 23 => "        \"assignment\": \"...\"\n"
    case 24 => "    }\n"
    case 25 => "}\n"
    case 26 => "\n"
    case 27 => "Based on the learning style requested:\n"
    case 28 => "- If Flashcards/flashcards: Create 8-10 clear question-answer pairs that help memorize key concepts\n"
    case 29 => "- If Practice Quizzes/quiz: Create 5-8 test questions that assess knowledge on the topic  \n"
    case 30 => "- If Study Guide/guide: Create a comprehensive but clear study guide that presents the information\n"
    case 31 => "- If Practice Assignments/assignments: Create assignments with practice problems to learn by doing\n"
    case 32 => "\n"
    case 33 => "Always prioritize the source document content when provided, then supplement with your knowledge of the topic.\n"
    case _ => "Always generate content for ALL four types (flashcards, quiz, studyGuide, assignment) regardless of the requested style, but focus primarily on the requested style."
  }

  /** The first `n` lines of the preamble. */
  function PreambleUpTo(n: nat): string
    requires n <= PreambleLineCount
  {
    if n == 0 then "" else PreambleUpTo(n - 1) + PreambleLine(n - 1)
  }

  /** The fixed text that opens every prompt. */
  function SystemPrompt(): string {
    PreambleUpTo(PreambleLineCount)
  }

  const InputsHeader: string := "\n\nUser Inputs:\n"

  const SourceInstruction: string :=
    "\nPlease base your learning material primarily on the provided " +
    "source document, supplemented with additional relevant information as needed.\n"

  /** `sourceDocument && sourceDocument.trim()`: present and not blank. */
  predicate HasSource(i: LearnerInputs) {
    !IsBlank(i.sourceDocument)
  }

  /** The four labelled input lines, in the order the prompt lists them. */
  function InputLines(i: LearnerInputs): string {
    "Topic: " + i.topic + "\n" +
    "Goal: " + i.goal + "\n" +
    "Current Level: " + i.level + "\n" +
    "Learning Style: " + i.learningStyle + "\n"
  }

  /** The source document line and the instruction to rely on it. */
  function SourceLines(i: LearnerInputs): string {
    "Source Document: " + i.sourceDocument + "\n" + SourceInstruction
  }

  function Trailer(style: string): string {
    "\nGenerate content focused on the \"" + style + "\" learning style. Return valid JSON only."
  }

  /** Everything before the optional source block, after the preamble
      `pre`. */
  function Head(pre: string, i: LearnerInputs): string {
    pre + InputsHeader + InputLines(i)
  }

  /** The prompt after a given preamble: the preamble, the input header and
      lines, the source block when there is a usable source document, and
      the closing instruction that names the requested style. The proofs
      below hold for every preamble, so they never have to unfold the fixed
      one. */
  function Assemble(pre: string, i: LearnerInputs): (prompt: string)
    ensures |Head(pre, i)| <= |prompt| && prompt[..|Head(pre, i)|] == Head(pre, i)
    ensures |Trailer(i.learningStyle)| <= |prompt|
    ensures prompt[|prompt| - |Trailer(i.learningStyle)|..] == Trailer(i.learningStyle)
    ensures !HasSource(i) ==> |prompt| == |Head(pre, i)| + |Trailer(i.learningStyle)|
    ensures HasSource(i) ==> |prompt| == |Head(pre, i)| + |SourceLines(i)| + |Trailer(i.learningStyle)|
  {
    var head := Head(pre, i);
    var tail := Trailer(i.learningStyle);
    if HasSource(i) then
      ThreeParts(head, SourceLines(i), tail);
      head + SourceLines(i) + tail
    else
      TwoParts(head, tail);
      head + tail
  }

  /** `formatPrompt(inputs)`. */
  function FormatPrompt(i: LearnerInputs): string {
    Assemble(SystemPrompt(), i)
  }

  lemma TwoParts(a: string, c: string)
    ensures (a + c)[..|a|] == a && (a + c)[|a|..] == c
  {
  }

  /** The outer parts of a three-part text can be cut back out of it. */
  lemma ThreeParts(a: string, b: string, c: string)
    ensures (a + b + c)[..|a|] == a
    ensures (a + b + c)[|a + b|..] == c
  {
    assert (a + b + c)[..|a|] == a;
    assert (a + b + c)[|a + b|..] == c;
  }

  /** A blank source document is treated exactly like an absent one. */
  lemma BlankSourceIgnored(pre: string, i: LearnerInputs)
    requires IsBlank(i.sourceDocument)
    ensures Assemble(pre, i) == Assemble(pre, i.(sourceDocument := ""))
  {
    var bare := i.(sourceDocument := "");
    SameHead(pre, i, bare);
    assert !HasSource(bare) && bare.learningStyle == i.learningStyle;
  }

  /** The part before the source block depends only on the four typed
      fields. */
  lemma SameHead(pre: string, i: LearnerInputs, j: LearnerInputs)
    requires i.topic == j.topic && i.goal == j.goal
    requires i.level == j.level && i.learningStyle == j.learningStyle
    ensures Head(pre, i) == Head(pre, j)
  {
    assert InputLines(i) == InputLines(j);
  }

  /** With a usable source document the prompt is the prompt without it,
      with exactly the source lines inserted in front of the closing
      instruction; nothing else changes. */
  lemma SourceLinesInserted(pre: string, i: LearnerInputs)
    requires HasSource(i)
    ensures var bare := Assemble(pre, i.(sourceDocument := ""));
            var cut := |bare| - |Trailer(i.learningStyle)|;
            0 <= cut <= |bare| && Assemble(pre, i) == bare[..cut] + SourceLines(i) + bare[cut..]
  {
    var head := Head(pre, i);
    var tail := Trailer(i.learningStyle);
    var j := i.(sourceDocument := "");
    SameHead(pre, i, j);
    assert !HasSource(j) && j.learningStyle == i.learningStyle;
    assert Assemble(pre, j) == head + tail;
    assert Assemble(pre, i) == head + SourceLines(i) + tail;
    Inserted(head, SourceLines(i), tail);
  }

  /** Putting `m` between two texts is cutting their concatenation where
      the second one starts. */
  lemma Inserted(a: string, m: string, c: string)
    ensures var b := a + c;
            |b| - |c| == |a| && a + m + c == b[..|b| - |c|] + m + b[|b| - |c|..]
  {
    var b := a + c;
    assert b[..|a|] == a && b[|a|..] == c;
  }
}

=== FILE: quiz.dfy ===
/** The practice-quiz viewer of frontend/js/learning_session.js
    (`displayQuiz`, `checkAnswer` and the next-question handler). */
module Quiz {
  import opened Wrappers
  import opened JsText
  import opened Json

  /** Where the learner is on the current question. */
  datatype Phase =
    | Answering
    | Answered(correct: bool)
    | Completed

  /** The questions as received, the index of the one on screen, and the
      phase. */
  datatype QuizState = QuizState(questions: seq<Json>, index: nat, phase: Phase)

  predicate Valid(q: QuizState) {
    |q.questions| > 0 && q.index < |q.questions|
  }

  function Start(questions: seq<Json>): (q: QuizState)
    requires |questions| > 0
    ensures Valid(q) && q.index == 0 && q.phase == Answering
  {
    QuizState(questions, 0, Answering)
  }

  /** `currentQuestion.correct`. */
  function CorrectField(q: QuizState): Access
    requires Valid(q)
  {
    Member(Val(q.questions[q.index]), "correct")
  }

  /** How many radio buttons the current question gets: one per option. */
  function OptionCount(q: QuizState): nat
    requires Valid(q)
  {
    match Member(Val(q.questions[q.index]), "options")
    case Val(JArr(items)) => |items|
    case _ => 0
  }

  /** The answer check as written: the chosen radio button's value, which is
      the option's position as a decimal string, compared by strict
      equality with the stored `correct` field. */
  predicate IsCorrectAsWritten(choice: nat, correct: Access) {
    correct == Val(JStr(NatToString(choice)))
  }

  /** The letter the model prompt puts in front of the option at `choice`. */
  function OptionLetter(choice: nat): char
    requires choice < 26
  {
    ('A' as int + choice) as char
  }

  /** The answer check as intended: the chosen option's letter against the
      stored letter. */
  predicate IsCorrect(choice: nat, correct: Access) {
    choice < 26 && correct == Val(JStr([OptionLetter(choice)]))
  }

  /** As written, no choice ever matches a letter answer, so every answer
      to a question in the documented format is marked wrong. */
  lemma LetterNeverMatches(choice: nat, letter: char)
    requires 'A' <= letter <= 'Z'
    ensures !IsCorrectAsWritten(choice, Val(JStr([letter])))
  {
    var d := NatToString(choice);
    assert IsDigit(d[0]);
  }

  /** As intended, a letter answer among the first four letters is matched
      by exactly one of the four choices: the one at that letter's place. */
  lemma ExactlyOneChoiceMatches(choice: nat, letter: char)
    requires 'A' <= letter <= 'D'
    ensures IsCorrect(choice, Val(JStr([letter]))) <==> choice == letter as int - 'A' as int
  {
    if IsCorrect(choice, Val(JStr([letter]))) {
      assert [OptionLetter(choice)] == [letter];
      assert OptionLetter(choice) == letter;
    }
  }

  /** What the learner can do on the quiz view. */
  datatype Event = Submit(choice: Option<nat>) | NextQuestion

  /** The submit handler: with a radio button chosen, the answer is checked
      and the submit button gives way to the next-question button; with
      none chosen nothing happens. */
  function SubmitAnswer(q: QuizState, choice: Option<nat>): (r: QuizState)
    requires Valid(q)
    ensures Valid(r) && r.index == q.index && r.questions == q.questions
    ensures q.phase == Answering && choice.Some? && choice.value < OptionCount(q) ==>
      r.phase == Answered(IsCorrect(choice.value, CorrectField(q)))
    ensures !(q.phase == Answering && choice.Some? && choice.value < OptionCount(q)) ==> r == q
  {
    if q.phase == Answering && choice.Some? && choice.value < OptionCount(q) then
      q.(phase := Answered(IsCorrect(choice.value, CorrectField(q))))
    else q
  }

  /** Whether `displayQuiz` gets through a question: the `forEach` that
      builds the radio buttons needs `options` to be an array, and anything
      else throws there (or earlier, reading `question` of `null`). */
  predicate Renders(question: Json) {
    Member(Val(question), "options").Val? && Member(Val(question), "options").v.JArr?
  }

  /** The next-question handler: the following question while there is
      one, otherwise the completion message with the index left where it
      is. The index is moved before the question is displayed, and the
      buttons are reset only after the display: a following question that
      does not render leaves the index moved, the answer's feedback shown
      and the next-question button live. */
  function Advance(q: QuizState): (r: QuizState)
    requires Valid(q)
    ensures Valid(r) && r.questions == q.questions
    ensures q.phase.Answered? && q.index < |q.questions| - 1 ==>
      && r.index == q.index + 1
      && (r.phase == Answering <==> Renders(q.questions[q.index + 1]))
      && (r.phase != Answering ==> r.phase == q.phase)
    ensures q.phase.Answered? && q.index == |q.questions| - 1 ==>
      r.index == q.index && r.phase == Completed
    ensures !q.phase.Answered? ==> r == q
  {
    if !q.phase.Answered? then q
    else if q.index < |q.questions| - 1 then
      if Renders(q.questions[q.index + 1]) then QuizState(q.questions, q.index + 1, Answering)
      else q.(index := q.index + 1)
    else q.(phase := Completed)
  }

  /** A question that does not render cannot be answered: a second click
      on the still-live next-question button moves past it, to the question
      after it or to the completion message. */
  lemma BrokenQuestionSkipped(q: QuizState)
    requires Valid(q) && q.phase.Answered? && q.index < |q.questions| - 1
    requires !Renders(q.questions[q.index + 1])
    ensures Advance(q).phase == q.phase && Advance(q).index == q.index + 1
    ensures SubmitAnswer(Advance(q), Some(0)) == Advance(q)
    ensures var r := Advance(Advance(q));
            if q.index + 1 < |q.questions| - 1 then r.index == q.index + 2
            else r.index == q.index + 1 && r.phase == Completed
  {
  }

  /** The radio buttons exist only for a question that rendered: the
      learner answers only such a question. */
  predicate AnswersRendered(q: QuizState)
    requires Valid(q)
  {
    q.phase == Answering ==> Renders(q.questions[q.index])
  }

  function Step(q: QuizState, e: Event): (r: QuizState)
    requires Valid(q)
    ensures Valid(r) && r.questions == q.questions
  {
    match e
    case Submit(c) => SubmitAnswer(q, c)
    case NextQuestion => Advance(q)
  }

  function Run(q: QuizState, es: seq<Event>): (r: QuizState)
    requires Valid(q)
    ensures Valid(r) && r.questions == q.questions
    decreases |es|
  {
    if es == [] then q else Run(Step(q, es[0]), es[1..])
  }

  /** Whatever the learner does, a question is only ever open for
      answering when it rendered. */
  lemma {:induction false} RunAnswersRendered(q: QuizState, es: seq<Event>)
    requires Valid(q) && AnswersRendered(q)
    ensures AnswersRendered(Run(q, es))
    decreases |es|
  {
    if es != [] {
      RunAnswersRendered(Step(q, es[0]), es[1..]);
    }
  }

  /** Progress only goes forward, and the quiz is reported complete only
      on its last question; once complete, nothing changes any more. */
  lemma {:induction false} RunMonotone(q: QuizState, es: seq<Event>)
    requires Valid(q)
    requires q.phase == Completed ==> q.index == |q.questions| - 1
    ensures Run(q, es).index >= q.index
    ensures Run(q, es).phase == Completed ==> Run(q, es).index == |q.questions| - 1
    ensures q.phase == Completed ==> Run(q, es) == q
    decreases |es|
  {
    if es != [] {
      RunMonotone(Step(q, es[0]), es[1..]);
    }
  }

  /** Answering every question in turn, `2 * n` actions in all, reaches the
      completion message. */
  lemma {:induction false} AnswerAll(q: QuizState, choice: nat)
    requires Valid(q) && q.phase == Answering
    requires forall i :: 0 <= i < |q.questions| ==>
      Member(Val(q.questions[i]), "options").Val? && Member(Val(q.questions[i]), "options").v.JArr? &&
      choice < |Member(Val(q.questions[i]), "options").v.items|
    ensures Run(q, AnswerEach(|q.questions| - q.index, choice)).phase == Completed
    decreases |q.questions| - q.index
  {
    var n := |q.questions| - q.index;
    var q1 := SubmitAnswer(q, Some(choice));
    assert choice < OptionCount(q);
    assert q1.phase.Answered? && q1.index == q.index;
    var q2 := Advance(q1);
    var es := AnswerEach(n, choice);
    assert es[0] == Submit(Some(choice)) && es[1..][0] == NextQuestion;
    assert es[1..][1..] == AnswerEach(n - 1, choice);
    assert Run(q, es) == Run(q2, AnswerEach(n - 1, choice));
    if q.index < |q.questions| - 1 {
      assert Renders(q.questions[q.index + 1]);
      assert q2.phase == Answering && q2.index == q.index + 1;
      AnswerAll(q2, choice);
    } else {
      assert AnswerEach(n - 1, choice) == [];
    }
  }

  /** Submit the same choice and move on, `n` times. */
  function AnswerEach(n: nat, choice: nat): (es: seq<Event>)
    ensures |es| == 2 * n
  {
    if n == 0 then [] else [Submit(Some(choice)), NextQuestion] + AnswerEach(n - 1, choice)
  }

  /** The question counter, `"Question <index + 1> of <n>"`. */
  function Counter(q: QuizState): string
    requires Valid(q)
  {
    "Question " + NatToString(q.index + 1) + " of " + NatToString(|q.questions|)
  }

  /** The counter reads back as the question's one-based position after
      the `"Question "` prefix, and as the number of questions after the
      position and `" of "`. */
  lemma CounterReadsBack(q: QuizState)
    requires Valid(q)
    ensures Counter(q)[..|"Question "|] == "Question "
    ensures ParseInt(Counter(q)[|"Question "|..]) == Some(q.index + 1)
  {
    var pos := NatToString(q.index + 1);
    var total := NatToString(|q.questions|);
    CounterParts("Question ", pos, " of ", total);
    ParseIntOfNatToString(q.index + 1, " of " + total);
  }

  /** The number of questions reads back after the position and `" of "`. */
  lemma CounterTotalReadsBack(q: QuizState)
    requires Valid(q)
    ensures ParseInt(Counter(q)[|"Question "| + |NatToString(q.index + 1)| + |" of "|..]) == Some(|q.questions|)
  {
    var total := NatToString(|q.questions|);
    var tail := Counter(q)[|"Question "| + |NatToString(q.index + 1)| + |" of "|..];
    CounterParts("Question ", NatToString(q.index + 1), " of ", total);
    assert tail == total + [];
    ParseIntOfNatToString(|q.questions|, []);
  }

  /** Where the three parts of `a + b + c + d` begin. */
  lemma CounterParts(a: string, b: string, c: string, d: string)
    ensures (a + b + c + d)[..|a|] == a
    ensures (a + b + c + d)[|a|..] == b + (c + d)
    ensures (a + b + c + d)[|a| + |b| + |c|..] == d + []
  {
  }

  /** The feedback shown once the last question has been answered and the
      learner moves on. */
  const CompletedMessage: string := "\U{1F389} Quiz completed!"
}

=== FILE: session_store.dfy ===
/** The `learning_sessions` table as the routes use it: a map from session id
    to row, every read and delete scoped by the owner's user id
    (backend/routes/learning.js, `InputHandler.storeLearningSession`,
    `getLearningSession`, `getUserSessions`, `deleteLearningSession`). */
module SessionStore {
  import opened Wrappers
  import opened Json
  import opened PromptBuilder

  /** One stored session. `sourceDocument` is `None` where the column holds
      SQL `NULL`; `createdAt` is a millisecond timestamp. */
  datatype Row = Row(
    userId: string,
    topic: string,
    goal: string,
    level: string,
    learningStyle: string,
    sourceDocument: Option<string>,
    content: Json,
    createdAt: int)

  /** The table, keyed by its primary key `session_id`. */
  type Store = map<string, Row>

  /** Why an insert is refused. */
  datatype StoreError = DuplicateSessionId | ValueTooLong | UnknownUser

  /** Declared widths of the bounded columns. */
  const SessionIdWidth: nat := 255
  const UserIdWidth: nat := 255
  const TopicWidth: nat := 500
  const LevelWidth: nat := 100
  const StyleWidth: nat := 100

  predicate AllSpaces(s: string) {
    forall i :: 0 <= i < |s| ==> s[i] == ' '
  }

  /** Assigning a string to a `VARCHAR(n)` column: it is stored as is when it
      fits, cut to `n` characters when everything past `n` is spaces, and
      refused otherwise. */
  function Varchar(s: string, n: nat): (r: Option<string>)
    ensures r.Some? <==> |s| <= n || AllSpaces(s[n..])
    ensures r.Some? ==> |r.value| <= n && r.value <= s && AllSpaces(s[|r.value|..])
    ensures |s| <= n ==> r == Some(s)
    ensures r.Some? && |s| > n ==> |r.value| == n
  {
    if |s| <= n then Some(s)
    else if AllSpaces(s[n..]) then Some(s[..n])
    else None
  }

  /** `sourceDocument || null`: the empty string is stored as `NULL`. */
  function NullIfEmpty(s: string): (r: Option<string>)
    ensures r.None? <==> s == ""
    ensures r.Some? ==> r.value == s
  {
    if s == "" then None else Some(s)
  }

  /** The key and the row one insert would write, or `None` when a bounded
      column would refuse its value. */
  function NewRow(sessionId: string, userId: string, inputs: LearnerInputs,
                  content: Json, createdAt: int): Option<(string, Row)>
  {
    match (Varchar(sessionId, SessionIdWidth), Varchar(userId, UserIdWidth),
           Varchar(inputs.topic, TopicWidth), Varchar(inputs.level, LevelWidth),
           Varchar(inputs.learningStyle, StyleWidth))
    case (Some(key), Some(owner), Some(topic), Some(level), Some(style)) =>
      Some((key, Row(owner, topic, inputs.goal, level, style,
                     NullIfEmpty(inputs.sourceDocument), content, createdAt)))
    case _ => None
  }

  /** Every bounded column receives a value within its width. */
  predicate Fits(sessionId: string, userId: string, inputs: LearnerInputs) {
    && |sessionId| <= SessionIdWidth
    && |userId| <= UserIdWidth
    && |inputs.topic| <= TopicWidth
    && |inputs.level| <= LevelWidth
    && |inputs.learningStyle| <= StyleWidth
  }

  /** Referential integrity of the table: every row's owner is a user. */
  predicate OwnersKnown(db: Store, users: set<string>) {
    forall k :: k in db ==> db[k].userId in users
  }

  /** `storeLearningSession`: one `INSERT`. `users` is the set of ids in
      the `users` table that `user_id` references (learning.js:42). The insert
      fails on a value too long for its column, on a session id already
      present or on an owner the `users` table does not hold, and otherwise
      adds exactly one row and changes no other. */
  function Insert(db: Store, users: set<string>, sessionId: string, userId: string,
                  inputs: LearnerInputs, content: Json, createdAt: int): (r: Result<Store, StoreError>)
    ensures Fits(sessionId, userId, inputs) ==>
      (r.Ok? <==> sessionId !in db && userId in users)
    ensures r.Ok? ==> forall k :: k in r.value && k !in db ==> r.value[k].userId in users
    ensures r.Ok? && OwnersKnown(db, users) ==> OwnersKnown(r.value, users)
    ensures r.Ok? ==> exists key :: key in r.value && key !in db && r.value.Keys == db.Keys + {key}
    ensures r.Ok? ==> forall k :: k in db ==> k in r.value && r.value[k] == db[k]
    ensures r.Ok? && Fits(sessionId, userId, inputs) ==>
      && sessionId in r.value
      && r.value[sessionId].userId == userId
      && r.value[sessionId].topic == inputs.topic
      && r.value[sessionId].goal == inputs.goal
      && r.value[sessionId].level == inputs.level
      && r.value[sessionId].learningStyle == inputs.learningStyle
      && r.value[sessionId].sourceDocument == NullIfEmpty(inputs.sourceDocument)
      && r.value[sessionId].content == content
      && r.value[sessionId].createdAt == createdAt
    ensures r.Ok? ==>
      && Varchar(sessionId, SessionIdWidth).Some?
      && Varchar(userId, UserIdWidth).Some?
      && Varchar(inputs.topic, TopicWidth).Some?
      && Varchar(inputs.level, LevelWidth).Some?
      && Varchar(inputs.learningStyle, StyleWidth).Some?
      && var key := Varchar(sessionId, SessionIdWidth).value;
         && key in r.value
         && r.value[key] == Row(Varchar(userId, UserIdWidth).value, Varchar(inputs.topic, TopicWidth).value,
                                inputs.goal, Varchar(inputs.level, LevelWidth).value,
                                Varchar(inputs.learningStyle, StyleWidth).value,
                                NullIfEmpty(inputs.sourceDocument), content, createdAt)
  {
    match NewRow(sessionId, userId, inputs, content, createdAt)
    case None => Err(ValueTooLong)
    case Some((key, row)) =>
      if key in db then Err(DuplicateSessionId)
      else if row.userId !in users then Err(UnknownUser)
      else Ok(db[key := row])
  }

  /** `getLearningSession`: the row when the id exists and belongs to the
      user; a row owned by someone else reads exactly like a missing one. */
  function Get(db: Store, sessionId: string, userId: string): (r: Option<Row>)
    ensures r.Some? <==> sessionId in db && db[sessionId].userId == userId
    ensures r.Some? ==> r.value == db[sessionId] && r.value.userId == userId
  {
    if sessionId in db && db[sessionId].userId == userId then Some(db[sessionId]) else None
  }

  /** The four columns the session list selects. */
  datatype Summary = Summary(sessionId: string, topic: string, learningStyle: string, createdAt: int)

  function SummaryOf(sessionId: string, row: Row): Summary {
    Summary(sessionId, row.topic, row.learningStyle, row.createdAt)
  }

  /** `ORDER BY created_at DESC`: newest first; ties in any order. */
  predicate SortedDesc(s: seq<Summary>) {
    forall i, j :: 0 <= i < j < |s| ==> s[i].createdAt >= s[j].createdAt
  }

  predicate DistinctIds(s: seq<Summary>) {
    forall i, j :: 0 <= i < j < |s| ==> s[i].sessionId != s[j].sessionId
  }

  function Ids(s: seq<Summary>): set<string> {
    set i | 0 <= i < |s| :: s[i].sessionId
  }

  /** The ids of the user's sessions. */
  function OwnedIds(db: Store, userId: string): set<string> {
    set k | k in db && db[k].userId == userId
  }

  /** Where `x` goes in a newest-first list: after every strictly newer
      entry, before the rest. */
  function InsertPos(s: seq<Summary>, x: Summary): (i: nat)
    requires SortedDesc(s)
    ensures i <= |s|
    ensures forall j :: 0 <= j < i ==> s[j].createdAt > x.createdAt
    ensures forall j :: i <= j < |s| ==> s[j].createdAt <= x.createdAt
  {
    if s == [] || s[0].createdAt <= x.createdAt then 0
    else 1 + InsertPos(s[1..], x)
  }

  /** Positions of `s[..i] + [x] + s[i..]`. */
  lemma SpliceAt(s: seq<Summary>, i: nat, x: Summary)
    requires i <= |s|
    ensures var r := s[..i] + [x] + s[i..];
            && |r| == |s| + 1
            && r[i] == x
            && (forall j :: 0 <= j < i ==> r[j] == s[j])
            && (forall j :: i < j < |r| ==> r[j] == s[j - 1])
  {
  }

  lemma SpliceIds(s: seq<Summary>, i: nat, x: Summary)
    requires i <= |s|
    ensures Ids(s[..i] + [x] + s[i..]) == Ids(s) + {x.sessionId}
  {
    var r := s[..i] + [x] + s[i..];
    SpliceAt(s, i, x);
    forall k | k in Ids(r) ensures k in Ids(s) + {x.sessionId} {
      var j :| 0 <= j < |r| && r[j].sessionId == k;
      if j < i { assert s[j].sessionId == k; }
      else if j > i { assert s[j - 1].sessionId == k; }
    }
    forall k | k in Ids(s) + {x.sessionId} ensures k in Ids(r) {
      if k == x.sessionId { assert r[i].sessionId == k; }
      else {
        var j :| 0 <= j < |s| && s[j].sessionId == k;
        if j < i { assert r[j].sessionId == k; } else { assert r[j + 1].sessionId == k; }
      }
    }
  }

  lemma SpliceDistinct(s: seq<Summary>, i: nat, x: Summary)
    requires i <= |s|
    requires DistinctIds(s) && x.sessionId !in Ids(s)
    ensures DistinctIds(s[..i] + [x] + s[i..])
  {
    var r := s[..i] + [x] + s[i..];
    SpliceAt(s, i, x);
    forall a, b | 0 <= a < b < |r| ensures r[a].sessionId != r[b].sessionId {
      if a == i { assert s[b - 1].sessionId in Ids(s); }
      else if b == i { assert s[a].sessionId in Ids(s); }
    }
  }

  /** Places `x` in a newest-first list, keeping it newest first. */
  function InsertDesc(s: seq<Summary>, x: Summary): (r: seq<Summary>)
    requires SortedDesc(s)
    ensures SortedDesc(r)
    ensures |r| == |s| + 1
    ensures forall y :: y in r <==> y in s || y == x
    ensures Ids(r) == Ids(s) + {x.sessionId}
    ensures DistinctIds(s) && x.sessionId !in Ids(s) ==> DistinctIds(r)
  {
    var i := InsertPos(s, x);
    SpliceSorted(s, i, x);
    SpliceMembers(s, i, x);
    SpliceIds(s, i, x);
    if DistinctIds(s) && x.sessionId !in Ids(s) then
      SpliceDistinct(s, i, x);
      s[..i] + [x] + s[i..]
    else
      s[..i] + [x] + s[i..]
  }

  /** Splicing `x` in after every strictly newer entry and before the rest
      keeps a list newest first. */
  lemma SpliceSorted(s: seq<Summary>, i: nat, x: Summary)
    requires SortedDesc(s) && i <= |s|
    requires forall j :: 0 <= j < i ==> s[j].createdAt > x.createdAt
    requires forall j :: i <= j < |s| ==> s[j].createdAt <= x.createdAt
    ensures SortedDesc(s[..i] + [x] + s[i..])
  {
    SpliceAt(s, i, x);
  }

  /** The splice holds `x` and the entries of `s`, and nothing else. */
  lemma SpliceMembers(s: seq<Summary>, i: nat, x: Summary)
    requires i <= |s|
    ensures var r := s[..i] + [x] + s[i..];
            |r| == |s| + 1 && forall y :: y in r <==> y in s || y == x
  {
    assert s == s[..i] + s[i..];
  }

  /** A correct answer to the session-list query: newest first, each of the
      user's sessions once and nothing else, each projected to id, topic,
      style and creation time. */
  predicate IsListing(db: Store, userId: string, r: seq<Summary>) {
    && SortedDesc(r)
    && DistinctIds(r)
    && Ids(r) == OwnedIds(db, userId)
    && (forall y :: y in r ==> y.sessionId in db && y == SummaryOf(y.sessionId, db[y.sessionId]))
  }

  /** `getUserSessions`. */
  method ListUserSessions(db: Store, userId: string) returns (r: seq<Summary>)
    ensures SortedDesc(r)
    ensures DistinctIds(r)
    ensures Ids(r) == OwnedIds(db, userId)
    ensures forall y :: y in r ==> y.sessionId in db && y == SummaryOf(y.sessionId, db[y.sessionId])
  {
    r := [];
    var remaining := db.Keys;
    while remaining != {}
      invariant remaining <= db.Keys
      invariant SortedDesc(r)
      invariant DistinctIds(r)
      invariant Ids(r) == OwnedIds(db, userId) - remaining
      invariant forall y :: y in r ==> y.sessionId in db && y == SummaryOf(y.sessionId, db[y.sessionId])
      decreases remaining
    {
      var k :| k in remaining;
      if db[k].userId == userId {
        r := InsertDesc(r, SummaryOf(k, db[k]));
      }
      remaining := remaining - {k};
    }
  }

  /** `deleteLearningSession`: removes the row only when it exists and
      belongs to the user, and reports whether it did; nothing else changes. */
  function Delete(db: Store, sessionId: string, userId: string): (r: (Store, bool))
    ensures r.1 <==> Get(db, sessionId, userId).Some?
    ensures r.1 ==> r.0.Keys == db.Keys - {sessionId}
    ensures !r.1 ==> r.0 == db
    ensures forall k :: k in r.0 ==> k in db && r.0[k] == db[k]
  {
    if sessionId in db && db[sessionId].userId == userId then (db - {sessionId}, true)
    else (db, false)
  }

  /** A second delete of the same session reports that nothing was deleted,
      and the first left every other user's view unchanged. */
  lemma DeleteTwice(db: Store, sessionId: string, userId: string)
    ensures var (db1, _) := Delete(db, sessionId, userId);
            !Delete(db1, sessionId, userId).1 && Delete(db1, sessionId, userId).0 == db1
    ensures var (db1, _) := Delete(db, sessionId, userId);
            forall k, u :: k != sessionId ==> Get(db1, k, u) == Get(db, k, u)
  {
  }

  /** Storing a session for a registered user and reading it back as its
      owner gives the inputs as they were sent (an empty source document
      reading back as `NULL`); any other user still sees nothing. */
  lemma StoreThenGet(db: Store, users: set<string>, sessionId: string, userId: string, other: string,
                     inputs: LearnerInputs, content: Json, createdAt: int)
    requires Fits(sessionId, userId, inputs)
    requires sessionId !in db
    requires userId in users
    requires other != userId
    ensures Insert(db, users, sessionId, userId, inputs, content, createdAt).Ok?
    ensures var db1 := Insert(db, users, sessionId, userId, inputs, content, createdAt).value;
            && Get(db1, sessionId, userId) ==
                 Some(Row(userId, inputs.topic, inputs.goal, inputs.level, inputs.learningStyle,
                          NullIfEmpty(inputs.sourceDocument), content, createdAt))
            && Get(db1, sessionId, other).None?
  {
  }

  /** A stored session shows up in its owner's list and, after deletion, no
      longer does. */
  lemma ListedUntilDeleted(db: Store, sessionId: string, userId: string)
    requires Get(db, sessionId, userId).Some?
    ensures sessionId in OwnedIds(db, userId)
    ensures sessionId !in OwnedIds(Delete(db, sessionId, userId).0, userId)
    ensures OwnedIds(Delete(db, sessionId, userId).0, userId) == OwnedIds(db, userId) - {sessionId}
  {
  }
}

=== FILE: session_view.dfy ===
/** How the learning-session page of frontend/js/learning_session.js turns
    its URL and the server's answer into what the learner sees: the session
    id taken from the path, the load step, and the dispatch on the learning
    style (`loadLearningSession`, `displayContent`, `displayFlashcards`,
    `displayQuiz`, `displayStudyGuide`, `displayAssignment`). */
module SessionView {
  import opened Wrappers
  import opened JsText
  import opened Json
  import opened Http
  import Flashcards
  import Quiz
  import opened Formatter
  import opened LlmResponse
  import opened SessionStore
  import opened LearningRoutes

  /** `window.location.pathname.split('/').pop()`: the last segment. */
  function SessionIdFromPath(path: string): (id: string)
    ensures '/' !in id
  {
    var parts := SplitOn(path, '/');
    parts[|parts| - 1]
  }

  /** The last segment of a join is a suffix of it, and what precedes it is
      empty or ends with the separator. */
  lemma {:induction false} JoinEndsWithLast(parts: seq<string>, sep: char)
    requires |parts| > 0
    ensures var j := Join(parts, sep); var last := parts[|parts| - 1];
            && |last| <= |j| && j[|j| - |last|..] == last
            && (|parts| > 1 ==> |j| > |last| && j[|j| - |last| - 1] == sep)
    decreases |parts|
  {
    if |parts| > 1 {
      var rest := Join(parts[1..], sep);
      JoinEndsWithLast(parts[1..], sep);
      var last := parts[|parts| - 1];
      assert parts[1..][|parts[1..]| - 1] == last;
      var j := parts[0] + [sep] + rest;
      assert j[|j| - |rest|..] == rest;
      assert j[|j| - |last|..] == rest[|rest| - |last|..];
      if |parts| == 2 {
        assert rest == last;
        assert j[|j| - |last| - 1] == sep;
      } else {
        assert j[|j| - |last| - 1] == rest[|rest| - |last| - 1];
      }
    }
  }

  /** The id is the longest separator-free tail of the path: the path ends
      with it, and just before it comes a `/` unless it is the whole path. */
  lemma PathEndsWithId(path: string)
    ensures var id := SessionIdFromPath(path);
            && |id| <= |path| && path[|path| - |id|..] == id
            && (|id| < |path| ==> path[|path| - |id| - 1] == '/')
  {
    var parts := SplitOn(path, '/');
    JoinEndsWithLast(parts, '/');
    if |parts| == 1 {
      assert Join(parts, '/') == parts[0];
    }
  }

  const SessionPagePrefix: string := "/learning-session/"

  /** The page the home page sends the learner to after generating, opened
      on that path, reads back the same session id. */
  lemma PathRoundTrip(id: string)
    requires '/' !in id
    ensures SessionIdFromPath(SessionPagePrefix + id) == id
  {
    var parts := ["", "learning-session", id];
    assert Join(parts[2..], '/') == id;
    assert Join(parts[1..], '/') == "learning-session" + "/" + id;
    assert Join(parts, '/') == SessionPagePrefix + id;
    SplitJoin(parts, '/');
  }

  /** What the page shows once loading is over. */
  datatype View =
    | RedirectToAuth
    | Cards(deck: Flashcards.Deck)
    | QuizView(quiz: Quiz.QuizState)
    | Guide(html: string)
    | Assignment(html: string)
    | ErrorView(message: string)
    /** The page renders, but from a value whose rendering the model does
        not follow (an object posing as an array). */
    | Unrendered

  const LoadFailed: string := "Failed to load learning session. Please try again."
  const NoFlashcards: string := "No flashcards available"
  const NoQuestions: string := "No quiz questions available"

  const FlashcardsStyle: string := "Flashcards"
  const QuizStyle: string := "Practice Quizzes"
  const GuideStyle: string := "Study Guide"
  const AssignmentStyle: string := "Practice Assignments"

  /** The four learning styles the page knows, compared by strict equality. */
  predicate KnownStyle(style: Access) {
    style in {Val(JStr(FlashcardsStyle)), Val(JStr(QuizStyle)), Val(JStr(GuideStyle)), Val(JStr(AssignmentStyle))}
  }

  /** The decimal text of an integer, with a minus sign when negative. */
  function IntText(n: int): string {
    if n < 0 then "-" + NatToString(-n) else NatToString(n)
  }

  /** `String(v)` for a JSON value: arrays join their elements with commas,
      `null` elements giving the empty string; every object gives
      `[object Object]`. */
  function JsString(v: Json): string
    decreases v
  {
    match v
    case JNull => "null"
    case JBool(b) => if b then "true" else "false"
    case JNum(n) => IntText(n)
    case JStr(s) => s
    case JObj(_) => "[object Object]"
    case JArr(items) =>
      JoinTexts(seq(|items|, i requires 0 <= i < |items| =>
        if items[i] == JNull then "" else JsString(items[i])))
  }

  function JoinTexts(texts: seq<string>): string {
    if texts == [] then "" else Join(texts, ',')
  }

  /** The learning style as a template literal shows it. */
  function StyleText(style: Access): string {
    match style
    case Val(v) => JsString(v)
    case _ => "undefined"
  }

  function UnknownStyle(style: Access): string {
    "Unknown learning style: \"" + StyleText(style) +
    "\". Available styles: Flashcards, Practice Quizzes, Study Guide, Practice Assignments"
  }

  /** `length === 0` on a value that is not an array or a string. */
  predicate ZeroLength(x: Access) {
    Member(x, "length") == Val(JNum(0))
  }

  /** The positions of the `null` cards in a list: displaying one of them
      throws when its `question` is read. */
  function NullPositions(items: seq<Json>): (p: set<nat>)
    ensures forall i: nat :: i in p <==> i < |items| && items[i] == JNull
  {
    set i: nat | i < |items| && items[i] == JNull
  }

  /** `displayFlashcards`, for the first display, so on card 0. A missing
      or empty list gives its own message; reading `question` of a first
      card that is `null` or `undefined` throws, which the load step turns
      into its failure message. A string is indexed character by
      character, so it renders as a deck of its characters' count. */
  function ShowFlashcards(f: Access): (r: View)
    ensures r.Cards? ==> Flashcards.Valid(r.deck) && Flashcards.InSync(r.deck) && r.deck.index == 0 && !r.deck.flipped
    ensures f.Val? && f.v.JArr? ==>
      r == (if f.v.items == [] then ErrorView(NoFlashcards)
            else if f.v.items[0] == JNull then ErrorView(LoadFailed)
            else Cards(Flashcards.Open(|f.v.items|, NullPositions(f.v.items))))
    ensures !Truthy(f) && !f.Thrown? ==> r == ErrorView(NoFlashcards)
    ensures f.Thrown? ==> r == ErrorView(LoadFailed)
  {
    if f.Thrown? then ErrorView(LoadFailed)
    else if !Truthy(f) then ErrorView(NoFlashcards)
    else match f.v
      case JArr(items) =>
        if items == [] then ErrorView(NoFlashcards)
        else if items[0] == JNull then ErrorView(LoadFailed)
        else Cards(Flashcards.Open(|items|, NullPositions(items)))
      case JStr(s) => Cards(Flashcards.Open(|s|, {}))
      case JObj(m) =>
        if ZeroLength(f) then ErrorView(NoFlashcards)
        else if "0" !in m || m["0"] == JNull then ErrorView(LoadFailed)
        else Unrendered
      case _ => ErrorView(LoadFailed)
  }

  /** `displayQuiz` for the first question: as for the cards, and in
      addition the first question's `options` must be an array, since its
      `forEach` is called. */
  function ShowQuiz(q: Access): (r: View)
    ensures r.QuizView? ==> Quiz.Valid(r.quiz) && r.quiz.index == 0 && r.quiz.phase == Quiz.Answering
    ensures r.QuizView? ==> Quiz.AnswersRendered(r.quiz)
    ensures q.Val? && q.v.JArr? ==>
      r == (if q.v.items == [] then ErrorView(NoQuestions)
            else if Member(Val(q.v.items[0]), "options").Val? && Member(Val(q.v.items[0]), "options").v.JArr?
            then QuizView(Quiz.Start(q.v.items))
            else ErrorView(LoadFailed))
    ensures !Truthy(q) && !q.Thrown? ==> r == ErrorView(NoQuestions)
    ensures q.Thrown? ==> r == ErrorView(LoadFailed)
  {
    if q.Thrown? then ErrorView(LoadFailed)
    else if !Truthy(q) then ErrorView(NoQuestions)
    else match q.v
      case JArr(items) =>
        if items == [] then ErrorView(NoQuestions)
        else
          var options := Member(Val(items[0]), "options");
          if options.Val? && options.v.JArr? then QuizView(Quiz.Start(items))
          else ErrorView(LoadFailed)
      case JObj(m) =>
        if ZeroLength(q) then ErrorView(NoQuestions)
        else if "0" !in m then ErrorView(LoadFailed)
        else
          var options := Member(Val(m["0"]), "options");
          if options.Val? && options.v.JArr? then Unrendered else ErrorView(LoadFailed)
      case _ => ErrorView(LoadFailed)
  }

  /** `displayStudyGuide` and `displayAssignment`: only a string has the
      `replace` the formatter calls; anything else throws. */
  function ShowText(x: Access, assignment: bool): (r: View)
    ensures x.Val? && x.v.JStr? ==> r == (if assignment then Assignment(Format(x.v.s)) else Guide(Format(x.v.s)))
    ensures !(x.Val? && x.v.JStr?) ==> r == ErrorView(LoadFailed)
  {
    match x
    case Val(JStr(s)) => if assignment then Assignment(Format(s)) else Guide(Format(s))
    case _ => ErrorView(LoadFailed)
  }

  /** `currentSession.content.content.<field>`. */
  function Material(session: Json, field: string): Access {
    Member(Member(Member(Val(session), "content"), "content"), field)
  }

  function StyleOf(session: Json): Access {
    Member(Member(Val(session), "inputs"), "learningStyle")
  }

  /** `displayContent`: destructuring the session and reading the style
      throw on `null`; then the switch on the exact style name. */
  function Display(session: Json): (r: View)
    ensures StyleOf(session).Thrown? ==> r == ErrorView(LoadFailed)
    ensures StyleOf(session) == Val(JStr(FlashcardsStyle)) ==> r == ShowFlashcards(Material(session, "flashcards"))
    ensures StyleOf(session) == Val(JStr(QuizStyle)) ==> r == ShowQuiz(Material(session, "quiz"))
    ensures StyleOf(session) == Val(JStr(GuideStyle)) ==> r == ShowText(Material(session, "studyGuide"), false)
    ensures StyleOf(session) == Val(JStr(AssignmentStyle)) ==> r == ShowText(Material(session, "assignment"), true)
    ensures !StyleOf(session).Thrown? && !KnownStyle(StyleOf(session)) ==>
      r == ErrorView(UnknownStyle(StyleOf(session)))
  {
    var style := StyleOf(session);
    if style.Thrown? then ErrorView(LoadFailed)
    else if style == Val(JStr(FlashcardsStyle)) then ShowFlashcards(Material(session, "flashcards"))
    else if style == Val(JStr(QuizStyle)) then ShowQuiz(Material(session, "quiz"))
    else if style == Val(JStr(GuideStyle)) then ShowText(Material(session, "studyGuide"), false)
    else if style == Val(JStr(AssignmentStyle)) then ShowText(Material(session, "assignment"), true)
    else ErrorView(UnknownStyle(style))
  }

  /** `loadLearningSession` after the page's start-up check: no stored
      token sends the learner to the sign-in page; a response outside
      200-299 shows the load failure; otherwise the body is displayed. */
  function LoadSession(authToken: Option<string>, resp: Response): (r: View)
    ensures r == RedirectToAuth <==> authToken.None? || authToken == Some("")
    ensures authToken.Some? && authToken.value != "" && !(200 <= resp.status <= 299) ==>
      r == ErrorView(LoadFailed)
    ensures authToken.Some? && authToken.value != "" && 200 <= resp.status <= 299 ==>
      r == Display(resp.body)
  {
    if authToken.None? || authToken == Some("") then RedirectToAuth
    else if !(200 <= resp.status <= 299) then ErrorView(LoadFailed)
    else Display(resp.body)
  }

  /** A session whose content is a complete learning material and whose
      style is one of the four never fails to load and always renders: the
      learner sees the material or the message for an empty list. */
  lemma MaterialAlwaysRenders(session: Json)
    requires Member(Val(session), "content").Val?
    requires IsLearningMaterial(Member(Val(session), "content").v)
    requires KnownStyle(StyleOf(session))
    ensures Display(session) != ErrorView(LoadFailed)
    ensures Display(session) != Unrendered
    ensures Display(session).ErrorView? ==> Display(session).message in {NoFlashcards, NoQuestions}
  {
    var m := Member(Val(session), "content").v;
    assert Material(session, "flashcards") == Val(ContentField(m, "flashcards").value);
    assert Material(session, "quiz") == Val(ContentField(m, "quiz").value);
    assert Material(session, "studyGuide") == Val(ContentField(m, "studyGuide").value);
    assert Material(session, "assignment") == Val(ContentField(m, "assignment").value);
    var cards := ContentField(m, "flashcards").value.items;
    if cards != [] {
      assert cards[0] in cards;
      assert WellFormedCard(cards[0]);
    }
    var qs := ContentField(m, "quiz").value.items;
    if qs != [] {
      assert qs[0] in qs;
      assert WellFormedQuestion(qs[0]);
    }
  }

  /** A session with this style and this stored content, as the session
      route serialises it. */
  function StoredRow(style: string, content: Json): Row {
    Row("u", "topic", "goal", "level", style, None, content, 0)
  }

  /** The session page over the session route: the owner of a stored
      session sees it displayed, anyone else sees the load failure. */
  lemma PageOverRoute(db: Store, sessionId: string, userId: string, authToken: string)
    requires authToken != ""
    ensures sessionId in db && db[sessionId].userId == userId ==>
      LoadSession(Some(authToken), GetSession(db, sessionId, userId)) ==
      Display(SessionJson(sessionId, db[sessionId]))
    ensures !(sessionId in db && db[sessionId].userId == userId) ==>
      LoadSession(Some(authToken), GetSession(db, sessionId, userId)) == ErrorView(LoadFailed)
  {
  }

  /** What a stored row shows is decided by its learning style and content
      alone. */
  lemma StoredStyleDecides(sessionId: string, row: Row)
    ensures StyleOf(SessionJson(sessionId, row)) == Val(JStr(row.learningStyle))
    ensures forall f :: Material(SessionJson(sessionId, row), f) == Member(Member(Val(row.content), "content"), f)
  {
  }

  /** When the model call failed, the stored error material shows one card
      to a flashcard learner, ... */
  lemma SentinelFlashcards(now: int)
    ensures Display(SessionJson("s", StoredRow(FlashcardsStyle, ErrorSentinel(now)))) ==
            Cards(Flashcards.Open(1, {}))
  {
    ErrorSentinelShape(now);
    var sentinel := ErrorSentinel(now);
    StoredStyleDecides("s", StoredRow(FlashcardsStyle, sentinel));
    var c := ContentField(sentinel, "flashcards").value.items[0];
    assert c in ContentField(sentinel, "flashcards").value.items;
    assert WellFormedCard(c);
  }

  /** ... one question to a quiz learner, ... */
  lemma SentinelQuiz(now: int)
    ensures Display(SessionJson("s", StoredRow(QuizStyle, ErrorSentinel(now)))).QuizView?
  {
    ErrorSentinelShape(now);
    var sentinel := ErrorSentinel(now);
    StoredStyleDecides("s", StoredRow(QuizStyle, sentinel));
    var q := ContentField(sentinel, "quiz").value.items[0];
    assert q in ContentField(sentinel, "quiz").value.items;
    assert WellFormedQuestion(q);
  }

  /** ... and the error message, formatted, to a study-guide learner. */
  lemma SentinelGuide(now: int)
    ensures Display(SessionJson("s", StoredRow(GuideStyle, ErrorSentinel(now)))) ==
            Guide(Format(ErrorMessage))
  {
    ErrorSentinelShape(now);
    StoredStyleDecides("s", StoredRow(GuideStyle, ErrorSentinel(now)));
  }

  /** When the reply was not JSON, a flashcard or quiz learner is told
      there is nothing to show, while a study-guide learner gets the raw
      reply, formatted. */
  lemma TextFallbackViews(text: string, now: int)
    ensures Display(SessionJson("s", StoredRow(FlashcardsStyle, TextFallback(text, now)))) ==
            ErrorView(NoFlashcards)
    ensures Display(SessionJson("s", StoredRow(QuizStyle, TextFallback(text, now)))) ==
            ErrorView(NoQuestions)
    ensures Display(SessionJson("s", StoredRow(GuideStyle, TextFallback(text, now)))) ==
            Guide(Format(text))
  {
    TextFallbackShape(text, now);
    var fallback := TextFallback(text, now);
    StoredStyleDecides("s", StoredRow(FlashcardsStyle, fallback));
    StoredStyleDecides("s", StoredRow(QuizStyle, fallback));
    StoredStyleDecides("s", StoredRow(GuideStyle, fallback));
  }

  /** A stored style other than the four exact names is reported, quoted
      as it was stored. */
  lemma UnknownStyleQuoted(sessionId: string, row: Row)
    requires row.learningStyle !in {FlashcardsStyle, QuizStyle, GuideStyle, AssignmentStyle}
    ensures Display(SessionJson(sessionId, row)) ==
            ErrorView("Unknown learning style: \"" + row.learningStyle +
                      "\". Available styles: Flashcards, Practice Quizzes, Study Guide, Practice Assignments")
  {
    StoredStyleDecides(sessionId, row);
  }

  /** The switch compares exactly: a style is known only when it is one of
      the four names, and any other spelling of a known name that differs
      from it only in letter case is unknown. */
  lemma CaseMattersForStyle(s: string, known: string)
    requires known in {FlashcardsStyle, QuizStyle, GuideStyle, AssignmentStyle}
    requires ToLower(s) == ToLower(known) && s != known
    ensures !KnownStyle(Val(JStr(s)))
  {
    // The four names have four different lengths, and lower-casing keeps length.
    assert |s| == |known|;
    assert |FlashcardsStyle| == 10 && |GuideStyle| == 11;
    assert |QuizStyle| == 16 && |AssignmentStyle| == 20;
  }

  /** A lower-case spelling of the flashcards style falls through to the
      unknown-style message. */
  lemma LowerCaseFlashcardsUnknown()
    ensures !KnownStyle(Val(JStr("flashcards")))
  {
    CaseMattersForStyle("flashcards", FlashcardsStyle);
  }
}

=== FILE: wrappers.dfy ===
/** Failure-carrying datatypes shared by the whole model: a JavaScript value
    that may be `undefined` becomes an `Option`, a route that answers with an
    HTTP error becomes a `Result`. */
module Wrappers {

  datatype Option<+T> = None | Some(value: T)

  datatype Result<+T, +E> = Ok(value: T) | Err(error: E)
}
